=== FILE: README.md ===
# mysh core, modelled in Dafny

This project models eight sequential pieces of the `mysh` shell and proves properties about them. All models are pure functions over immutable data; the one loop is the chunked file copy.

- **`cp` planner and executor** (`src/cmds/cp.rs`).
  - Every source is dereferenced and walked.
  - Each entry becomes a work item in a plan keyed by destination path. The plan is a `BTreeMap`, modelled as a list sorted in Rust's component-wise path order.
  - The plan then runs in two passes: directories and files first, links second.
  - The executor handles overwrite confirmation, Ctrl+C and an 8192-byte copy loop.
- **Link resolver** (`src/symlnk.rs`). It walks a path component by component, memoises a link oracle, and re-resolves substituted prefixes.
- **Flag parser** (`src/cmds/flags.rs`). It covers registration, long and short flags, clusters, values, `--no-` negation, defaults and the lenient `parse_all`.
- **`du`** (`src/cmds/du.rs`). A recursive size fold over an entry tree, with:
  - de-duplication by file identifier;
  - block rounding;
  - the depth-dependent print rule;
  - the argument loop.
- **`less` pager** (`src/cmds/less.rs`). Cursor movement, clamping, forward/backward search with its search cursor, `display_line` with highlighting, and one key press of the main loop.
- **Prompt helpers** (`src/prompt.rs`). Answer classification, `confirm`, and the `\u \h \w \$` prompt expander.
- **Line-editing helpers** (`src/main.rs`). `escape_backslashes`, `split_delim`, `search_history` and `has_links`.
- **`alias` command** (`src/cmds/alias.rs`). Add, remove and list over the shell's command registry, plus how an alias forwards its words to `eval`.

## How the outside world is represented

- **File system.** It is a `map<Path, Node>`. A path is a sequence of Rust-style components (`RootDir`, `CurDir`, `ParentDir`, `Normal(name)`).
- **Oracles.** `canonicalize`, `dereference`, `utils::resolve_links`, `env::current_dir`, `Path::is_symlink` in `has_links`, the Windows block-size query, and `du`'s path resolution are all parameters (functions or `Result` values).
- **Ctrl+C.** The flag is a `Signal`: either never set, or set from the k-th poll on. It stays set once seen, like the shell's atomic flag.
- **Terminal input.** The lines typed at a prompt are a list of strings.
- **Shell variables.** The variable scope is a `map<string, string>`.
- **Panics.** A Rust panic is an error value whose message starts with `panic:` (`assert!`, `unwrap()` on `None`, a slice out of range, an integer underflow).
- **Error location.** The parser's `scope.set_err_arg` becomes an index carried by the error. The copier's argument position becomes the `arg` field of `CpError.Located`.

Quirks of the code that the model reproduces:
- A missing destination plus a non-empty plan is refused even under `-r` (`src/cmds/cp.rs:166-167`); see `CopyPlan.RecursiveCopyToMissingDest`.
- A registered long flag whose name starts with `no-` cannot be set through its long name: `--no-x` is always read as the negation of `x` (`Flags.NoPrefixedLongUnreachable`). Its short letter, if it has one, still sets it.
- On Windows, `du` creates the block-size cache afresh for every estimate (`src/cmds/du.rs:171`). The cache therefore never saves a query; `DiskUsage.OwnSize` models exactly that.

## Model

| member | source | states |
|---|---|---|
| CopyPlan.ResolveDest | src/cmds/cp.rs:136-149 | A non-directory destination maps every entry to itself. For a directory destination: `src == parent` gives `dest/file_name(src)`, and panics when there is no file name. A `parent` prefix is stripped and the rest is pushed onto `dest`. A non-prefix `src` comes back unchanged. |
| CopyPlan.ResolveDestInjective | src/cmds/cp.rs:136-149 | Two distinct entries below the same parent never share a destination key under a directory destination. |
| CopyPlan.CheckDirDest | src/cmds/cp.rs:160-170 | Once the plan is non-empty, a further file is refused unless the destination is an existing directory. The message depends on whether the destination exists ("into single destination" or "to non-existing directory"). |
| CopyPlan.AddCreateDir | src/cmds/cp.rs:152-158 | A `CreateDir` item is inserted under the resolved destination. The plan stays sorted and nothing else changes. |
| CopyPlan.AddCopy | src/cmds/cp.rs:173-187 | A directory source panics, and an inconsistent destination is refused. On success one `Copy` item is inserted under the resolved key, and an existing destination never has the same canonical path as the source. |
| CopyPlan.SameFileRejected | src/cmds/cp.rs:179-181 | An existing destination with the same canonical path as the source fails with "Source and destination are the same", located at the source's argument. |
| CopyPlan.SecondFileToMissingDest | src/cmds/cp.rs:166-167 | With a missing destination and a non-empty plan, adding a file fails with "Copying multiple sources to non-existing directory". |
| CopyPlan.AddLink | src/cmds/cp.rs:190-216 | An undereferenceable link fails with "Could not get link target". Otherwise the item is keyed by where the link lands and points at where its target lands. |
| CopyPlan.CollectPathInfo | src/cmds/cp.rs:222-285 | Ctrl+C stops without planning. A link under `-P`, a hidden name under `--no-hidden`, a directory without `-r`, and a directory already visited each plan nothing. A file adds exactly its length to the total and one `Copy` item under `resolve_dest`. Every successful step keeps the planner consistent. |
| CopyPlan.LinkPlanned | src/cmds/cp.rs:243-245 | A link (without `-P`) is planned as one `Link` item keyed by where the link lands under `resolve_dest`, pointing at where its target lands. A dangling link fails with "Could not get link target". |
| CopyPlan.NewDirPlanned | src/cmds/cp.rs:246-270 | Under `-r`, a directory whose canonical path is new marks that path visited and plans one `CreateDir` item under `resolve_dest`. The walk then goes on over its entries from exactly that state; an unreadable listing is an error. A failing `resolve_dest` fails the step. |
| CopyPlan.OneCreateDirPerCanonicalDir | src/cmds/cp.rs:251-263 | In a consistent plan no two `CreateDir` items share a canonical path. |
| CopyPlan.CollectChildren | src/cmds/cp.rs:266-274 | The loop over a directory's entries keeps the planner consistent: planned directories are visited and unique per canonical path, and the plan stays sorted. |
| CopyPlan.CollectSources | src/cmds/cp.rs:304-318 | A source that cannot be dereferenced fails with the resolver's error unchanged. Every successful run keeps the planner consistent. |
| CopyPlan.CollectSrcInfo | src/cmds/cp.rs:289-324 | No sources means the assertion panics. A destination that cannot be dereferenced fails, located at the destination argument. On success the planner's destination is the dereferenced destination and the plan is consistent. |
| CopyPlan.RecursiveCopyToMissingDest | src/cmds/cp.rs:166-167 | `cp -r /s /d` with `/d` missing and `/s` holding one file fails with the missing-directory error, because the directory is planned first. |
| CopyPlan.CollectOneFile | src/cmds/cp.rs:746-770 | Planning one 13-byte file gives exactly one `Copy` item and a total of 13, as the unit test expects. |
| CopyPlan.CheckArgs | src/cmds/cp.rs:630-650 | Help wins. No paths gives "Missing source and destination", one path gives "Missing destination", and otherwise the last path is the destination and the others are the sources. |
| CopyPlan.ExecHasSources | src/cmds/cp.rs:289-290 | A run accepted by the argument checks never trips the empty-sources assertion. |
| CopyPlan.NoSourcesOnlyAtStart | src/cmds/cp.rs:289-290 | The loop over the sources never raises the empty-sources panic. |
| CopyPlan.TruncatePathAsWritten | src/cmds/cp.rs:351-360 | The display string of the code as written is at most 30 characters. |
| CopyPlan.TruncatePathChangesShortPaths | src/cmds/cp.rs:354-355 | The code as written shows "a.txt" as something other than "a.txt". |
| CopyPlan.TruncatePath | src/cmds/cp.rs:351-360 | A path of at most 30 characters is shown unchanged. A longer one is shown as exactly 30 characters: "..." followed by its tail. |
| WorkPlan.Insert | src/cmds/cp.rs:155 | The plan stays sorted, the key set gains exactly the key, and only the new entry is added. The length grows only for a new key. |
| WorkPlan.GetInserted | src/cmds/cp.rs:214 | After an insert, the key maps to the new item, so a later insert with the same key replaces the earlier one. |
| WorkPlan.GetOther | src/cmds/cp.rs:184 | An insert leaves every other key's item as it was. |
| Paths.PathLessStrictTotal | src/cmds/cp.rs:131 | Rust's component-wise path order, which orders the plan's keys, is a strict total order. |
| CopyExec.CopyLoop | src/cmds/cp.rs:500-514 | The copy loop writes a prefix of the source. When it is not interrupted, it writes the whole source. It agrees with the chunk-by-chunk definition `Chunks`. |
| CopyExec.Chunks | src/cmds/cp.rs:501-515 | The bytes written are the source's bytes from `pos` on, in order. Running to the end means all of them. Without Ctrl+C it always runs to the end. |
| CopyExec.CopyFile | src/cmds/cp.rs:493-528 | On success the destination is a file holding a prefix of the source, or the whole source when not interrupted. The source is read after the destination was created or truncated, so a file copied onto itself ends up empty. No other path except the destination's parent changes, and no directory stops being one. Without Ctrl+C the copy always completes. A source missing at copy time fails with the unlocated "No such file or directory" error of the first `symlink_metadata` call. |
| CopyExec.ConfirmOverwrite | src/cmds/cp.rs:453-460 | With NO_CONFIRM set, the answer is Yes and no input is read. Otherwise the question "Overwrite DEST? (options) " is asked once and one line is consumed. |
| CopyExec.CopyItem | src/cmds/cp.rs:449-476 | A directory destination panics. Confirmation is switched off only by the answer All. A completed copy of another file leaves the destination equal to the source, or changes nothing (when the item was declined). Only the destination and its parent can change. Without confirmation and without Ctrl+C the item always completes and says go on. |
| CopyExec.OverwriteAnswers | src/cmds/cp.rs:455-470 | With an existing destination under confirmation: No skips the item and goes on, Quit stops the pass, and All turns confirmation off. In the first two cases the file system is unchanged. |
| CopyExec.Answered | src/cmds/cp.rs:460-471 | No skips the item and goes on. Quit stops the run. Only All changes the confirmation setting, and All switches it off. A finished copy leaves the destination equal to the source, or leaves the file system unchanged. After Yes or All, without Ctrl+C, the copy completes. |
| CopyExec.DoWorkItem | src/cmds/cp.rs:447-490 | `CreateDir` creates only a missing directory. `Link` creates the link at a free destination pointing at the planned target. `Copy` behaves as `CopyItem`. Each run item is logged. Without confirmation and without Ctrl+C every item says go on, and the state keeps both settings. |
| CopyExec.DoWorkActions | src/cmds/cp.rs:394-414 | The items run are a prefix of the plan's items with a selected action, in key order. They are all of them unless an item said stop. Only the destinations run and their parents change, new paths are among those destinations, and every directory stays one. Without confirmation and without Ctrl+C no item says stop, so the pass runs every selected item. |
| CopyExec.DoWork | src/cmds/cp.rs:416-445 | What runs is a prefix of the directory and file items, followed by links only if that first pass completed. Stopping early is not an error. A failure carries the retry advice exactly when it happened in the link pass. Paths that are neither a destination run nor the parent of one are unchanged. A first pass stopped by Quit or Ctrl+C ends the command successfully in the state it left. Without confirmation and without Ctrl+C a successful run runs every directory and file item, then every link, in key order. |
| CopyExec.FirstPassMakesDirs | src/cmds/cp.rs:473-480 | After the first pass, each `CreateDir` destination that ran holds a directory, unless a non-directory already stood there. |
| CopyExec.SelectedSorted | src/cmds/cp.rs:398-413 | Each pass visits its items in strictly increasing key order. |
| CopyExec.DirBeforeContents | src/cmds/cp.rs:422-423 | A directory's item comes before every item below it, so the first pass creates a directory before its contents. |
| CopyExec.CopyAll | src/cmds/cp.rs:382-392 | A planning failure is returned unchanged. A plan interrupted by Ctrl+C runs nothing and succeeds: the result is never an error, and the file system is untouched. |
| Symlinks.Lookup | src/symlnk.rs:37-46 | A cached prefix costs no oracle call. A miss calls the oracle once and caches its answer under that exact prefix. An oracle error is passed on. |
| Symlinks.SubstituteSpec | src/symlnk.rs:48-53 | An absolute answer replaces the accumulated path; a relative one replaces its last component. Either way the new path has no `.` after its first component, as `components()` skips them, and its other components are those of the answer (or of the popped path followed by the answer), in order. An absolute path stays absolute. |
| Symlinks.Walk | src/symlnk.rs:29-59 | The cache only grows. It holds exactly the prefixes asked about, each asked once, and each entry is the oracle's answer for its key. |
| Symlinks.ResolvePath | src/symlnk.rs:22-63 | The same cache discipline holds for a whole (nested) resolution. |
| Symlinks.Dereference | src/symlnk.rs:86-90 | A fresh cache per call. The oracle is asked at most once per distinct prefix, and the cache holds only its answers. |
| Symlinks.Resolve | src/symlnk.rs:11-17 | Without following, the path is returned as it is; with following, it is `dereference`. |
| Symlinks.NoLinksNormalizes | src/symlnk.rs:29-62 | When the oracle returns every path unchanged, an absolute path dereferences to its lexical normalisation (`.` dropped, `..` pops). |
| Symlinks.RelativeNormalizesOntoCwd | src/symlnk.rs:23-62 | When the oracle returns every path unchanged, a relative path dereferences to its lexical normalisation on top of the current directory. |
| Symlinks.CwdNotResolved | src/symlnk.rs:23-27 | The current directory is taken as it is, not resolved. One oracle shows it: it cannot read `/d`, yet `f` from `/d` resolves, while `/d/f` fails. |
| Symlinks.RelativeStartsAtCwd | src/symlnk.rs:23-27 | A relative path starts at the current directory: a path of `.` components dereferences to it without any oracle call. |
| Symlinks.CwdErrorPropagates | src/symlnk.rs:26 | A failing `current_dir` is reported unchanged for a relative path. |
| Symlinks.OracleErrorPropagates | src/symlnk.rs:41 | A failing oracle is reported unchanged. The root is the first prefix asked about. |
| Symlinks.FailureHasSource | src/symlnk.rs:22-63 | Every failure is the error of `current_dir` or the oracle's error for some path, passed on unchanged. The resolver makes up no error of its own. |
| Symlinks.ResolveAbsoluteIgnoresCwd | src/symlnk.rs:23-27 | The result for an absolute path does not depend on the current directory, also in nested re-resolutions, and stays absolute. |
| Flags.AddWithDefault | src/cmds/flags.rs:36-61 | Registration panics exactly when the short letter or the long name is taken. Otherwise the flag is appended, names stay unique and no value changes. |
| Flags.FindLongAt | src/cmds/flags.rs:132 | With unique registrations, lookup by long name finds the flag registered under it. |
| Flags.FindShortAt | src/cmds/flags.rs:168 | With unique registrations, lookup by letter finds the flag with that letter. |
| Flags.LongFlag | src/cmds/flags.rs:118-156 | A long flag consumes one or two arguments. An error is located at the flag's index and changes no value. A name that is not registered (after any `no-`) fails as "Unknown flag" with the argument quoted. A value is stored only under the written name, and never for a `no-` spelling. |
| Flags.LongBoolean | src/cmds/flags.rs:148-149 | `--X` on a boolean flag stores "true". |
| Flags.LongValue | src/cmds/flags.rs:133-147 | `--X` on a value flag stores the next argument and skips it, or fails with "requires a value" when there is none. |
| Flags.LongNegation | src/cmds/flags.rs:125-150 | `--no-X` changes nothing for a boolean flag and is an error for a value flag. |
| Flags.NoPrefixedLongUnreachable | src/cmds/flags.rs:124-154 | No long argument changes the value stored under a name `no-x`, so such a flag cannot be set through its long name. When `x` is not registered, `--no-x` fails as "Unknown flag". |
| Flags.ShortFlags | src/cmds/flags.rs:158-203 | A cluster consumes its own argument and possibly more. An error is located at the cluster's index. An unregistered letter at the current position fails as "Unknown flag: -c". |
| Flags.BooleanCluster | src/cmds/flags.rs:164-201 | A cluster of boolean letters sets each of their flags to "true", changes no other value, and consumes only itself. |
| Flags.ShortValueInCluster | src/cmds/flags.rs:169-172 | A value letter followed by more letters takes the rest of the cluster as its value and ends it. |
| Flags.ShortValueNextArg | src/cmds/flags.rs:170-191 | A value letter that ends the cluster takes the next argument. The letter '-' instead takes the next argument and all remaining ones, joined by spaces. |
| Flags.HandleArg | src/cmds/flags.rs:77-88 | An argument is a flag exactly when it starts with '-' and is not "-". |
| Flags.Parse | src/cmds/flags.rs:73-91 | Positionals are kept in order and none starts with '-'. An error is located at an argument at or after the current one. |
| Flags.BooleanParsePositionals | src/cmds/flags.rs:77-90 | With boolean flags only, the positionals are exactly the arguments not starting with '-', in order. A bare "-" is dropped. |
| Flags.BooleanStepNext | src/cmds/flags.rs:77-88 | Without value flags, every flag argument consumes only itself. |
| Flags.ParseAll | src/cmds/flags.rs:96-116 | Never fails, and keeps the positionals gathered so far. |
| Flags.BooleanParseAllPositionals | src/cmds/flags.rs:96-116 | With boolean flags only, `parse_all` returns exactly the plain arguments and the flag arguments naming an unregistered flag, in order. A bare "-" is dropped. |
| Flags.BooleanStepErr | src/cmds/flags.rs:132-201 | Without value flags, a flag argument fails exactly when its long name or one of its letters is not registered. |
| Flags.ParseAllAgrees | src/cmds/flags.rs:73-116 | Where `parse` succeeds, `parse_all` sets the same values and returns the same positionals. |
| Flags.TestParseAll | src/cmds/flags.rs:339-352 | `--verbose --unknown --output file.txt` sets verbose and output, and returns `["--unknown"]`. |
| Flags.OptionOf | src/cmds/flags.rs:213-218 | Returns the parsed value, else the registered default, else nothing. |
| Flags.TestDefaultValues | src/cmds/flags.rs:255-261 | No defaults for verbose and output; "0" for debug. |
| Flags.TestParseLongFlags | src/cmds/flags.rs:263-276 | `--verbose --output file.txt` sets verbose and makes `option("output")` "file.txt". |
| Flags.DuplicateShortPanics | src/cmds/flags.rs:44-60 | Registering a taken short letter panics. |
| Flags.TestFlagsRegister | src/cmds/flags.rs:247-253 | The three test flags register without a panic. |
| DiskUsage.RoundUp | src/cmds/du.rs:245 | The Windows estimate is a multiple of the block size, at least the length and less than one block above it. |
| DiskUsage.RoundUpLeast | src/cmds/du.rs:245 | The estimate is the smallest such multiple. |
| DiskUsage.BlockSize | src/cmds/du.rs:249-281 | A cached volume is answered from the cache. A miss asks the system and caches a successful answer. |
| DiskUsage.OwnSize | src/cmds/du.rs:177-247 | Apparent size is the byte length. On Unix, 512 times the block count. On Windows, the length rounded up to the volume's block size, or a division-by-zero panic for block size 0. |
| DiskUsage.Estimate | src/cmds/du.rs:160-192 | A metadata error is passed on. With `--unique` a seen identifier counts 0; a new one is recorded and counted. |
| DiskUsage.DuSize | src/cmds/du.rs:119-158 | A link counts 0 and prints nothing. A file counts its estimate, and an estimate error comes back prefixed with the path. A directory that was not interrupted prints its total when shown. Every line printed is for an entry at or below the path, within the depth limit, never when summarizing, and for a directory unless `--all` is given. |
| DiskUsage.DirSize | src/cmds/du.rs:130-149 | A directory is its own estimate plus its entries. An unreadable one counts only itself and prints one warning, "PATH: reason", as the next output line. |
| DiskUsage.DuChildren | src/cmds/du.rs:139-146 | Ctrl+C before an entry returns the partial sum, marked as stopped, with nothing printed. The sum never decreases, and at the end it is the sum so far. |
| DiskUsage.DuSizeTotal | src/cmds/du.rs:119-158 | Without `--unique`, a tree whose estimates and listings all succeed gives at most its total size, and exactly that without Ctrl+C. |
| DiskUsage.SeenContributesNothing | src/cmds/du.rs:186-191 | With `--unique`, a file whose identifier was already counted contributes 0. |
| DiskUsage.NoSizes | src/cmds/du.rs:151-155 | With `--summarize` the walk prints no sizes. |
| DiskUsage.Arguments | src/cmds/du.rs:32-34 | No paths means ".". |
| DiskUsage.ParseDepth | src/cmds/du.rs:36-42 | `--max-depth` parses as `usize`: an optional '+', then decimal digits, below 2^64. Empty and invalid input give the standard messages. The digits are read left to right, and the first bad position decides the error: a non-digit is an invalid digit, and a digit that overflows is too large. |
| DiskUsage.ParseDepthFirstError | src/cmds/du.rs:36-42 | If the digits before position k are valid and below 2^64, the character at k decides: a non-digit gives InvalidDigit, and a digit that takes the value to 2^64 or more gives TooLarge. |
| DiskUsage.OverflowBeforeInvalidDigit | src/cmds/du.rs:36-42 | Twenty nines followed by 'x' is too large, not an invalid digit: the overflow comes first. |
| DiskUsage.DepthSigns | src/cmds/du.rs:39 | "+2" parses to 2 and "-2" is an invalid digit. |
| DiskUsage.ExecPaths | src/cmds/du.rs:56-71 | Each argument gets a fresh identifier set. With `--summarize`, exactly one size line per argument. |
| DiskUsage.Exec | src/cmds/du.rs:18-73 | A bad depth fails before any walk. With `--summarize`, one size line per path (or one for "."). |
| DiskUsage.FreshIdsPerArgument | src/cmds/du.rs:60 | Naming the same file twice with `--unique` counts it twice, because the identifier set is per argument. |
| Pager.New | src/cmds/less.rs:38-56 | Starts at the top with no search and forward direction. The page height is the rows minus one (saturating), and the state is valid. The buffer and the width are the ones given. |
| Pager.Clamp | src/cmds/less.rs:211-213 | A page that fits is left alone. A page that runs past the end moves its top line up to the last page's top line. |
| Pager.LastPage | src/cmds/less.rs:126-132 | An empty or short buffer goes to 0; otherwise the last line sits at the bottom. |
| Pager.NextLineAsWritten | src/cmds/less.rs:134-141 | An empty buffer underflows (`len - 1`). Otherwise the result equals `NextLine`. |
| Pager.NextLine | src/cmds/less.rs:134-141 | Moves one line down unless on the last line, then clamps to the last page. An empty buffer does not move. |
| Pager.NextPage | src/cmds/less.rs:143-152 | Moves down at most a page and never past the last page. It always moves when there is room. The target is a page down but never below the last line, and the result is that target clamped to the last page; when the target is not below the top line, nothing changes. |
| Pager.PrevPage | src/cmds/less.rs:154-156 | Moves up a page, saturating at 0. |
| Pager.PrevLine | src/cmds/less.rs:158-162 | Moves up one line unless at the top. |
| Pager.ScrollRight | src/cmds/less.rs:164-166 | Adds a column; `scroll_left` undoes it. |
| Pager.ScrollLeft | src/cmds/less.rs:168-170 | Removes a column, saturating at 0. |
| Pager.FindForward | src/cmds/less.rs:178-186 | Finds the first line at or after the start that contains the query, or reports that none does. |
| Pager.FindBackward | src/cmds/less.rs:187-199 | Finds the last line before the start that contains the query, or reports that none does. |
| Pager.SearchAsWritten | src/cmds/less.rs:172-214 | Panics exactly when the search cursor is past the end of the buffer, with the slice-index message for the direction. |
| Pager.Search | src/cmds/less.rs:172-214 | Records the query and direction, keeps the viewer valid, and keeps the buffer, the horizontal scroll and the page height. |
| Pager.SearchForwardFinds | src/cmds/less.rs:178-186 | A forward search moves the top line to the first match at or after the search cursor, or to the last page's top if that is smaller. The search cursor becomes the match plus one. |
| Pager.SearchBackwardFinds | src/cmds/less.rs:187-199 | A backward search moves the top line to the last match before the search cursor, or to the last page's top if that is smaller. The search cursor becomes the match. |
| Pager.SearchNotFound | src/cmds/less.rs:202-209 | A failed search sets "Pattern not found: q" and resets the search cursor from the top line. |
| Pager.SearchAgrees | src/cmds/less.rs:202-208 | With a top line inside the buffer, the corrected search equals the code as written. |
| Pager.EmptyBufferSecondSearchPanics | src/cmds/less.rs:204-208 | On an empty buffer a failed search leaves the search cursor at 1. The next search slices out of range. |
| Pager.RepeatSearch | src/cmds/less.rs:216-221 | Without a previous search nothing changes; otherwise it is that search in its direction. |
| Pager.Visible | src/cmds/less.rs:92-97 | The text after the horizontal scroll, cut to the screen width. |
| Pager.Marks | src/cmds/less.rs:103-117 | The highlight loop splits the visible text into plain runs and matches. Together they give back the text, and every match is the query. |
| Pager.MarksComplete | src/cmds/less.rs:103-117 | Every occurrence of the query is highlighted: no plain run contains the query. |
| Pager.MarksLeftmost | src/cmds/less.rs:103-117 | Matching is leftmost: the first match begins where the query first occurs, and text without the query stays one plain run. |
| Pager.DisplayLine | src/cmds/less.rs:91-124 | Ends in a newline. Without colour or search it is the optional indent, the visible text and "\n". |
| Pager.RenderPlain | src/cmds/less.rs:108-114 | Without colour the highlight loop prints the text unchanged. |
| Pager.HighlightKeepsText | src/cmds/less.rs:103-117 | Removing the colour codes from a highlighted line gives back the visible text. |
| Pager.React | src/cmds/less.rs:239-288 | 'q' and only 'q' ends the loop. Every key keeps the viewer valid and the buffer unchanged. An empty (trimmed) query never reaches `search`. The keys run the corrected `NextLine` and `Search` (see Findings). |
| Pager.Move | src/cmds/less.rs:251-257 | The non-character keys: Enter and Down go a line down, Up a line up, Left and Right scroll sideways, PageUp and PageDown go a page; any other key changes nothing. |
| Pager.ReactChar | src/cmds/less.rs:246-285 | The character keys: 'q' quits and no other key does; 'b' goes a page up, 'f' and space a page down, 'G' to the last page; '/' and '?' search forward and backward for the trimmed query, and do nothing on an empty one; 'n' repeats the search; 'l' toggles line numbers; every other character is ignored. |
| Prompt.ProcessAnswer | src/prompt.rs:98-108 | 'y' (first non-blank character, any case) is Yes. 'a' and 'q' are All and Quit only when many, and everything else is No. With a single question the answer is Yes or No. |
| Prompt.Confirm | src/prompt.rs:21-51 | NO_CONFIRM gives Yes with no question. Otherwise the question offers All/Quit only when one of many, and the answer is classified. |
| Prompt.PromptSpec | src/prompt.rs:148-158 | Returns the `__prompt` variable when set. Otherwise it installs the default spec (user, '@', host, a bar, directory, prompt sign, space) and returns it. |
| Prompt.Username | src/prompt.rs:160-170 | USER, else USERNAME, else empty. |
| Prompt.FirstSet | src/prompt.rs:191-201 | The value of the first variable in the list that is set. It is none only when none of them is set. |
| Prompt.Hostname | src/prompt.rs:191-201 | HOSTNAME, else USERDOMAIN, else COMPUTERNAME, else NAME, else nothing. |
| Prompt.IsRoot | src/prompt.rs:183-185 | True exactly when the process is elevated or the user name (USER, else USERNAME) is "root". |
| Prompt.CurrentDir | src/prompt.rs:203-218 | A leading HOME in the working directory is replaced by "~". |
| Prompt.Expand | src/prompt.rs:228-236 | `\u`, `\h` and `\w` give the user, the host and the directory. `\$` gives one character, '#' exactly when root. Any other escaped character stands for itself. |
| Prompt.Build | src/prompt.rs:220-244 | Text without backslashes is copied verbatim. |
| Prompt.EscapeOther | src/prompt.rs:233-235 | A backslash before any character other than `u`, `h`, `w` or `$` yields that character and expansion continues. |
| Prompt.BuildAppend | src/prompt.rs:220-244 | Expansion is piecewise over a prefix that does not end inside an escape. |
| Prompt.TrailingBackslash | src/prompt.rs:226-227 | A trailing lone backslash expands to nothing. |
| Prompt.DollarSign | src/prompt.rs:183-185 | `\$` is '#' exactly for an elevated process or the user "root". |
| Prompt.DefaultPrompt | src/prompt.rs:153 | The default spec expands to the user name, '@', the host name, a bar, the directory, '$' or '#', and a space. |
| LineEdit.Escape | src/main.rs:110-131 | Escaping never shortens its input and keeps the non-backslash characters in order. |
| LineEdit.EscapeRun | src/main.rs:114-124 | A maximal run of k backslashes becomes k rounded up to even. |
| LineEdit.EscapeIdempotent | src/main.rs:110-131 | Escaping an escaped string changes nothing. |
| LineEdit.LastBlank | src/main.rs:134 | The last space or tab, if any. |
| LineEdit.SplitDelim | src/main.rs:133-141 | No blank gives ("", line). Otherwise the head runs to and including the last blank, and the tail is the text after that blank, trimmed, and holds no blank. |
| LineEdit.SplitDelimTail | src/main.rs:135 | The head and the text after the last blank make up the line. |
| LineEdit.SearchHistory | src/main.rs:393-400 | An empty line panics. Otherwise the result is the most recent entry starting with the line after its first character, and none only when no entry does. |
| LineEdit.LatestWith | src/main.rs:395-399 | The entry found is the last one with the prefix. |
| LineEdit.HasLinks | src/main.rs:201-244 | On Windows: true exactly when some accumulated prefix (after a component other than '.') is a link. Elsewhere: always false. |
| LineEdit.LinkFrom | src/main.rs:206-222 | The loop from component i on finds a link exactly when one of the remaining prefixes is a link. |
| Aliases.Add | src/cmds/alias.rs:53-64 | A registered name (built-in or alias) fails with "NAME already exists". Otherwise the name becomes an alias of the words, and nothing else changes. |
| Aliases.Remove | src/cmds/alias.rs:84-102 | A missing name gives "alias not found" and a built-in gives "not an alias". An alias is removed and nothing else changes. |
| Aliases.AddRemove | src/cmds/alias.rs:53-102 | Removing an alias just added restores the registry. |
| Aliases.List | src/cmds/alias.rs:66-82 | The k-th line is "name: words" for the k-th alias in the registry order, and there is one line per alias. Built-ins are skipped. |
| Aliases.RunnerArgs | src/cmds/alias.rs:27-37 | `eval` receives a single argument. Without call arguments it is the stored words joined by spaces. |
| Aliases.RunnerJoins | src/cmds/alias.rs:27-37 | With stored words and call arguments, the argument is the stored command, one space, and the call's arguments joined by single spaces. |
| Aliases.Classify | src/cmds/alias.rs:114-136 | Help, then list, then remove, else register. |
| Aliases.Exec | src/cmds/alias.rs:110-149 | Help and list leave the registry unchanged. Remove needs a name. Register needs NAME and COMMAND, and maps the first positional to the rest. |
| Aliases.AliasExample | src/cmds/alias.rs:119-121 | `alias la ls -al` makes `la` run `eval "ls -al"`, and `alias --remove la` undoes it. |

## Left out

- File-system effects beyond the map are not modelled: permissions, timestamps, ownership, `preserve_metadata`, FIFO and special-file handling (`handle_unix_special_file`), and the platform `symlink` call. A link is created as a node.
- Progress bars, debug output, the warning printed for a directory skipped without `-r`, and the exact wording of `format_error` / `err_path` messages are not modelled. Errors carry the message and the argument index.
- `utils::resolve_links`, `is_wsl_link`, `canonicalize`, `fs::read_dir` order and the Windows disk APIs are oracles or inputs.
- Symlinks.ResolvePath: the source recurses without a bound. The model takes a `fuel` count of nested resolutions and returns `Exhausted` when it runs out. Its properties are stated for results that are not `Exhausted`.
- CopyExec.DoWorkItem: a link that already stands at a destination is not followed. The program's `is_dir` and `exists` checks (src/cmds/cp.rs:453, 455, 477) and `File::create` (src/cmds/cp.rs:498) follow such a link, so it would copy through the link, treat a link to a directory as a directory, and treat a dangling link as missing (where `create_dir` then fails). The model looks at the link node itself.
- CopyExec.CopyFile: a read or write error in the middle of the loop is not modelled (the source file is a byte sequence). A source that has become a directory since planning fails before the destination is touched, where the program would create the destination and then fail on the first read; the planner never plans a directory as a `Copy` item (`CopyPlan.AddCopy`).
- CopyExec.CopyItem: a completed copy equals its source only when source and destination differ. Copying a file onto itself truncates it; the planner refuses that case (`CopyPlan.SameFileRejected`).
- CopyExec.Answered: as for `CopyItem`, the destination equals the source only when the two paths differ.
- DiskUsage.OwnSize: sizes are unbounded naturals; the `u64` overflow of `blocks * 512` and of the running sum is not modelled. On Windows, a failure of `unique_file_id` is folded into the metadata error of the entry.
- DiskUsage.Exec: `print_size` formatting (`--human-readable`, the 1024 block unit) is not modelled. A size line carries the path, the number, and whether the entry is a directory (not printed).
- DiskUsage.DuSize: the path `du` descends into is given by the tree, and `Path::resolve` for the arguments is the `lookup` parameter.
- Pager.Search: it requires a valid viewer and a non-empty query. With the corrected search cursor (see Findings), those are the only states the key loop produces and the only queries it passes; the code as written can leave the cursor past the end, and `SearchAsWritten` models the function on every state.
- Pager.DisplayLine: strings are character sequences. The byte slicing of `line[hs..]`, which panics inside a multi-byte character, is not modelled. `display_page`, the status line and line-number text are left out.
- Pager.React: terminal events, the redraw decision and `prompt_for_query`'s screen handling are left out. The typed query is a parameter.
- Prompt.CurrentDir: the Windows case-insensitive HOME match is not modelled (the Unix regex is a literal prefix match). A failed `current_dir` shows as an empty string.
- Prompt.Confirm: colour formatting of the options and the raw-mode TTY reading (`read_input`) are left out. The line typed is a parameter.
- CopyPlan.TruncatePath: the path is a character sequence, so its length and the cut are counted in characters. The source measures and slices UTF-8 bytes and panics when the cut falls inside a multi-byte character; neither is modelled. A path that is not valid Unicode (`to_str` failing, shown as "") is not modelled either. `to_uppercase` in the code as written is modelled for ASCII letters only.
- CopyPlan.TruncatePathAsWritten: the same character-for-byte simplification as `TruncatePath`: lengths and the cut are in characters, and the panic inside a multi-byte character is not modelled.
- Aliases.List: the order of `registered_commands(true)` is a parameter.
- Aliases.Exec: `parse_relaxed` is not part of this model. The flags and positionals it yields are parameters, and the usage text of `--help` is left out.
- Flags: `help` text formatting and the other flag APIs (`add_flag_enabled`, `with_help`, `value`) are not modelled.
- LineEdit.HasLinks: Windows path prefixes (drive letters, UNC) are not modelled; paths are component sequences.
- LineEdit.SearchHistory: `&line[1..]` also panics when the first character takes several bytes; characters are modelled as single units.

## Findings

| source | as written | input that shows it | evidently intended | confidence | as-written member | corrected member |
|---|---|---|---|---|---|---|
| src/cmds/cp.rs:354-355 | A path of at most 30 characters is shown upper-cased (`to_uppercase`) in the progress indicator. | "a.txt" is shown as "A.TXT". | A short path is shown as it is; only long paths are abbreviated. | not executed | CopyPlan.TruncatePathChangesShortPaths | CopyPlan.TruncatePath |
| src/cmds/less.rs:204-208 | A failed forward search sets the search cursor to `current_line + 1` without bounding it by the buffer length. | An empty buffer: the first search for "x" sets the cursor to 1, and the second panics on `lines[1..]` with length 0. | The search cursor stays within `0..=len`. | not executed | Pager.EmptyBufferSecondSearchPanics | Pager.Search |
| src/cmds/less.rs:134-135 | `next_line` computes `lines.len() - 1` on a `usize`. | Enter or Down on an empty buffer (e.g. `less` of an empty file) underflows. That is a panic in debug builds; release builds wrap, and the clamp brings the cursor back to 0. | No movement on an empty buffer. | not executed | Pager.NextLineAsWritten | Pager.NextLine |

=== FILE: alias.dfy ===
/** The `alias` command (`alias.rs`): aliases live in the shell's command
    registry next to the built-in commands; an alias runs by handing its
    stored words and the call's arguments, joined, to `eval`. */
module Aliases {
  import opened Wrappers
  import opened Text

  datatype Command = Builtin | Alias(args: seq<string>)

  type Registry = map<string, Command>

  const NotFound := "alias not found"
  const NotAnAlias := "not an alias"
  const NoName := "Please specify an alias to remove"
  const NameMissing := "NAME not specified"
  const CommandMissing := "COMMAND not specified"

  /** `Alias::add`: a name already registered (built-in or alias) is refused;
      otherwise the name now runs the given words. */
  function Add(reg: Registry, name: string, args: seq<string>): (r: Result<Registry>)
    ensures name in reg <==> r.Err?
    ensures r.Err? ==> r.msg == name + " already exists"
    ensures r.Ok? ==> name in r.value && r.value[name] == Alias(args)
    ensures r.Ok? ==> forall n :: n != name ==> (n in r.value <==> n in reg) && (n in reg ==> r.value[n] == reg[n])
  {
    if name in reg then Err(name + " already exists") else Ok(reg[name := Alias(args)])
  }

  /** `Alias::remove`: only an alias can be removed. */
  function Remove(reg: Registry, name: string): (r: Result<Registry>)
    ensures name !in reg ==> r == Err(NotFound)
    ensures name in reg && reg[name].Builtin? ==> r == Err(NotAnAlias)
    ensures name in reg && reg[name].Alias? ==> r.Ok? && name !in r.value
    ensures r.Ok? ==> forall n :: n != name ==> (n in r.value <==> n in reg) && (n in reg ==> r.value[n] == reg[n])
  {
    if name !in reg then Err(NotFound)
    else if reg[name].Builtin? then Err(NotAnAlias)
    else Ok(reg - {name})
  }

  /** Removing an alias just added restores the registry. */
  lemma AddRemove(reg: Registry, name: string, args: seq<string>)
    requires name !in reg
    ensures Add(reg, name, args).Ok? && Remove(Add(reg, name, args).value, name) == Ok(reg)
  {
    assert reg[name := Alias(args)] - {name} == reg;
  }

  /** The names in `order` that are aliases, in that order. */
  function AliasNames(reg: Registry, order: seq<string>): (r: seq<string>)
    ensures |r| <= |order|
    ensures forall k :: 0 <= k < |r| ==> r[k] in reg && reg[r[k]].Alias?
    ensures forall n :: n in r <==> n in order && n in reg && reg[n].Alias?
  {
    if order == [] then []
    else if order[0] in reg && reg[order[0]].Alias? then [order[0]] + AliasNames(reg, order[1..])
    else AliasNames(reg, order[1..])
  }

  /** The line `list` prints for an alias. */
  function AliasLine(reg: Registry, name: string): string
    requires name in reg && reg[name].Alias?
  {
    name + ": " + Join(reg[name].args, " ")
  }

  /** `Alias::list`: one line "name: words" per alias, in the order the
      registry reports its names (`order`); built-in commands are skipped. */
  function List(reg: Registry, order: seq<string>): (r: seq<string>)
    ensures |r| == |AliasNames(reg, order)|
    ensures forall k :: 0 <= k < |r| ==> r[k] == AliasLine(reg, AliasNames(reg, order)[k])
  {
    if order == [] then []
    else
      var rest := List(reg, order[1..]);
      var name := order[0];
      if name in reg && reg[name].Alias? then
        var r := [AliasLine(reg, name)] + rest;
        assert forall k :: 1 <= k < |r| ==> r[k] == rest[k - 1];
        r
      else rest
  }

  /** `AliasRunner::exec`: the single argument `eval` receives, the stored
      words followed by the call's arguments, joined by single spaces. */
  function RunnerArgs(stored: seq<string>, args: seq<string>): (r: seq<string>)
    ensures |r| == 1
    ensures args == [] ==> r == [Join(stored, " ")]
    ensures stored == [] ==> r == [Join(args, " ")]
  {
    assert stored + [] == stored && [] + args == args;
    [Join(stored + args, " ")]
  }

  /** With stored words and call arguments, `eval` gets the stored command,
      a space, and the arguments joined by spaces. */
  lemma RunnerJoins(stored: seq<string>, args: seq<string>)
    requires stored != [] && args != []
    ensures RunnerArgs(stored, args) == [Join(stored, " ") + " " + Join(args, " ")]
  {
    JoinAppend(stored, args, " ");
  }

  /** What `Alias::exec` does after flag parsing. */
  datatype Request = Help | ListAll | RemoveOne | Register

  /** The flags decide in order: help, then list, then remove, else register. */
  function Classify(help: bool, list: bool, remove: bool): (r: Request)
    ensures help ==> r == Help
    ensures !help && list ==> r == ListAll
    ensures !help && !list && remove ==> r == RemoveOne
    ensures !help && !list && !remove ==> r == Register
  {
    if help then Help else if list then ListAll else if remove then RemoveOne else Register
  }

  /** `Alias::exec`: the registry afterwards and the lines printed (the
      usage text of `--help` is left out). */
  function Exec(reg: Registry, order: seq<string>, help: bool, list: bool, remove: bool, positionals: seq<string>)
    : (r: Result<(Registry, seq<string>)>)
    ensures (help || list) ==> r.Ok? && r.value.0 == reg
    ensures !help && list ==> r.value.1 == List(reg, order)
    ensures !help && !list && remove && positionals == [] ==> r == Err(NoName)
    ensures !help && !list && remove && positionals != [] ==>
              (match Remove(reg, positionals[0])
               case Ok(reg') => r == Ok((reg', []))
               case Err(e) => r == Err(e))
    ensures !help && !list && !remove && positionals == [] ==> r == Err(NameMissing)
    ensures !help && !list && !remove && |positionals| == 1 ==> r == Err(CommandMissing)
    ensures !help && !list && !remove && |positionals| >= 2 && r.Ok? ==>
              r.value.0 == reg[positionals[0] := Alias(positionals[1..])]
    ensures r.Ok? && !list ==> r.value.1 == []
  {
    match Classify(help, list, remove)
    case Help => Ok((reg, []))
    case ListAll => Ok((reg, List(reg, order)))
    case RemoveOne =>
      if positionals == [] then Err(NoName)
      else
        var reg' :- Remove(reg, positionals[0]);
        Ok((reg', []))
    case Register =>
      if positionals == [] then Err(NameMissing)
      else if |positionals| < 2 then Err(CommandMissing)
      else
        var reg' :- Add(reg, positionals[0], positionals[1..]);
        Ok((reg', []))
  }

  /** `alias la ls -al` then `la` runs `eval "ls -al"`; `alias --remove la`
      undoes the registration. */
  lemma AliasExample(reg: Registry)
    requires "la" !in reg
    ensures var r := Exec(reg, [], false, false, false, ["la", "ls", "-al"]);
            && r.Ok? && r.value.0["la"] == Alias(["ls", "-al"])
            && RunnerArgs(r.value.0["la"].args, []) == ["ls -al"]
            && Exec(r.value.0, [], false, false, true, ["la"]) == Ok((reg, []))
  {
    var reg1 := reg["la" := Alias(["ls", "-al"])];
    assert ["la", "ls", "-al"][1..] == ["ls", "-al"];
    assert ["ls", "-al"] + [] == ["ls", "-al"];
    assert ["ls", "-al"][1..] == ["-al"];
    assert Join(["-al"], " ") == "-al";
    assert Join(["ls", "-al"], " ") == "ls" + " " + Join(["-al"], " ");
    assert "ls" + " " + "-al" == "ls -al";
    AddRemove(reg, "la", ["ls", "-al"]);
  }
}

=== FILE: copy_exec.dfy ===
/** The executing half of `cp`: the plan runs in key order in two passes
    (directories and files first, then links), with overwrite confirmation,
    cooperative cancellation and a chunked copy loop. */
module CopyExec {
  import opened Wrappers
  import opened Paths
  import opened FileSystem
  import opened WorkPlan
  import opened Interrupt
  import opened CopyPlan
  import Prompt
  import Order

  const ChunkSize: nat := 8192
  const DestIsDir: string := "assertion failed: !dest.is_dir()"
  const IsADirectory: string := "Is a directory (os error 21)"
  const Unsupported: string := "not a regular file"
  const RetryHint: string := ". Try again with -P, --no-dereference, or sudo"

  /** The executor's state: the file system, whether to ask before
      overwriting, the shell variables (for NO_CONFIRM), the lines the user
      will type, the interrupt signal, the command arguments, the destinations
      of the items run so far, and the questions asked. */
  datatype ExecState = ExecState(fs: FS, confirm: bool, vars: map<string, string>, answers: seq<string>,
                     sig: Signal, args: seq<string>, log: seq<Path>, asked: seq<string>)

  // ---------------------------------------------------------------------------
  // copy_file

  /** The copy loop: before every chunk the interrupt flag is polled; each
      read returns the next `ChunkSize` bytes or what is left, and a read of
      nothing ends the loop. The result is the bytes written, whether the loop
      ran to the end, and the signal afterwards. */
  function Chunks(data: seq<byte>, pos: nat, sig: Signal): (r: (seq<byte>, bool, Signal))
    requires pos <= |data|
    ensures pos + |r.0| <= |data| && r.0 == data[pos..pos + |r.0|]
    ensures r.1 ==> r.0 == data[pos..]
    ensures sig == Never ==> r.1 && r.2 == Never
    decreases |data| - pos
  {
    var (interrupted, sig1) := Poll(sig);
    if interrupted then ([], false, sig1)
    else
      var n := if |data| - pos < ChunkSize then |data| - pos else ChunkSize;
      if n == 0 then ([], true, sig1)
      else
        var rest := Chunks(data, pos + n, sig1);
        (data[pos..pos + n] + rest.0, rest.1, rest.2)
  }

  /** `copy_file`'s loop over a buffer of `ChunkSize` bytes. */
  method CopyLoop(data: seq<byte>, sig: Signal) returns (dst: seq<byte>, completed: bool, sig': Signal)
    ensures (dst, completed, sig') == Chunks(data, 0, sig)
    ensures dst == data[..|dst|]
    ensures completed ==> dst == data
  {
    var pos := 0;
    dst := [];
    sig' := sig;
    ghost var goal := Chunks(data, 0, sig);
    assert goal.0 == dst + goal.0;
    while true
      invariant pos <= |data| && dst == data[..pos]
      invariant goal == (dst + Chunks(data, pos, sig').0, Chunks(data, pos, sig').1, Chunks(data, pos, sig').2)
      decreases |data| - pos
    {
      var interrupted, next := Poll(sig').0, Poll(sig').1;
      var n := if |data| - pos < ChunkSize then |data| - pos else ChunkSize;
      ChunkStep(data, pos, sig');
      if interrupted || n == 0 {
        assert dst + [] == dst;
        sig' := next;
        completed := !interrupted;
        return;
      }
      AppendChunk(data, pos, n, Chunks(data, pos + n, next).0);
      dst := dst + data[pos..pos + n];
      pos := pos + n;
      sig' := next;
    }
  }

  lemma AppendChunk(data: seq<byte>, pos: nat, n: nat, rest: seq<byte>)
    requires pos + n <= |data|
    ensures data[..pos] + (data[pos..pos + n] + rest) == (data[..pos] + data[pos..pos + n]) + rest
    ensures data[..pos + n] == data[..pos] + data[pos..pos + n]
  {
  }

  /** One turn of the copy loop. */
  lemma ChunkStep(data: seq<byte>, pos: nat, sig: Signal)
    requires pos <= |data|
    ensures var n := if |data| - pos < ChunkSize then |data| - pos else ChunkSize;
            && (Poll(sig).0 || n == 0 ==> Chunks(data, pos, sig) == ([], !Poll(sig).0, Poll(sig).1))
            && (!Poll(sig).0 && n > 0 ==>
                  && Chunks(data, pos, sig).0 == data[pos..pos + n] + Chunks(data, pos + n, Poll(sig).1).0
                  && Chunks(data, pos, sig).1 == Chunks(data, pos + n, Poll(sig).1).1
                  && Chunks(data, pos, sig).2 == Chunks(data, pos + n, Poll(sig).1).2)
  {
  }

  /** `copy_file`: open the source, create or truncate the destination, copy
      the bytes. Returns false when interrupted, leaving the bytes copied so
      far. The bytes are read after the destination was truncated, so a file
      copied onto itself ends up empty. */
  function CopyFile(st: ExecState, top: string, src: Path, dest: Path): (r: CpResult<(bool, ExecState)>)
    ensures r.Done? ==> src in st.fs && st.fs[src].File?
    // the first look at the source (`symlink_metadata`) fails without a location
    ensures src !in st.fs ==> r == Fail(Raw(NotFound))
    ensures r.Done? ==> dest in r.value.1.fs && r.value.1.fs[dest].File?
    ensures r.Done? && src != dest ==> var copied := r.value.1.fs[dest].data;
              |copied| <= |st.fs[src].data| && copied == st.fs[src].data[..|copied|]
    ensures r.Done? && r.value.0 && src != dest ==> r.value.1.fs[dest] == st.fs[src]
    ensures r.Done? && src == dest ==> r.value.1.fs[dest] == File([])
    ensures r.Done? ==> forall q :: q in st.fs && q != dest && Some(q) != Parent(dest) ==> q in r.value.1.fs && r.value.1.fs[q] == st.fs[q]
    ensures r.Done? ==> r.value.1 == st.(fs := r.value.1.fs, sig := r.value.1.sig)
    ensures r.Done? ==> ItemFootprint(st.fs, r.value.1.fs, dest)
    // without Ctrl+C the copy runs to the end
    ensures r.Done? && st.sig == Never ==> r.value.0 && r.value.1.sig == Never
  {
    var pos := ArgPos(st.args, top);
    if src !in st.fs then Fail(Raw(NotFound))
    else if st.fs[src].Dir? then Fail(Located(pos, None, src, IsADirectory))
    else if !st.fs[src].File? then Fail(Located(pos, None, src, Unsupported))
    else
      var created :=
        if dest in st.fs && !st.fs[dest].Dir? then Ok(st.fs[dest := File([])])
        else if dest in st.fs then Err(IsADirectory)
        else Create(st.fs, dest, File([]));
      match created
      case Err(e) => Fail(Located(pos, None, dest, e))
      case Ok(fs1) =>
        assert src in fs1 && fs1[src].File?;
        assert src != dest ==> fs1[src] == st.fs[src];
        var (bytes, completed, sig1) := Chunks(fs1[src].data, 0, st.sig);
        Done((completed, st.(fs := fs1[dest := File(bytes)], sig := sig1)))
  }

  // ---------------------------------------------------------------------------
  // do_work_item, do_work_actions, do_work

  /** The next line the user types; an exhausted input reads as an empty line. */
  function NextAnswer(answers: seq<string>): (string, seq<string>) {
    if answers == [] then ("", []) else (answers[0], answers[1..])
  }

  /** The answer the user gives to an overwrite question for `dest`. */
  function Answer(st: ExecState, count: nat): Prompt.Answer {
    Prompt.ProcessAnswer(NextAnswer(st.answers).0, count > 1)
  }

  /** `confirm` for overwriting `dest`: the answer, and the state after the
      question (no question and no input read when NO_CONFIRM is set). */
  function ConfirmOverwrite(st: ExecState, count: nat, dest: Path): (r: (Prompt.Answer, ExecState))
    ensures "NO_CONFIRM" in st.vars ==> r == (Prompt.Yes, st)
    ensures "NO_CONFIRM" !in st.vars ==>
              && r.0 == Answer(st, count)
              && r.1 == st.(answers := NextAnswer(st.answers).1,
                            asked := st.asked + ["Overwrite " + Render(dest) + "? (" + Prompt.Options(count > 1) + ") "])
  {
    var (line, rest) := NextAnswer(st.answers);
    var (question, answer) := Prompt.Confirm(st.vars, "Overwrite " + Render(dest), line, count > 1);
    (answer, if question.Some? then st.(answers := rest, asked := st.asked + [question.value]) else st)
  }

  /** A `Copy` item: refuse a directory as destination, ask before
      overwriting when confirmation is on, then copy. */
  function CopyItem(st: ExecState, count: nat, dest: Path, item: WorkItem): (r: CpResult<(bool, ExecState)>)
    requires item.act == Copy
    ensures r.Done? ==> r.value.1.args == st.args && r.value.1.vars == st.vars && r.value.1.log == st.log
    ensures r.Fail? ==> !r.err.Hinted?
    ensures r.Done? && r.value.1.confirm != st.confirm ==> st.confirm && Answer(st, count) == Prompt.All
    ensures IsDir(st.fs, dest) ==> r == Fail(Panic(DestIsDir))
    ensures r.Done? && r.value.0 && item.src != dest ==>
              r.value.1.fs == st.fs || (item.src in st.fs && dest in r.value.1.fs && r.value.1.fs[dest] == st.fs[item.src])
    ensures r.Done? && item.src == dest ==> r.value.1.fs == st.fs || (dest in r.value.1.fs && r.value.1.fs[dest] == File([]))
    ensures r.Done? ==> ItemFootprint(st.fs, r.value.1.fs, dest)
    ensures r.Done? && !st.confirm && st.sig == Never ==> r.value.0 && !r.value.1.confirm && r.value.1.sig == Never
  {
    if IsDir(st.fs, dest) then Fail(Panic(DestIsDir))
    else if st.confirm && Exists(st.fs, dest) then
      var asked := ConfirmOverwrite(st, count, dest);
      Answered(asked.0, asked.1, dest, item)
    else CopyFile(st, item.top, item.src, dest)
  }

  /** What a `Copy` item does once the overwrite question is answered. */
  function Answered(answer: Prompt.Answer, st: ExecState, dest: Path, item: WorkItem): (r: CpResult<(bool, ExecState)>)
    ensures r.Done? ==> r.value.1.args == st.args && r.value.1.vars == st.vars && r.value.1.log == st.log
    ensures r.Fail? ==> !r.err.Hinted?
    ensures r.Done? && r.value.1.confirm != st.confirm ==> answer == Prompt.All
    ensures answer == Prompt.All && r.Done? ==> !r.value.1.confirm
    ensures answer == Prompt.No ==> r == Done((true, st))
    ensures answer == Prompt.Quit ==> r == Done((false, st))
    ensures r.Done? && r.value.0 && item.src != dest ==>
              r.value.1.fs == st.fs || (item.src in st.fs && dest in r.value.1.fs && r.value.1.fs[dest] == st.fs[item.src])
    ensures r.Done? && item.src == dest ==> r.value.1.fs == st.fs || (dest in r.value.1.fs && r.value.1.fs[dest] == File([]))
    ensures r.Done? ==> ItemFootprint(st.fs, r.value.1.fs, dest)
    ensures r.Done? && (answer == Prompt.Yes || answer == Prompt.All) && st.sig == Never ==>
              r.value.0 && r.value.1.sig == Never
  {
    match answer
    case Yes => CopyFile(st, item.top, item.src, dest)
    case No => Done((true, st))
    case All => CopyFile(st.(confirm := false), item.top, item.src, dest)
    case Quit => Done((false, st))
  }

  /** Overwriting an existing file under confirmation: No skips the item and
      goes on, Quit stops the pass, All turns confirmation off. */
  lemma OverwriteAnswers(st: ExecState, count: nat, dest: Path, item: WorkItem)
    requires item.act == Copy && !IsDir(st.fs, dest) && st.confirm && Exists(st.fs, dest)
    requires "NO_CONFIRM" !in st.vars
    ensures var r := CopyItem(st, count, dest, item);
            && (Answer(st, count) == Prompt.No ==> r.Done? && r.value.0 && r.value.1.fs == st.fs)
            && (Answer(st, count) == Prompt.Quit ==> r.Done? && !r.value.0 && r.value.1.fs == st.fs)
            && (Answer(st, count) == Prompt.All && r.Done? ==> !r.value.1.confirm)
  {
  }

  /** `do_work_item`: run one item; false means stop the pass. `count` is the
      number of items in the plan (the question offers All/Quit when it is above one). */
  function DoWorkItem(st: ExecState, count: nat, dest: Path, item: WorkItem): (r: CpResult<(bool, ExecState)>)
    ensures r.Done? ==> r.value.1.log == st.log + [dest]
    ensures r.Done? ==> r.value.1.args == st.args && r.value.1.vars == st.vars
    ensures r.Fail? ==> !r.err.Hinted?
    ensures r.Done? ==> ItemFootprint(st.fs, r.value.1.fs, dest)
    // CreateDir: only a missing directory is created
    ensures item.act == CreateDir && Exists(st.fs, dest) ==> r == Done((true, st.(log := st.log + [dest])))
    ensures item.act == CreateDir && !Exists(st.fs, dest) && r.Done? ==>
              IsDir(r.value.1.fs, dest) && r.value.1.fs.Keys == st.fs.Keys + {dest}
    ensures item.act != Copy && r.Done? ==> r.value.0
    ensures r.Done? && !st.confirm && st.sig == Never ==> r.value.0 && !r.value.1.confirm && r.value.1.sig == Never
    // Link: the link is made at a free `dest` and points at the planned target
    ensures item.act == Link && r.Done? ==> !Exists(st.fs, dest) && dest in r.value.1.fs && r.value.1.fs[dest] == Symlink(item.src)
    ensures item.act == Copy ==> r == (match CopyItem(st, count, dest, item)
                                       case Done((go, st1)) => Done((go, st1.(log := st.log + [dest])))
                                       case Fail(e) => Fail(e))
  {
    var pos := ArgPos(st.args, item.top);
    match item.act
    case Copy =>
      (match CopyItem(st, count, dest, item)
       case Done((go, st1)) => Done((go, st1.(log := st.log + [dest])))
       case Fail(e) => Fail(e))
    case CreateDir =>
      if Exists(st.fs, dest) then Done((true, st.(log := st.log + [dest])))
      else
        (match Create(st.fs, dest, Dir(Some([])))
         case Err(e) => Fail(Located(pos, None, item.src, e))
         case Ok(fs1) => Done((true, st.(fs := fs1, log := st.log + [dest]))))
    case Link =>
      if Exists(st.fs, dest) then Fail(Located(pos, None, item.src, AlreadyExists))
      else
        match Create(st.fs, dest, Symlink(item.src))
        case Err(e) => Fail(Located(pos, None, item.src, e))
        case Ok(fs1) => Done((true, st.(fs := fs1, log := st.log + [dest])))
  }

  /** What running the item for `dest` may do to the file system: add
      `dest`, change `dest` and its parent, and nothing else; a directory
      stays a directory. */
  predicate ItemFootprint(fs: FS, fs': FS, dest: Path) {
    && fs.Keys <= fs'.Keys <= fs.Keys + {dest}
    && (forall q :: q in fs && fs[q].Dir? ==> IsDir(fs', q))
    && (forall q :: q in fs && q != dest && Some(q) != Parent(dest) ==> fs'[q] == fs[q])
  }

  /** `q` is one of the destinations `ran` or the parent of one. */
  predicate Touches(ran: seq<Path>, q: Path) {
    q in ran || exists d :: d in ran && Parent(d) == Some(q)
  }

  /** What running the items for the destinations `ran` may do: add those
      paths, change them and their parents, and nothing else; a directory
      stays a directory. */
  predicate RunFootprint(fs: FS, fs': FS, ran: seq<Path>) {
    && fs.Keys <= fs'.Keys
    && (forall q :: q in fs' && q !in fs ==> q in ran)
    && (forall q :: q in fs && fs[q].Dir? ==> IsDir(fs', q))
    && (forall q :: q in fs && !Touches(ran, q) ==> fs'[q] == fs[q])
  }

  lemma FootprintStep(fs: FS, fs1: FS, fs2: FS, d: Path, rest: seq<Path>)
    requires ItemFootprint(fs, fs1, d) && RunFootprint(fs1, fs2, rest)
    ensures RunFootprint(fs, fs2, [d] + rest)
  {
    forall q | q in fs && !Touches([d] + rest, q) ensures fs2[q] == fs[q] {
      assert d in [d] + rest;
      assert !Touches(rest, q) by {
        forall x | x in rest ensures Parent(x) != Some(q) {
          assert x in [d] + rest;
        }
      }
    }
  }

  lemma FootprintCompose(fs: FS, fs1: FS, fs2: FS, a: seq<Path>, b: seq<Path>)
    requires RunFootprint(fs, fs1, a) && RunFootprint(fs1, fs2, b)
    ensures RunFootprint(fs, fs2, a + b)
  {
    forall q | q in fs && !Touches(a + b, q) ensures fs2[q] == fs[q] {
      assert !Touches(a, q) by {
        forall x | x in a ensures Parent(x) != Some(q) {
          assert x in a + b;
        }
      }
      assert !Touches(b, q) by {
        forall x | x in b ensures Parent(x) != Some(q) {
          assert x in a + b;
        }
      }
    }
  }

  /** The destinations of the plan entries whose action is in `actions`, in plan order. */
  function Selected(work: Plan, actions: set<Action>): (r: seq<Path>)
    ensures |r| <= |work|
    ensures forall k :: 0 <= k < |r| ==> exists e :: e in work && e.dest == r[k] && e.item.act in actions
  {
    if work == [] then []
    else if work[0].item.act in actions then [work[0].dest] + Selected(work[1..], actions)
    else Selected(work[1..], actions)
  }

  /** `do_work_actions`: run the items of `work[i..]` whose action is in
      `actions`, in key order, until one says stop. */
  function DoWorkActions(st: ExecState, actions: set<Action>, work: Plan, i: nat): (r: CpResult<(bool, ExecState)>)
    requires i <= |work|
    ensures r.Done? ==> |st.log| <= |r.value.1.log| && r.value.1.log[..|st.log|] == st.log
    ensures r.Done? ==> var ran := r.value.1.log[|st.log|..];
              |ran| <= |Selected(work[i..], actions)| && ran == Selected(work[i..], actions)[..|ran|]
    ensures r.Done? && r.value.0 ==> r.value.1.log[|st.log|..] == Selected(work[i..], actions)
    ensures r.Done? ==> r.value.1.args == st.args
    ensures r.Fail? ==> !r.err.Hinted?
    ensures r.Done? ==> RunFootprint(st.fs, r.value.1.fs, r.value.1.log[|st.log|..])
    // without confirmation and without Ctrl+C no item stops the pass
    ensures r.Done? && !st.confirm && st.sig == Never ==> r.value.0 && !r.value.1.confirm && r.value.1.sig == Never
    decreases |work| - i
  {
    if i == |work| then Done((true, st))
    else
      var e := work[i];
      assert work[i..] == [e] + work[i + 1..];
      if e.item.act !in actions then DoWorkActions(st, actions, work, i + 1)
      else
        var (go, st1) :- RunItem(st, |work|, e.dest, e.item);
        assert Selected(work[i..], actions) == [e.dest] + Selected(work[i + 1..], actions);
        if !go then
          PassStep(st, st1, st1, e.dest, Selected(work[i + 1..], actions));
          Done((false, st1))
        else
          var r := DoWorkActions(st1, actions, work, i + 1);
          if r.Fail? then r
          else
            PassStep(st, st1, r.value.1, e.dest, Selected(work[i + 1..], actions));
            r
  }

  /** `DoWorkItem` seen from the loop, which needs only how it logs. */
  function RunItem(st: ExecState, count: nat, dest: Path, item: WorkItem): (r: CpResult<(bool, ExecState)>)
    ensures r.Done? ==> r.value.1.log == st.log + [dest] && r.value.1.args == st.args
    ensures r.Fail? ==> !r.err.Hinted?
    ensures r.Done? ==> ItemFootprint(st.fs, r.value.1.fs, dest)
    ensures r.Done? && item.act == CreateDir && (dest in st.fs ==> st.fs[dest].Dir?) ==> IsDir(r.value.1.fs, dest)
    ensures r.Done? && !st.confirm && st.sig == Never ==> r.value.0 && !r.value.1.confirm && r.value.1.sig == Never
  {
    DoWorkItem(st, count, dest, item)
  }

  /** A log that extends `base + [d]` by a prefix of `sel` extends `base` by
      a prefix of `[d] + sel`, by all of it when it added all of `sel`. */
  lemma RanStep(base: seq<Path>, d: Path, log: seq<Path>, sel: seq<Path>)
    requires |base| + 1 <= |log| && log[..|base| + 1] == base + [d]
    requires |log| - |base| - 1 <= |sel| && log[|base| + 1..] == sel[..|log| - |base| - 1]
    ensures |base| <= |log| && log[..|base|] == base
    ensures var ran := log[|base|..]; |ran| <= 1 + |sel| && ran == ([d] + sel)[..|ran|]
    ensures log[|base| + 1..] == sel ==> log[|base|..] == [d] + sel
  {
    assert log[..|base|] == log[..|base| + 1][..|base|];
    assert log[|base|] == log[..|base| + 1][|base|];
    assert log[|base|..] == [d] + log[|base| + 1..];
  }

  /** The item for `d` took `st` to `st1`, and items for a prefix of `sel`
      took `st1` to `st2`: together they ran a prefix of `[d] + sel`. */
  lemma PassStep(st: ExecState, st1: ExecState, st2: ExecState, d: Path, sel: seq<Path>)
    requires st1.log == st.log + [d] && ItemFootprint(st.fs, st1.fs, d)
    requires |st1.log| <= |st2.log| && st2.log[..|st1.log|] == st1.log
    requires |st2.log[|st1.log|..]| <= |sel| && st2.log[|st1.log|..] == sel[..|st2.log[|st1.log|..]|]
    requires RunFootprint(st1.fs, st2.fs, st2.log[|st1.log|..])
    ensures |st.log| <= |st2.log| && st2.log[..|st.log|] == st.log
    ensures var ran := st2.log[|st.log|..]; |ran| <= 1 + |sel| && ran == ([d] + sel)[..|ran|]
    ensures st2.log[|st1.log|..] == sel ==> st2.log[|st.log|..] == [d] + sel
    ensures st2.log[|st.log|..] == [d] + st2.log[|st1.log|..]
    ensures RunFootprint(st.fs, st2.fs, st2.log[|st.log|..])
  {
    RanStep(st.log, d, st2.log, sel);
    assert st2.log[|st.log|..] == [d] + st2.log[|st1.log|..];
    FootprintStep(st.fs, st1.fs, st2.fs, d, st2.log[|st1.log|..]);
  }

  predicate IsPrefixOf(a: seq<Path>, b: seq<Path>) {
    |a| <= |b| && a == b[..|a|]
  }

  /** The items run, split at `k`: a prefix of the first pass's items, then a
      prefix of the links, the latter only after the whole first pass. */
  predicate SplitAt(work: Plan, ran: seq<Path>, k: nat)
    requires k <= |ran|
  {
    && IsPrefixOf(ran[..k], Selected(work, {CreateDir, Copy}))
    && IsPrefixOf(ran[k..], Selected(work, {Link}))
    && (ran[k..] != [] ==> ran[..k] == Selected(work, {CreateDir, Copy}))
  }

  ghost predicate TwoPasses(work: Plan, ran: seq<Path>) {
    exists k: nat :: k <= |ran| && SplitAt(work, ran, k)
  }

  /** `do_work`: directories and files first; links only when the first pass
      ran to the end. Stopping early is not an error. */
  function DoWork(st: ExecState, work: Plan): (r: CpResult<ExecState>)
    ensures r.Done? ==> |st.log| <= |r.value.log| && r.value.log[..|st.log|] == st.log
    ensures r.Done? ==> TwoPasses(work, r.value.log[|st.log|..])
    // a failure carries the retry advice exactly when it happened in the second pass
    ensures r.Fail? ==> (r.err.Hinted? <==> DoWorkActions(st, {CreateDir, Copy}, work, 0).Done?)
    ensures r.Fail? && r.err.Hinted? ==> r.err.hint == RetryHint
    ensures r.Done? ==> RunFootprint(st.fs, r.value.fs, r.value.log[|st.log|..])
    // a first pass stopped by Quit or Ctrl+C ends the command successfully, with no links made
    ensures var p := DoWorkActions(st, {CreateDir, Copy}, work, 0); p.Done? && !p.value.0 ==> r == Done(p.value.1)
    // without confirmation and without Ctrl+C the whole plan runs: every directory and file, then every link
    ensures r.Done? && !st.confirm && st.sig == Never ==>
              r.value.log[|st.log|..] == Selected(work, {CreateDir, Copy}) + Selected(work, {Link})
  {
    assert work[0..] == work;
    var (done, st1) :- DoWorkActions(st, {CreateDir, Copy}, work, 0);
    if done then
      match DoWorkActions(st1, {Link}, work, 0)
      case Fail(e) => Fail(Hinted(e, RetryHint))
      case Done((_, st2)) =>
        BothPasses(st, st1, st2, work);
        Done(st2)
    else
      var ran := st1.log[|st.log|..];
      assert ran[..|ran|] == ran && ran[|ran|..] == [];
      assert SplitAt(work, ran, |ran|);
      Done(st1)
  }

  /** The first pass ran all of its items from `st` to `st1`, the second a
      prefix of the links from `st1` to `st2`: together they ran two passes. */
  lemma BothPasses(st: ExecState, st1: ExecState, st2: ExecState, work: Plan)
    requires |st.log| <= |st1.log| && st1.log[..|st.log|] == st.log
    requires st1.log[|st.log|..] == Selected(work, {CreateDir, Copy})
    requires |st1.log| <= |st2.log| && st2.log[..|st1.log|] == st1.log
    requires IsPrefixOf(st2.log[|st1.log|..], Selected(work, {Link}))
    requires RunFootprint(st.fs, st1.fs, st1.log[|st.log|..]) && RunFootprint(st1.fs, st2.fs, st2.log[|st1.log|..])
    ensures |st.log| <= |st2.log| && st2.log[..|st.log|] == st.log
    ensures TwoPasses(work, st2.log[|st.log|..])
    ensures RunFootprint(st.fs, st2.fs, st2.log[|st.log|..])
    ensures st2.log[|st.log|..] == st1.log[|st.log|..] + st2.log[|st1.log|..]
  {
    LogsConcat(st.log, st1.log, st2.log);
    assert SplitAt(work, st2.log[|st.log|..], |st1.log| - |st.log|);
    FootprintCompose(st.fs, st1.fs, st2.fs, st1.log[|st.log|..], st2.log[|st1.log|..]);
  }

  /** Logs that extend each other: the later suffix splits at the middle log. */
  lemma LogsConcat(l0: seq<Path>, l1: seq<Path>, l2: seq<Path>)
    requires |l0| <= |l1| && l1[..|l0|] == l0
    requires |l1| <= |l2| && l2[..|l1|] == l1
    ensures l2[..|l0|] == l0
    ensures l2[|l0|..][..|l1| - |l0|] == l1[|l0|..]
    ensures l2[|l0|..][|l1| - |l0|..] == l2[|l1|..]
    ensures l2[|l0|..] == l1[|l0|..] + l2[|l1|..]
  {
    assert l2[..|l1|][..|l0|] == l0;
    assert l2[|l0|..|l1|] == l1[|l0|..];
  }

  /** Every `CreateDir` entry of `work` whose destination is among `ran`
      and held a directory or nothing in `fs0` holds a directory in `fs`. */
  ghost predicate DirsMade(fs0: FS, fs: FS, work: Plan, ran: seq<Path>) {
    forall e :: e in work && e.item.act == CreateDir && e.dest in ran && (e.dest in fs0 ==> fs0[e.dest].Dir?) ==>
      IsDir(fs, e.dest)
  }

  /** No two entries share a key, stated entry by entry. */
  ghost predicate DistinctKeys(work: Plan) {
    |work| > 0 ==> (forall e :: e in work[1..] ==> e.dest != work[0].dest) && DistinctKeys(work[1..])
  }

  lemma {:induction false} SortedDistinct(work: Plan)
    requires Sorted(work)
    ensures DistinctKeys(work)
  {
    if |work| > 0 {
      LaterKeysDiffer(work, 0);
      SortedTail(work);
      SortedDistinct(work[1..]);
    }
  }

  /** In the first pass of `do_work`, a `CreateDir` item that ran leaves a
      directory at its destination, unless a non-directory already stood
      there (`create_dir` is skipped for an existing path): later items never
      remove a directory. */
  lemma FirstPassMakesDirs(st: ExecState, work: Plan)
    requires Sorted(work)
    ensures var r := DoWorkActions(st, {CreateDir, Copy}, work, 0);
            r.Done? ==> DirsMade(st.fs, r.value.1.fs, work, r.value.1.log[|st.log|..])
  {
    SortedDistinct(work);
    assert work[0..] == work;
    CreatedDirsStay(st, {CreateDir, Copy}, work, 0);
  }

  lemma {:induction false} CreatedDirsStay(st: ExecState, actions: set<Action>, work: Plan, i: nat)
    requires i <= |work| && DistinctKeys(work[i..])
    ensures var r := DoWorkActions(st, actions, work, i);
            r.Done? ==> DirsMade(st.fs, r.value.1.fs, work[i..], r.value.1.log[|st.log|..])
    decreases |work| - i, 1
  {
    if i < |work| {
      var e0 := work[i];
      assert work[i..] == [e0] + work[i + 1..];
      assert work[i..][1..] == work[i + 1..];
      if e0.item.act !in actions {
        CreatedDirsStay(st, actions, work, i + 1);
        if DoWorkActions(st, actions, work, i + 1).Done? {
          RanFromLater(st, actions, work, i + 1, e0.dest);
          DirsMadeSkip(st.fs, DoWorkActions(st, actions, work, i + 1).value.1.fs, e0, work[i + 1..],
                       DoWorkActions(st, actions, work, i + 1).value.1.log[|st.log|..]);
        }
      } else {
        CreatedDirsRun(st, actions, work, i);
      }
    }
  }

  lemma {:induction false} CreatedDirsRun(st: ExecState, actions: set<Action>, work: Plan, i: nat)
    requires i < |work| && DistinctKeys(work[i..]) && work[i].item.act in actions
    ensures var r := DoWorkActions(st, actions, work, i);
            r.Done? ==> DirsMade(st.fs, r.value.1.fs, work[i..], r.value.1.log[|st.log|..])
    decreases |work| - i, 0
  {
    ActionsStep(st, actions, work, i);
    var r0 := RunItem(st, |work|, work[i].dest, work[i].item);
    if r0.Done? {
      var st1 := r0.value.1;
      assert work[i..] == [work[i]] + work[i + 1..];
      assert work[i..][1..] == work[i + 1..];
      if r0.value.0 {
        CreatedDirsStay(st1, actions, work, i + 1);
        var r := DoWorkActions(st1, actions, work, i + 1);
        if r.Done? {
          CreatedDirsGo(st, st1, r.value.1, work[i], work[i + 1..], Selected(work[i + 1..], actions));
        }
      } else {
        assert st1.log[|st.log|..] == [work[i].dest] + [];
        DirsMadeStep(st.fs, st1.fs, st1.fs, work[i], work[i + 1..], []);
      }
    }
  }

  /** The item for `e0` took `st` to `st1`, and the rest of the pass took
      `st1` to `st2`. */
  lemma CreatedDirsGo(st: ExecState, st1: ExecState, st2: ExecState, e0: Entry, rest: Plan, sel: seq<Path>)
    requires st1.log == st.log + [e0.dest] && ItemFootprint(st.fs, st1.fs, e0.dest)
    requires e0.item.act == CreateDir && (e0.dest in st.fs ==> st.fs[e0.dest].Dir?) ==> IsDir(st1.fs, e0.dest)
    requires |st1.log| <= |st2.log| && st2.log[..|st1.log|] == st1.log
    requires |st2.log[|st1.log|..]| <= |sel| && st2.log[|st1.log|..] == sel[..|st2.log[|st1.log|..]|]
    requires RunFootprint(st1.fs, st2.fs, st2.log[|st1.log|..])
    requires DirsMade(st1.fs, st2.fs, rest, st2.log[|st1.log|..])
    requires forall e :: e in rest ==> e.dest != e0.dest
    ensures DirsMade(st.fs, st2.fs, [e0] + rest, st2.log[|st.log|..])
  {
    PassStep(st, st1, st2, e0.dest, sel);
    DirsMadeStep(st.fs, st1.fs, st2.fs, e0, rest, st2.log[|st1.log|..]);
  }

  /** One selected item of `do_work_actions`: a failure ends the pass, a stop
      ends it successfully, and otherwise the pass goes on with the next entry. */
  lemma ActionsStep(st: ExecState, actions: set<Action>, work: Plan, i: nat)
    requires i < |work| && work[i].item.act in actions
    ensures var r := RunItem(st, |work|, work[i].dest, work[i].item);
            && (r.Fail? ==> DoWorkActions(st, actions, work, i).Fail?)
            && (r.Done? && !r.value.0 ==> DoWorkActions(st, actions, work, i) == Done((false, r.value.1)))
            && (r.Done? && r.value.0 ==> DoWorkActions(st, actions, work, i) == DoWorkActions(r.value.1, actions, work, i + 1))
  {
  }

  lemma DirsMadeSkip(fs0: FS, fs: FS, e0: Entry, rest: Plan, ran: seq<Path>)
    requires DirsMade(fs0, fs, rest, ran) && e0.dest !in ran
    ensures DirsMade(fs0, fs, [e0] + rest, ran)
  {
  }

  lemma DirsMadeStep(fs0: FS, fs1: FS, fs2: FS, e0: Entry, rest: Plan, ran: seq<Path>)
    requires ItemFootprint(fs0, fs1, e0.dest) && RunFootprint(fs1, fs2, ran)
    requires e0.item.act == CreateDir && (e0.dest in fs0 ==> fs0[e0.dest].Dir?) ==> IsDir(fs1, e0.dest)
    requires DirsMade(fs1, fs2, rest, ran)
    requires forall e :: e in rest ==> e.dest != e0.dest
    ensures DirsMade(fs0, fs2, [e0] + rest, [e0.dest] + ran)
  {
    forall e | e in [e0] + rest && e.item.act == CreateDir && e.dest in [e0.dest] + ran && (e.dest in fs0 ==> fs0[e.dest].Dir?)
      ensures IsDir(fs2, e.dest)
    {
      if e != e0 {
        assert e in rest && e.dest in ran;
      }
    }
  }

  /** In a sorted plan no later entry has the key of entry `i`. */
  lemma LaterKeysDiffer(work: Plan, i: nat)
    requires Sorted(work) && i < |work|
    ensures forall e :: e in work[i + 1..] ==> e.dest != work[i].dest
  {
    PathLessStrictTotal();
    forall e | e in work[i + 1..] ensures e.dest != work[i].dest {
      var j :| 0 <= j < |work[i + 1..]| && work[i + 1..][j] == e;
      assert work[i + 1 + j] == e;
    }
  }

  /** The items run from `i` on have destinations of entries from `i` on. */
  lemma RanFromLater(st: ExecState, actions: set<Action>, work: Plan, i: nat, d: Path)
    requires i <= |work| && DoWorkActions(st, actions, work, i).Done?
    requires forall e :: e in work[i..] ==> e.dest != d
    ensures d !in DoWorkActions(st, actions, work, i).value.1.log[|st.log|..]
  {
    var ran := DoWorkActions(st, actions, work, i).value.1.log[|st.log|..];
    forall k | 0 <= k < |ran| ensures ran[k] != d {
      assert ran[k] == Selected(work[i..], actions)[k];
    }
  }

  /** In a sorted plan the entries an action filter keeps are in key order. */
  lemma {:induction false} SelectedSorted(work: Plan, actions: set<Action>)
    requires Sorted(work)
    ensures forall a, b :: 0 <= a < b < |Selected(work, actions)| ==>
              PathLess(Selected(work, actions)[a], Selected(work, actions)[b])
  {
    if work != [] {
      SortedTail(work);
      SelectedSorted(work[1..], actions);
      var s := Selected(work, actions);
      if work[0].item.act in actions {
        var rest := Selected(work[1..], actions);
        HeadBelowRest(work);
        forall b | 0 < b < |s| ensures PathLess(s[0], s[b]) {
          assert s[b] == rest[b - 1];
          var e :| e in work[1..] && e.dest == rest[b - 1] && e.item.act in actions;
          assert rest[b - 1] in Keys(work[1..]);
        }
      }
    }
  }

  /** A directory's key sorts before the keys below it, so the first pass
      creates a directory before anything inside it. */
  lemma DirBeforeContents(work: Plan, i: nat, j: nat)
    requires Sorted(work) && i < |work| && j < |work| && i != j
    requires IsPrefix(work[i].dest, work[j].dest)
    ensures i < j
  {
    if j < i {
      var a, b := work[i].dest, work[j].dest;
      assert PathLess(b, a);
      CompLessStrictTotal();
      if |a| < |b| {
        PrefixPathLess(a, b);
        Order.LexAsymmetric(a, b, CompLess);
      } else {
        assert a == b;
        Order.LexIrreflexive(a, CompLess);
      }
      assert false;
    }
  }

  // ---------------------------------------------------------------------------
  // FileCopier::copy

  /** `copy`: plan, then run the plan unless Ctrl+C interrupted the planning. */
  function CopyAll(o: Options, w: World, vars: map<string, string>, confirm: bool, answers: seq<string>,
                sig: Signal, args: seq<string>, srcs: seq<string>, dest: string): (r: CpResult<ExecState>)
    ensures r.Done? ==> CollectSrcInfo(o, w, args, srcs, dest, sig).Done?
    ensures r.Done? && !CollectSrcInfo(o, w, args, srcs, dest, sig).value.cont ==> r.value.fs == w.fs && r.value.log == []
    ensures CollectSrcInfo(o, w, args, srcs, dest, sig).Fail? ==> r == Fail(CollectSrcInfo(o, w, args, srcs, dest, sig).err)
    // Ctrl+C during planning cancels the copy without an error
    ensures CollectSrcInfo(o, w, args, srcs, dest, sig).Done? && !CollectSrcInfo(o, w, args, srcs, dest, sig).value.cont ==> r.Done?
  {
    var p :- CollectSrcInfo(o, w, args, srcs, dest, sig);
    var st := ExecState(w.fs, confirm, vars, answers, p.sig, args, [], []);
    if !p.cont then Done(st) else DoWork(st, p.c.work)
  }
}

=== FILE: copy_plan.dfy ===
/** The planning half of `cp` (`FileCopier` in `cp.rs`): every source is
    walked, each entry is classified as link, directory or regular file, and
    becomes one work item in a plan keyed by its destination path. */
module CopyPlan {
  import opened Wrappers
  import opened Text
  import opened Paths
  import opened FileSystem
  import opened WorkPlan
  import opened Interrupt

  /** Why a copy stops.
      - `Located`: an error tied to a command-line argument (the position of
        `top` in the arguments), with an optional context message, the path
        shown to the user and the underlying reason;
      - `DestError`: a complaint about the destination, naming its last component;
      - `Raw`: an I/O error passed on without location;
      - `Hinted`: an error with advice appended;
      - `Panic`: a failed assertion or unwrap in the program. */
  datatype CpError =
    | Located(arg: nat, context: Option<string>, path: Path, reason: string)
    | DestError(name: string, msg: string)
    | Raw(reason: string)
    | Hinted(inner: CpError, hint: string)
    | Panic(msg: string)

  datatype CpResult<+T> = Done(value: T) | Fail(err: CpError) {
    predicate IsFailure() { Fail? }
    function PropagateFailure<U>(): CpResult<U> requires Fail? { Fail(err) }
    function Extract(): T requires Done? { value }
  }

  /** The file system and the two path oracles: `canonicalize` and the
      link-resolving `dereference` of `symlnk.rs`. */
  datatype World = World(fs: FS, canon: Path -> Result<Path>, deref: Path -> Result<Path>)

  /** The command-line flags the planner reads: -r, -P and --no-hidden. */
  datatype Options = Options(recursive: bool, ignoreLinks: bool, noHidden: bool)

  /** The planner's state: the command arguments (for error locations), the
      destination, the canonical directories seen, the plan, and the total
      number of bytes to copy. */
  datatype Copier = Copier(args: seq<string>, dest: Path, visited: set<Path>, work: Plan, total: nat)

  /** One step of the walk: whether to go on (false after Ctrl+C), the
      planner state, and the interrupt signal for later polls. */
  datatype Progress = Progress(cont: bool, c: Copier, sig: Signal)

  const UnwrapNone: string := "called `Option::unwrap()` on a `None` value"
  const SrcIsDir: string := "assertion failed: !src.is_dir()"
  const NoSources: string := "assertion failed: !self.srcs.is_empty()"
  const SameFile: string := "Source and destination are the same"
  const IntoSingle: string := "Copying multiple sources into single destination"
  const ToMissingDir: string := "Copying multiple sources to non-existing directory"
  const NoLinkTarget: string := "Could not get link target"
  const ReadDirFailed: string := "Permission denied (os error 13)"

  /** Where an argument sits on the command line; 0 when it is not there. */
  function ArgPos(args: seq<string>, top: string): (r: nat)
    ensures top in args ==> r < |args| && args[r] == top && forall j :: 0 <= j < r ==> args[j] != top
    ensures top !in args ==> r == 0
  {
    if args == [] then 0
    else if args[0] == top then 0
    else if top in args[1..] then 1 + ArgPos(args[1..], top)
    else 0
  }

  /** The name `dest_error` reports: the last component, else the whole path. */
  function DestName(dest: Path): string {
    match FileName(dest)
    case Some(n) => n
    case None => Render(dest)
  }

  /** `resolve_dest`: where `src`, found below `parent`, lands. */
  function ResolveDest(fs: FS, dest: Path, parent: Path, src: Path): (r: CpResult<Path>)
    ensures !IsDir(fs, dest) ==> r == Done(dest)
    ensures IsDir(fs, dest) && src == parent ==>
              (FileName(src).Some? ==> r == Done(dest + [Normal(FileName(src).value)]))
              && (FileName(src).None? ==> r == Fail(Panic(UnwrapNone)))
    ensures IsDir(fs, dest) && src != parent && IsPrefix(parent, src) ==>
              r.Done? && parent + src[|parent|..] == src && r.value == Push(dest, src[|parent|..])
    ensures IsDir(fs, dest) && !IsPrefix(parent, src) ==> r == Done(src)
  {
    if IsDir(fs, dest) then
      if src == parent then
        match FileName(src)
        case Some(n) => Done(Push(dest, [Normal(n)]))
        case None => Fail(Panic(UnwrapNone))
      else
        match StripPrefix(src, parent)
        case Some(rel) => Done(Push(dest, rel))
        case None => Done(src)
    else Done(dest)
  }

  /** Distinct entries below the same parent land on distinct destinations. */
  lemma ResolveDestInjective(fs: FS, dest: Path, parent: Path, s1: Path, s2: Path)
    requires IsDir(fs, dest) && WellFormed(s1) && WellFormed(s2) && |parent| > 0
    requires IsPrefix(parent, s1) && IsPrefix(parent, s2) && s1 != parent && s2 != parent && s1 != s2
    ensures ResolveDest(fs, dest, parent, s1).Done? && ResolveDest(fs, dest, parent, s2).Done?
    ensures ResolveDest(fs, dest, parent, s1).value != ResolveDest(fs, dest, parent, s2).value
  {
    var r1, r2 := s1[|parent|..], s2[|parent|..];
    assert s1[|parent|] != RootDir && s2[|parent|] != RootDir;
    assert !IsAbsolute(r1) && !IsAbsolute(r2);
    assert s1 == parent + r1 && s2 == parent + r2;
  }

  /** `check_dir_dest`: once something is planned, a further file needs an
      existing directory as destination. */
  function CheckDirDest(fs: FS, c: Copier): (r: Option<CpError>)
    ensures r.None? <==> c.work == [] || IsDir(fs, c.dest)
    ensures r.Some? && Exists(fs, c.dest) ==> r == Some(DestError(DestName(c.dest), IntoSingle))
    ensures r.Some? && !Exists(fs, c.dest) ==> r == Some(DestError(DestName(c.dest), ToMissingDir))
  {
    if Exists(fs, c.dest) then
      if !IsDir(fs, c.dest) && c.work != [] then Some(DestError(DestName(c.dest), IntoSingle)) else None
    else if c.work != [] then Some(DestError(DestName(c.dest), ToMissingDir))
    else None
  }

  /** `add_create_dir`. */
  function AddCreateDir(w: World, c: Copier, top: string, parent: Path, src: Path): (r: CpResult<Copier>)
    requires Sorted(c.work)
    ensures r.Done? <==> ResolveDest(w.fs, c.dest, parent, src).Done?
    ensures r.Done? ==> var d := ResolveDest(w.fs, c.dest, parent, src).value;
              Sorted(r.value.work) && Get(r.value.work, d) == Some(WorkItem(top, CreateDir, src))
              && r.value == c.(work := Insert(c.work, d, WorkItem(top, CreateDir, src)))
  {
    var d :- ResolveDest(w.fs, c.dest, parent, src);
    GetInserted(c.work, d, WorkItem(top, CreateDir, src));
    Done(c.(work := Insert(c.work, d, WorkItem(top, CreateDir, src))))
  }

  /** `add_copy`. */
  function AddCopy(w: World, c: Copier, top: string, parent: Path, src: Path): (r: CpResult<Copier>)
    requires Sorted(c.work)
    ensures IsDir(w.fs, src) ==> r == Fail(Panic(SrcIsDir))
    ensures !IsDir(w.fs, src) && c.work != [] && !IsDir(w.fs, c.dest) ==> r.Fail? && r.err.DestError?
    ensures r.Done? ==> ResolveDest(w.fs, c.dest, parent, src).Done?
    ensures r.Done? ==> var d := ResolveDest(w.fs, c.dest, parent, src).value;
              Sorted(r.value.work) && Get(r.value.work, d) == Some(WorkItem(top, Copy, src))
              && r.value == c.(work := Insert(c.work, d, WorkItem(top, Copy, src)))
              && !(Exists(w.fs, d) && w.canon(d).Ok? && w.canon(d) == w.canon(src))
  {
    if IsDir(w.fs, src) then Fail(Panic(SrcIsDir))
    else if CheckDirDest(w.fs, c).Some? then Fail(CheckDirDest(w.fs, c).value)
    else
      var d :- ResolveDest(w.fs, c.dest, parent, src);
      if Exists(w.fs, d) && w.canon(d).Err? then Fail(Raw(w.canon(d).msg))
      else if Exists(w.fs, d) && w.canon(src).Err? then Fail(Raw(w.canon(src).msg))
      else if Exists(w.fs, d) && w.canon(d) == w.canon(src) then
        Fail(Located(ArgPos(c.args, top), None, d, SameFile))
      else
        GetInserted(c.work, d, WorkItem(top, Copy, src));
        Done(c.(work := Insert(c.work, d, WorkItem(top, Copy, src))))
  }

  /** Copying a file onto itself is refused. */
  lemma SameFileRejected(w: World, c: Copier, top: string, parent: Path, src: Path)
    requires Sorted(c.work) && !IsDir(w.fs, src) && (c.work == [] || IsDir(w.fs, c.dest))
    requires ResolveDest(w.fs, c.dest, parent, src).Done?
    requires var d := ResolveDest(w.fs, c.dest, parent, src).value;
             Exists(w.fs, d) && w.canon(d).Ok? && w.canon(d) == w.canon(src)
    ensures AddCopy(w, c, top, parent, src)
         == Fail(Located(ArgPos(c.args, top), None, ResolveDest(w.fs, c.dest, parent, src).value, SameFile))
  {
  }

  /** `add_link`: the item is keyed by where the link itself lands and points
      at where its dereferenced target lands. */
  function AddLink(w: World, c: Copier, top: string, parent: Path, src: Path): (r: CpResult<Copier>)
    requires Sorted(c.work)
    ensures w.deref(src).Err? ==> r == Fail(Located(ArgPos(c.args, top), Some(NoLinkTarget), src, w.deref(src).msg))
    ensures r.Done? ==>
              && w.deref(src).Ok?
              && ResolveDest(w.fs, c.dest, parent, w.deref(src).value).Done?
              && ResolveDest(w.fs, c.dest, parent, src).Done?
    ensures r.Done? ==>
              var item := WorkItem(top, Link, ResolveDest(w.fs, c.dest, parent, w.deref(src).value).value);
              var d := ResolveDest(w.fs, c.dest, parent, src).value;
              Sorted(r.value.work) && Get(r.value.work, d) == Some(item) && r.value == c.(work := Insert(c.work, d, item))
  {
    match w.deref(src)
    case Err(e) => Fail(Located(ArgPos(c.args, top), Some(NoLinkTarget), src, e))
    case Ok(target) =>
      var targetDest :- ResolveDest(w.fs, c.dest, parent, target);
      var d :- ResolveDest(w.fs, c.dest, parent, src);
      GetInserted(c.work, d, WorkItem(top, Link, targetDest));
      Done(c.(work := Insert(c.work, d, WorkItem(top, Link, targetDest))))
  }

  /** A name starting with '.'. */
  predicate Hidden(p: Path) {
    FileName(p).Some? && StartsWith(FileName(p).value, ".")
  }

  /** What the walk keeps true of the planner: the plan is sorted, every
      planned directory's canonical path has been visited, and no two planned
      directories share a canonical path. */
  ghost predicate Consistent(w: World, c: Copier) {
    && Sorted(c.work)
    && (forall e :: e in c.work && e.item.act == CreateDir ==>
          w.canon(e.item.src).Ok? && w.canon(e.item.src).value in c.visited)
    && (forall e1, e2 ::
          (e1 in c.work && e2 in c.work && e1 != e2 && e1.item.act == CreateDir && e2.item.act == CreateDir) ==>
            w.canon(e1.item.src) != w.canon(e2.item.src))
  }

  /** How a successful step may change the planner. */
  ghost predicate Step(w: World, c: Copier, c': Copier) {
    && Consistent(w, c')
    && c'.args == c.args && c'.dest == c.dest
    && c.visited <= c'.visited
    && c.total <= c'.total
  }

  lemma StepTrans(w: World, c: Copier, c': Copier, c'': Copier)
    requires Step(w, c, c') && Step(w, c', c'')
    ensures Step(w, c, c'')
  {
  }

  /** Inserting an item other than a directory keeps the planner consistent. */
  lemma InsertKeeps(w: World, c: Copier, k: Path, item: WorkItem)
    requires Consistent(w, c) && item.act != CreateDir
    ensures Consistent(w, c.(work := Insert(c.work, k, item)))
  {
  }

  /** Planning a directory whose canonical path is new keeps the planner consistent. */
  lemma InsertDirKeeps(w: World, c: Copier, k: Path, item: WorkItem, canonical: Path)
    requires Consistent(w, c) && item.act == CreateDir
    requires w.canon(item.src) == Ok(canonical) && canonical !in c.visited
    ensures Consistent(w, c.(visited := c.visited + {canonical}, work := Insert(c.work, k, item)))
  {
  }

  /** `collect_path_info`: classify `path` and plan it, descending into
      directories when recursive. */
  function CollectPathInfo(o: Options, w: World, c: Copier, sig: Signal, top: string, parent: Path, path: Path)
    : (r: CpResult<Progress>)
    requires Consistent(w, c)
    ensures r.Done? ==> Step(w, c, r.value.c)
    // Ctrl+C: stop without planning anything
    ensures Poll(sig).0 ==> r == Done(Progress(false, c, Poll(sig).1))
    // skipped entries plan nothing
    ensures !Poll(sig).0 && o.ignoreLinks && IsSymlink(w.fs, path) ==> r == Done(Progress(true, c, Poll(sig).1))
    ensures !Poll(sig).0 && !(o.ignoreLinks && IsSymlink(w.fs, path)) && o.noHidden && Hidden(path) ==>
              r == Done(Progress(true, c, Poll(sig).1))
    ensures !Poll(sig).0 && !(o.ignoreLinks && IsSymlink(w.fs, path)) && !(o.noHidden && Hidden(path))
            && IsDir(w.fs, path) && (!o.recursive || (w.canon(path).Ok? && w.canon(path).value in c.visited)) ==>
              r == Done(Progress(true, c, Poll(sig).1))
    // a regular file: its size is counted and one copy item is planned
    ensures !Poll(sig).0 && !(o.noHidden && Hidden(path)) && path in w.fs && w.fs[path].File? && r.Done? ==>
              ResolveDest(w.fs, c.dest, parent, path).Done?
              && r.value == Progress(true, c.(total := c.total + |w.fs[path].data|,
                   work := Insert(c.work, ResolveDest(w.fs, c.dest, parent, path).value, WorkItem(top, Copy, path))),
                   Poll(sig).1)
    decreases |Under(w.fs, path)|, 1, 0
  {
    var (interrupted, sig1) := Poll(sig);
    if interrupted then Done(Progress(false, c, sig1))
    else if o.ignoreLinks && IsSymlink(w.fs, path) then Done(Progress(true, c, sig1))
    else if o.noHidden && Hidden(path) then Done(Progress(true, c, sig1))
    else if IsSymlink(w.fs, path) then
      var c1 :- AddLink(w, c, top, parent, path);
      InsertKeeps(w, c, ResolveDest(w.fs, c.dest, parent, path).value,
        WorkItem(top, Link, ResolveDest(w.fs, c.dest, parent, w.deref(path).value).value));
      Done(Progress(true, c1, sig1))
    else if IsDir(w.fs, path) then
      if !o.recursive then Done(Progress(true, c, sig1))
      else match w.canon(path)
        case Err(e) => Fail(Located(ArgPos(c.args, top), None, path, e))
        case Ok(canonical) =>
          if canonical in c.visited then Done(Progress(true, c, sig1))
          else
            var c0 := c.(visited := c.visited + {canonical});
            var c1 :- AddCreateDir(w, c0, top, parent, path);
            InsertDirKeeps(w, c, ResolveDest(w.fs, c.dest, parent, path).value, WorkItem(top, CreateDir, path), canonical);
            match w.fs[path].entries
            case None => Fail(Located(ArgPos(c.args, top), None, path, ReadDirFailed))
            case Some(names) => CollectChildren(o, w, c1, sig1, top, parent, path, names, 0)
    else if path !in w.fs then Fail(Located(ArgPos(c.args, top), None, path, NotFound))
    else
      var c0 := c.(total := c.total + Size(w.fs[path]));
      var c1 :- AddCopy(w, c0, top, parent, path);
      InsertKeeps(w, c0, ResolveDest(w.fs, c.dest, parent, path).value, WorkItem(top, Copy, path));
      Done(Progress(true, c1, sig1))
  }

  /** A link is planned as a `Link` item under `resolve_dest`, pointing at
      where its target lands; a dangling link is an error. */
  lemma LinkPlanned(o: Options, w: World, c: Copier, sig: Signal, top: string, parent: Path, path: Path)
    requires Consistent(w, c)
    requires !Poll(sig).0 && !o.ignoreLinks && IsSymlink(w.fs, path) && !(o.noHidden && Hidden(path))
    ensures var r := CollectPathInfo(o, w, c, sig, top, parent, path);
            && (w.deref(path).Err? ==> r == Fail(Located(ArgPos(c.args, top), Some(NoLinkTarget), path, w.deref(path).msg)))
            && (r.Done? ==>
                  && w.deref(path).Ok?
                  && ResolveDest(w.fs, c.dest, parent, path).Done?
                  && ResolveDest(w.fs, c.dest, parent, w.deref(path).value).Done?
                  && r.value == Progress(true, c.(work := Insert(c.work, ResolveDest(w.fs, c.dest, parent, path).value,
                                    WorkItem(top, Link, ResolveDest(w.fs, c.dest, parent, w.deref(path).value).value))),
                                    Poll(sig).1))
  {
  }

  /** A directory not visited before, under `-r`: its canonical path is
      marked visited, a `CreateDir` item is planned under `resolve_dest`, and
      the walk goes on with its entries from that state. */
  lemma NewDirPlanned(o: Options, w: World, c: Copier, sig: Signal, top: string, parent: Path, path: Path)
    requires Consistent(w, c)
    requires !Poll(sig).0 && !IsSymlink(w.fs, path) && !(o.noHidden && Hidden(path))
    requires IsDir(w.fs, path) && o.recursive && w.canon(path).Ok? && w.canon(path).value !in c.visited
    ensures var r := CollectPathInfo(o, w, c, sig, top, parent, path);
            && (ResolveDest(w.fs, c.dest, parent, path).Fail? ==> r.Fail?)
            && (r.Done? ==> w.canon(path).value in r.value.c.visited)
            && (ResolveDest(w.fs, c.dest, parent, path).Done? ==>
                  var c1 := c.(visited := c.visited + {w.canon(path).value},
                               work := Insert(c.work, ResolveDest(w.fs, c.dest, parent, path).value, WorkItem(top, CreateDir, path)));
                  && Consistent(w, c1)
                  && r == (match w.fs[path].entries
                           case None => Fail(Located(ArgPos(c.args, top), None, path, ReadDirFailed))
                           case Some(names) => CollectChildren(o, w, c1, Poll(sig).1, top, parent, path, names, 0)))
  {
    if ResolveDest(w.fs, c.dest, parent, path).Done? {
      InsertDirKeeps(w, c, ResolveDest(w.fs, c.dest, parent, path).value, WorkItem(top, CreateDir, path), w.canon(path).value);
    }
  }

  /** The loop over a directory's entries. */
  function CollectChildren(o: Options, w: World, c: Copier, sig: Signal, top: string, parent: Path,
                           dir: Path, names: seq<string>, i: nat): (r: CpResult<Progress>)
    requires Consistent(w, c) && dir in w.fs && i <= |names|
    ensures r.Done? ==> Step(w, c, r.value.c)
    decreases |Under(w.fs, dir)|, 0, |names| - i
  {
    if i == |names| then Done(Progress(true, c, sig))
    else
      UnderChild(w.fs, dir, names[i]);
      var p :- CollectPathInfo(o, w, c, sig, top, parent, dir + [Normal(names[i])]);
      if !p.cont then Done(p)
      else
        var r := CollectChildren(o, w, p.c, p.sig, top, parent, dir, names, i + 1);
        if r.Done? then StepTrans(w, c, p.c, r.value.c); r else r
  }

  /** The loop over the sources in `collect_src_info`: each is dereferenced
      and walked with its parent directory as the base. */
  function CollectSources(o: Options, w: World, c: Copier, sig: Signal, srcs: seq<string>, i: nat)
    : (r: CpResult<Progress>)
    requires Consistent(w, c) && i <= |srcs|
    ensures r.Done? ==> Step(w, c, r.value.c)
    ensures i < |srcs| && w.deref(Parse(srcs[i])).Err? ==> r == Fail(Raw(w.deref(Parse(srcs[i])).msg))
    decreases |srcs| - i
  {
    if i == |srcs| then Done(Progress(true, c, sig))
    else
      match w.deref(Parse(srcs[i]))
      case Err(e) => Fail(Raw(e))
      case Ok(path) =>
        var p :- CollectPathInfo(o, w, c, sig, srcs[i], Parent(path).GetOr(path), path);
        if !p.cont then Done(p)
        else
          var r := CollectSources(o, w, p.c, p.sig, srcs, i + 1);
          if r.Done? then StepTrans(w, c, p.c, r.value.c); r else r
  }

  /** `collect_src_info`: the destination is always dereferenced first. */
  function CollectSrcInfo(o: Options, w: World, args: seq<string>, srcs: seq<string>, dest: string, sig: Signal)
    : (r: CpResult<Progress>)
    ensures srcs == [] ==> r == Fail(Panic(NoSources))
    ensures srcs != [] && w.deref(Parse(dest)).Err? ==>
              r == Fail(Located(ArgPos(args, dest), None, Parse(dest), w.deref(Parse(dest)).msg))
    ensures r.Done? ==> w.deref(Parse(dest)).Ok? && r.value.c.dest == w.deref(Parse(dest)).value
    ensures r.Done? ==> Consistent(w, r.value.c) && r.value.c.args == args
  {
    if srcs == [] then Fail(Panic(NoSources))
    else match w.deref(Parse(dest))
      case Err(e) => Fail(Located(ArgPos(args, dest), None, Parse(dest), e))
      case Ok(d) => CollectSources(o, w, Copier(args, d, {}, [], 0), sig, srcs, 0)
  }

  /** Each canonical directory is planned at most once. */
  lemma OneCreateDirPerCanonicalDir(w: World, c: Copier, i: nat, j: nat)
    requires Consistent(w, c) && i < j < |c.work|
    requires c.work[i].item.act == CreateDir && c.work[j].item.act == CreateDir
    ensures w.canon(c.work[i].item.src) != w.canon(c.work[j].item.src)
  {
    PathLessStrictTotal();
    assert PathLess(c.work[i].dest, c.work[j].dest);
    assert c.work[i] in c.work && c.work[j] in c.work;
  }

  /** Once the plan is non-empty, a file cannot be added for a destination
      that does not exist. */
  lemma SecondFileToMissingDest(w: World, c: Copier, top: string, parent: Path, src: Path)
    requires Sorted(c.work) && c.work != [] && !Exists(w.fs, c.dest) && !IsDir(w.fs, src)
    ensures AddCopy(w, c, top, parent, src) == Fail(DestError(DestName(c.dest), ToMissingDir))
  {
  }

  function Identity(p: Path): Result<Path> {
    Ok(p)
  }

  /** Copying `/s` holding one file to a missing `/d` with `-r` fails: the
      directory is planned first, so the file is the second item. */
  lemma RecursiveCopyToMissingDest()
    ensures var fs := map[[RootDir] := Dir(Some(["s"])),
                          [RootDir, Normal("s")] := Dir(Some(["a"])),
                          [RootDir, Normal("s"), Normal("a")] := File([1])];
            var w := World(fs, Identity, Identity);
            CollectPathInfo(Options(true, false, false), w, Copier([], [RootDir, Normal("d")], {}, [], 0), Never,
                            "/s", [RootDir], [RootDir, Normal("s")])
            == Fail(DestError("d", ToMissingDir))
  {
    var fs := map[[RootDir] := Dir(Some(["s"])),
                  [RootDir, Normal("s")] := Dir(Some(["a"])),
                  [RootDir, Normal("s"), Normal("a")] := File([1])];
    var w := World(fs, Identity, Identity);
    var s, a := [RootDir, Normal("s")], [RootDir, Normal("s"), Normal("a")];
    var c := Copier([], [RootDir, Normal("d")], {}, [], 0);
    var c1 := c.(visited := {s}, work := [Entry([RootDir, Normal("d")], WorkItem("/s", CreateDir, s))]);
    assert AddCreateDir(w, c.(visited := {s}), "/s", [RootDir], s) == Done(c1);
    assert s + [Normal("a")] == a;
    var o := Options(true, false, false);
    assert !IsSymlink(fs, a) && !IsDir(fs, a) && a in fs;
    assert CheckDirDest(fs, c1) == Some(DestError("d", ToMissingDir));
    assert CollectPathInfo(o, w, c1, Never, "/s", [RootDir], a) == Fail(DestError("d", ToMissingDir));
    assert CollectChildren(o, w, c1, Never, "/s", [RootDir], s, ["a"], 0) == Fail(DestError("d", ToMissingDir));
    assert !IsSymlink(fs, s) && IsDir(fs, s) && w.canon(s) == Ok(s) && s !in c.visited;
    assert c.(visited := c.visited + {s}) == c.(visited := {s});
    assert ResolveDest(fs, c.dest, [RootDir], s) == Done([RootDir, Normal("d")]);
    assert Poll(Never) == (false, Never);
    assert fs[s].entries == Some(["a"]);
    assert CollectPathInfo(o, w, c, Never, "/s", [RootDir], s)
        == CollectChildren(o, w, c1, Never, "/s", [RootDir], s, ["a"], 0);
  }

  /** One 13-byte file into a fresh plan: one copy item and 13 bytes counted. */
  lemma CollectOneFile(dir: Path, name: string, data: seq<byte>)
    requires |data| == 13 && ValidName(name) && IsAbsolute(dir)
    ensures var src := dir + [Normal(name)];
            var w := World(map[src := File(data)], Identity, Identity);
            var r := CollectPathInfo(Options(false, false, false), w, Copier([], [Normal("dest")], {}, [], 0), Never,
                                     Render(src), dir, src);
            r.Done? && r.value.cont && |r.value.c.work| == 1 && r.value.c.work[0].item.act == Copy
            && r.value.c.total == 13
  {
    var src := dir + [Normal(name)];
    var w := World(map[src := File(data)], Identity, Identity);
    var dest := [Normal("dest")];
    var c := Copier([], dest, {}, [], 0);
    assert src[0] == RootDir && src != dest;
    assert !IsSymlink(w.fs, src) && !IsDir(w.fs, src) && !IsDir(w.fs, dest) && !Exists(w.fs, dest);
    var item := WorkItem(Render(src), Copy, src);
    assert AddCopy(w, c.(total := 13), Render(src), dir, src) == Done(c.(total := 13, work := [Entry(dest, item)]));
  }

  // ---------------------------------------------------------------------------
  // Cp::exec argument checks

  datatype Invocation = ShowHelp | Run(srcs: seq<string>, dest: string)

  /** The positional arguments are the sources followed by the destination. */
  function CheckArgs(help: bool, paths: seq<string>): (r: Result<Invocation>)
    ensures help ==> r == Ok(ShowHelp)
    ensures !help && |paths| == 0 ==> r == Err("Missing source and destination")
    ensures !help && |paths| == 1 ==> r == Err("Missing destination")
    ensures !help && |paths| >= 2 ==> r.Ok? && r.value.Run? && r.value.srcs + [r.value.dest] == paths
  {
    if help then Ok(ShowHelp)
    else if |paths| == 0 then Err("Missing source and destination")
    else if |paths| < 2 then Err("Missing destination")
    else
      assert paths == paths[..|paths| - 1] + [paths[|paths| - 1]];
      Ok(Run(paths[..|paths| - 1], paths[|paths| - 1]))
  }

  /** A run accepted by the argument checks never trips the empty-sources assertion. */
  lemma ExecHasSources(help: bool, paths: seq<string>, o: Options, w: World, args: seq<string>, sig: Signal)
    requires CheckArgs(help, paths).Ok? && CheckArgs(help, paths).value.Run?
    ensures var run := CheckArgs(help, paths).value;
            CollectSrcInfo(o, w, args, run.srcs, run.dest, sig) != Fail(Panic(NoSources))
  {
    var run := CheckArgs(help, paths).value;
    assert |run.srcs| == |paths| - 1 >= 1;
    if w.deref(Parse(run.dest)).Ok? {
      var r := CollectSources(o, w, Copier(args, w.deref(Parse(run.dest)).value, {}, [], 0), sig, run.srcs, 0);
      assert r.Fail? ==> r.err != Panic(NoSources) by {
        NoSourcesOnlyAtStart(o, w, Copier(args, w.deref(Parse(run.dest)).value, {}, [], 0), sig, run.srcs, 0);
      }
    }
  }

  /** The empty-sources panic is raised only by `CollectSrcInfo` itself. */
  lemma {:induction false} NoSourcesOnlyAtStart(o: Options, w: World, c: Copier, sig: Signal, srcs: seq<string>, i: nat)
    requires Consistent(w, c) && i <= |srcs|
    ensures CollectSources(o, w, c, sig, srcs, i) != Fail(Panic(NoSources))
    decreases |srcs| - i
  {
    if i < |srcs| && w.deref(Parse(srcs[i])).Ok? {
      var path := w.deref(Parse(srcs[i])).value;
      var p := CollectPathInfo(o, w, c, sig, srcs[i], Parent(path).GetOr(path), path);
      NoSourcesInWalk(o, w, c, sig, srcs[i], Parent(path).GetOr(path), path);
      if p.Done? && p.value.cont {
        NoSourcesOnlyAtStart(o, w, p.value.c, p.value.sig, srcs, i + 1);
      }
    }
  }

  /** The walk itself never raises the empty-sources panic. */
  lemma {:induction false} NoSourcesInWalk(o: Options, w: World, c: Copier, sig: Signal, top: string, parent: Path, path: Path)
    requires Consistent(w, c)
    ensures CollectPathInfo(o, w, c, sig, top, parent, path) != Fail(Panic(NoSources))
    decreases |Under(w.fs, path)|, 1, 0
  {
    var (interrupted, sig1) := Poll(sig);
    if !interrupted && !(o.ignoreLinks && IsSymlink(w.fs, path)) && !(o.noHidden && Hidden(path))
       && !IsSymlink(w.fs, path) && IsDir(w.fs, path) && o.recursive && w.canon(path).Ok?
       && w.canon(path).value !in c.visited {
      var c0 := c.(visited := c.visited + {w.canon(path).value});
      var c1 := AddCreateDir(w, c0, top, parent, path);
      if c1.Done? && w.fs[path].entries.Some? {
        InsertDirKeeps(w, c, ResolveDest(w.fs, c.dest, parent, path).value, WorkItem(top, CreateDir, path), w.canon(path).value);
        NoSourcesInChildren(o, w, c1.value, sig1, top, parent, path, w.fs[path].entries.value, 0);
      }
    }
  }

  lemma {:induction false} NoSourcesInChildren(o: Options, w: World, c: Copier, sig: Signal, top: string, parent: Path,
                                               dir: Path, names: seq<string>, i: nat)
    requires Consistent(w, c) && dir in w.fs && i <= |names|
    ensures CollectChildren(o, w, c, sig, top, parent, dir, names, i) != Fail(Panic(NoSources))
    decreases |Under(w.fs, dir)|, 0, |names| - i
  {
    if i < |names| {
      UnderChild(w.fs, dir, names[i]);
      var child := dir + [Normal(names[i])];
      NoSourcesInWalk(o, w, c, sig, top, parent, child);
      var p := CollectPathInfo(o, w, c, sig, top, parent, child);
      if p.Done? && p.value.cont {
        NoSourcesInChildren(o, w, p.value.c, p.value.sig, top, parent, dir, names, i + 1);
      }
    }
  }

  // ---------------------------------------------------------------------------
  // truncate_path

  const MaxLength: nat := 30

  /** `truncate_path` as written: a short path is shown upper-cased, a long one
      as "..." and its last 27 characters. */
  function TruncatePathAsWritten(s: string): (r: string)
    ensures |r| <= MaxLength
  {
    if |s| <= MaxLength then UpperCase(s) else "..." + s[|s| - (MaxLength - 3)..]
  }

  /** A short lower-case path does not come out as itself. */
  lemma TruncatePathChangesShortPaths()
    ensures TruncatePathAsWritten("a.txt") != "a.txt"
  {
    assert TruncatePathAsWritten("a.txt")[0] == 'A';
  }

  /** `truncate_path` with short paths shown unchanged. */
  function TruncatePath(s: string): (r: string)
    ensures |r| <= MaxLength
    ensures |s| <= MaxLength ==> r == s
    ensures |s| > MaxLength ==> |r| == MaxLength && r[..3] == "..." && r[3..] == s[|s| - |r[3..]|..]
  {
    if |s| <= MaxLength then s else "..." + s[|s| - (MaxLength - 3)..]
  }
}

=== FILE: du.dfy ===
/** Disk-usage accounting (`du.rs`): a recursive size fold over a directory
    tree, with hard-link de-duplication, per-platform size estimates, a print
    rule that depends on depth, and cooperative interruption. */
module DiskUsage {
  import opened Wrappers
  import opened Text
  import opened Interrupt

  /** What `fs::metadata` reports about an entry: a (device, inode) pair (on
      Windows the volume serial and file index), the byte length, the number
      of 512-byte blocks and the root of the volume the entry lives on. */
  datatype Meta = Meta(id: FileId, len: nat, blocks: nat, volume: string)

  datatype FileId = FileId(dev: nat, ino: nat)

  /** An entry of the tree `du` walks. `meta` is an `Err` when the metadata
      cannot be read. */
  datatype Entry =
    | Link(name: string)
    | File(name: string, meta: Result<Meta>)
    | Dir(name: string, meta: Result<Meta>, listing: Listing)

  /** The result of `read_dir`: it fails as a whole, or it yields entries some
      of which may fail to be read. */
  datatype Listing = Unreadable(reason: string) | Listed(children: seq<Child>)

  datatype Child = Good(entry: Entry) | Bad(reason: string)

  /** The two estimate functions; on Windows the block size of a volume is
      asked of the system (`GetDiskFreeSpaceW`), which may fail. */
  datatype Platform = Unix | Windows(blockSizeOf: string -> Result<nat>)

  datatype Options = Options(all: bool, apparent: bool, summarize: bool, maxDepth: Option<nat>,
                             unique: bool, platform: Platform)

  /** A line `du` prints: a size for a path, or a warning. `dir` records
      whether the entry is a directory, which decides whether its line is
      printed without `--all`; it is not part of the printed text. */
  datatype Line = Size(path: seq<string>, size: nat, dir: bool) | Warning(msg: string)

  /** The state threaded through the walk: the identifiers seen, the interrupt
      flag and the lines printed so far. */
  datatype Walk = Walk(ids: set<FileId>, sig: Signal, out: seq<Line>)

  const DivideByZero := "panic: attempt to divide by zero"

  /** How a path is displayed in messages. */
  function Display(path: seq<string>): string {
    Join(path, "/")
  }

  // ---------------------------------------------------------------------------
  // Estimates

  /** `r` is a multiple of `bs`. */
  predicate Multiple(r: nat, bs: nat)
    requires bs > 0
    decreases r
  {
    r == 0 || (r >= bs && Multiple(r - bs, bs))
  }

  /** The smallest multiple of `bs` that is at least `len`, as computed by
      `((len + bs - 1) / bs) * bs`. */
  function RoundUp(len: nat, bs: nat): (r: nat)
    requires bs > 0
    ensures Multiple(r, bs) && len <= r < len + bs
  {
    var q := (len + bs - 1) / bs;
    DivBounds(len + bs - 1, bs);
    MulMultiple(q, bs);
    q * bs
  }

  lemma DivBounds(t: nat, bs: nat)
    requires bs > 0
    ensures (t / bs) * bs <= t < (t / bs) * bs + bs
  {
  }

  lemma {:induction false} MulMultiple(q: nat, bs: nat)
    requires bs > 0
    ensures Multiple(q * bs, bs)
  {
    if q > 0 {
      MulMultiple(q - 1, bs);
      assert q * bs == (q - 1) * bs + bs;
    }
  }

  /** Two distinct multiples are at least `bs` apart. */
  lemma {:induction false} MultiplesApart(m: nat, r: nat, bs: nat)
    requires bs > 0 && Multiple(m, bs) && Multiple(r, bs) && m < r
    ensures m + bs <= r
    decreases m
  {
    if m > 0 {
      MultiplesApart(m - bs, r - bs, bs);
    }
  }

  /** Any multiple of `bs` that is at least `len` is at least the rounded-up size. */
  lemma RoundUpLeast(len: nat, bs: nat, m: nat)
    requires bs > 0 && Multiple(m, bs) && len <= m
    ensures RoundUp(len, bs) <= m
  {
    var r := RoundUp(len, bs);
    if m < r {
      MultiplesApart(m, r, bs);
    }
  }

  /** The block-size lookup on Windows: a cached size is returned without
      asking the system; otherwise the system's answer is cached. */
  function BlockSize(cache: map<string, nat>, volume: string, ask: string -> Result<nat>)
    : (r: (Result<nat>, map<string, nat>))
    ensures volume in cache ==> r == (Ok(cache[volume]), cache)
    ensures volume !in cache && ask(volume).Ok? ==> r == (ask(volume), cache[volume := ask(volume).value])
    ensures volume !in cache && ask(volume).Err? ==> r == (ask(volume), cache)
  {
    if volume in cache then (Ok(cache[volume]), cache)
    else
      match ask(volume)
      case Err(e) => (Err(e), cache)
      case Ok(bs) => (Ok(bs), cache[volume := bs])
  }

  /** The size an entry's own data occupies, before de-duplication. On
      Windows every estimate starts from an empty block-size cache, so the
      cache never saves a query. */
  function OwnSize(o: Options, m: Meta): (r: Result<nat>)
    ensures o.apparent ==> r == Ok(m.len)
    ensures !o.apparent && o.platform.Unix? ==> r == Ok(m.blocks * 512)
    ensures !o.apparent && o.platform.Windows? && o.platform.blockSizeOf(m.volume).Ok?
            && o.platform.blockSizeOf(m.volume).value > 0 ==>
              r == Ok(RoundUp(m.len, o.platform.blockSizeOf(m.volume).value))
    ensures !o.apparent && o.platform.Windows? ==>
              (r.Err? <==> o.platform.blockSizeOf(m.volume).Err? || o.platform.blockSizeOf(m.volume).value == 0)
  {
    if o.apparent then Ok(m.len)
    else
      match o.platform
      case Unix => Ok(m.blocks * 512)
      case Windows(ask) =>
        var (bs, _) := BlockSize(map[], m.volume, ask);
        match bs
        case Err(e) => Err(e)
        case Ok(b) => if b == 0 then Err(DivideByZero) else Ok(RoundUp(m.len, b))
  }

  /** `estimate_disk_size`: with de-duplication on, an identifier already
      seen contributes 0; otherwise it is recorded and the own size counts. */
  function Estimate(o: Options, ids: set<FileId>, meta: Result<Meta>): (r: (Result<nat>, set<FileId>))
    ensures meta.Err? ==> r == (Err(meta.msg), ids)
    ensures meta.Ok? && o.unique && meta.value.id in ids ==> r == (Ok(0), ids)
    ensures meta.Ok? && o.unique && meta.value.id !in ids ==> r == (OwnSize(o, meta.value), ids + {meta.value.id})
    ensures meta.Ok? && !o.unique ==> r == (OwnSize(o, meta.value), ids)
  {
    match meta
    case Err(e) => (Err(e), ids)
    case Ok(m) =>
      if o.unique && m.id in ids then (Ok(0), ids)
      else (OwnSize(o, m), if o.unique then ids + {m.id} else ids)
  }

  // ---------------------------------------------------------------------------
  // The walk

  /** Whether `du_size` prints the total of an entry at `depth`. */
  predicate Shown(o: Options, depth: nat, isDir: bool) {
    && !o.summarize
    && (o.maxDepth.None? || depth <= o.maxDepth.value)
    && (o.all || isDir)
  }

  /** Every line printed below `path` at `depth` is a size of a path under
      `path`, allowed by the depth limit, and nothing at all is printed when
      summarizing; warnings are left alone. */
  ghost predicate ShownBelow(o: Options, path: seq<string>, depth: nat, lines: seq<Line>) {
    forall k :: 0 <= k < |lines| && lines[k].Size? ==>
      && !o.summarize
      && |path| <= |lines[k].path| && lines[k].path[..|path|] == path
      && (o.maxDepth.None? || depth + |lines[k].path| - |path| <= o.maxDepth.value)
      && (o.all || lines[k].dir)
  }

  predicate Extends(a: Walk, b: Walk) {
    |a.out| <= |b.out| && b.out[..|a.out|] == a.out
  }

  /** `du_size` on the entry at `path`. Returns the total (or an error), the
      state after the walk, and whether an interrupt cut the walk short. */
  function DuSize(o: Options, e: Entry, path: seq<string>, depth: nat, w: Walk): (r: (Result<nat>, Walk, bool))
    ensures Extends(w, r.1) && ShownBelow(o, path, depth, r.1.out[|w.out|..])
    ensures e.Link? ==> r == (Ok(0), w, false)
    ensures e.File? ==> var est := Estimate(o, w.ids, e.meta);
              && r.1.ids == est.1 && !r.2
              && (est.0.Ok? ==> r.0 == est.0)
              && (est.0.Err? ==> r.0 == Err(Display(path) + ": " + est.0.msg))
    ensures e.File? && r.0.Ok? ==>
              r.1.out == w.out + (if Shown(o, depth, false) then [Size(path, r.0.value, false)] else [])
    ensures e.Dir? && r.0.Ok? && !r.2 && Shown(o, depth, true) ==>
              r.1.out != [] && r.1.out[|r.1.out| - 1] == Size(path, r.0.value, true)
    ensures r.0.Ok? && r.2 ==> e.Dir? && e.listing.Listed?
    decreases e, 2
  {
    match e
    case Link(_) => (Ok(0), w, false)
    case File(_, meta) =>
      var (est, ids) := Estimate(o, w.ids, meta);
      (match est
       case Err(msg) => (Err(Display(path) + ": " + msg), w.(ids := ids), false)
       case Ok(n) =>
         var out := if Shown(o, depth, false) then w.out + [Size(path, n, false)] else w.out;
         (Ok(n), w.(ids := ids, out := out), false))
    case Dir(_, _, _) => DirSize(o, e, path, depth, w)
  }

  /** The directory case of `du_size`: its own estimate, then its entries,
      then its line. An unreadable directory only warns. */
  function DirSize(o: Options, e: Entry, path: seq<string>, depth: nat, w: Walk): (r: (Result<nat>, Walk, bool))
    requires e.Dir?
    ensures Extends(w, r.1) && ShownBelow(o, path, depth, r.1.out[|w.out|..])
    ensures r.0.Ok? && !r.2 && Shown(o, depth, true) ==>
              r.1.out != [] && r.1.out[|r.1.out| - 1] == Size(path, r.0.value, true)
    ensures r.0.Ok? && r.2 ==> e.listing.Listed?
    ensures e.listing.Unreadable? && Estimate(o, w.ids, e.meta).0.Ok? ==>
              && r.0 == Estimate(o, w.ids, e.meta).0 && !r.2
              && |r.1.out| > |w.out| && r.1.out[|w.out|] == Warning(Display(path) + ": " + e.listing.reason)
    decreases e, 1
  {
    var (est, ids) := Estimate(o, w.ids, e.meta);
    match est
    case Err(msg) => (Err(Display(path) + ": " + msg), w.(ids := ids), false)
    case Ok(n) =>
      var w1 := w.(ids := ids);
      var (res, w2, stopped) :=
        if e.listing.Unreadable? then (Ok(n), w1.(out := w1.out + [Warning(Display(path) + ": " + e.listing.reason)]), false)
        else DuChildren(o, e, 0, path, depth, n, w1);
      if res.Err? || stopped then (res, w2, stopped)
      else CloseDir(o, path, depth, w, res.value, w2)
  }

  /** A directory walked to the end: its total follows its entries' lines
      when it is shown. */
  function CloseDir(o: Options, path: seq<string>, depth: nat, w: Walk, n: nat, w2: Walk): (r: (Result<nat>, Walk, bool))
    requires Extends(w, w2) && ShownBelow(o, path, depth, w2.out[|w.out|..])
    ensures r.0 == Ok(n) && !r.2 && r.1.ids == w2.ids && r.1.sig == w2.sig
    ensures Extends(w, r.1) && ShownBelow(o, path, depth, r.1.out[|w.out|..])
    ensures Shown(o, depth, true) ==> r.1.out == w2.out + [Size(path, n, true)]
    ensures !Shown(o, depth, true) ==> r.1 == w2
  {
    var extra := if Shown(o, depth, true) then [Size(path, n, true)] else [];
    assert ShownBelow(o, path, depth, extra) by {
      assert |path| <= |path| && path[..|path|] == path;
    }
    AppendAfter(w.out, w2.out, extra);
    ShownAppend(o, path, depth, w2.out[|w.out|..], extra);
    assert w2.out + [] == w2.out;
    (Ok(n), w2.(out := w2.out + extra), false)
  }

  /** Lines appended to an output that extends `base` extend it too. */
  lemma AppendAfter(base: seq<Line>, out: seq<Line>, extra: seq<Line>)
    requires |base| <= |out| && out[..|base|] == base
    ensures (out + extra)[..|base|] == base
    ensures (out + extra)[|base|..] == out[|base|..] + extra
  {
  }

  lemma ShownAppend(o: Options, path: seq<string>, depth: nat, a: seq<Line>, b: seq<Line>)
    requires ShownBelow(o, path, depth, a) && ShownBelow(o, path, depth, b)
    ensures ShownBelow(o, path, depth, a + b)
  {
    forall k | 0 <= k < |a + b| && (a + b)[k].Size? ensures (a + b)[k] == if k < |a| then a[k] else b[k - |a|] {
    }
  }

  /** The loop over the entries of directory `e` from index `k` on, with
      `size` accumulated so far. The interrupt flag is polled before each
      entry; a set flag ends the loop with the partial sum. */
  function DuChildren(o: Options, e: Entry, k: nat, path: seq<string>, depth: nat, size: nat, w: Walk)
    : (r: (Result<nat>, Walk, bool))
    requires e.Dir? && e.listing.Listed? && k <= |e.listing.children|
    ensures Extends(w, r.1) && ShownBelow(o, path, depth, r.1.out[|w.out|..])
    ensures r.0.Ok? ==> size <= r.0.value
    ensures k == |e.listing.children| ==> r == (Ok(size), w, false)
    ensures k < |e.listing.children| && Poll(w.sig).0 ==> r == (Ok(size), w.(sig := Poll(w.sig).1), true)
    decreases e, 0, |e.listing.children| - k
  {
    var children := e.listing.children;
    if k == |children| then (Ok(size), w, false)
    else
      var (interrupted, sig) := Poll(w.sig);
      if interrupted then (Ok(size), w.(sig := sig), true)
      else
        match children[k]
        case Bad(reason) => (Err(Display(path) + ": " + reason), w.(sig := sig), false)
        case Good(child) =>
          var (res, w1, _) := DuSize(o, child, path + [child.name], depth + 1, w.(sig := sig));
          ShownBelowChild(o, path, child.name, depth, w1.out[|w.out|..]);
          match res
          case Err(msg) => (Err(msg), w1, false)
          case Ok(n) =>
            var r := DuChildren(o, e, k + 1, path, depth, size + n, w1);
            OutSplit(w, w1, r.1);
            r
  }

  /** The lines a walk added are those of its first part, then of its second. */
  lemma OutSplit(w: Walk, w1: Walk, w2: Walk)
    requires Extends(w, w1) && Extends(w1, w2)
    ensures Extends(w, w2)
    ensures w2.out[|w.out|..] == w1.out[|w.out|..] + w2.out[|w1.out|..]
  {
    assert w2.out[..|w.out|] == w2.out[..|w1.out|][..|w.out|];
  }

  lemma ShownBelowChild(o: Options, path: seq<string>, name: string, depth: nat, lines: seq<Line>)
    requires ShownBelow(o, path + [name], depth + 1, lines)
    ensures ShownBelow(o, path, depth, lines)
  {
    forall k | 0 <= k < |lines| && lines[k].Size?
      ensures |path| <= |lines[k].path| && lines[k].path[..|path|] == path
    {
      assert lines[k].path[..|path|] == lines[k].path[..|path| + 1][..|path|];
    }
  }

  // ---------------------------------------------------------------------------
  // The reference total

  /** Every estimate in the tree succeeds and every directory entry reads. */
  ghost predicate Sound(o: Options, e: Entry)
    decreases e, 1
  {
    && (e.Link? || (e.meta.Ok? && OwnSize(o, e.meta.value).Ok?))
    && (e.Dir? && e.listing.Listed? ==> SoundFrom(o, e, 0))
  }

  ghost predicate SoundFrom(o: Options, e: Entry, k: nat)
    requires e.Dir? && e.listing.Listed? && k <= |e.listing.children|
    decreases e, 0, |e.listing.children| - k
  {
    k < |e.listing.children| ==>
      && e.listing.children[k].Good?
      && Sound(o, e.listing.children[k].entry)
      && SoundFrom(o, e, k + 1)
  }

  /** The size of a tree without de-duplication: an entry's own size plus,
      for a readable directory, the totals of its entries; links count 0. */
  ghost function Total(o: Options, e: Entry): nat
    requires Sound(o, e)
    decreases e, 1
  {
    match e
    case Link(_) => 0
    case File(_, meta) => OwnSize(o, meta.value).value
    case Dir(_, meta, listing) =>
      OwnSize(o, meta.value).value + (if listing.Unreadable? then 0 else TotalFrom(o, e, 0))
  }

  ghost function TotalFrom(o: Options, e: Entry, k: nat): nat
    requires e.Dir? && e.listing.Listed? && k <= |e.listing.children| && SoundFrom(o, e, k)
    decreases e, 0, |e.listing.children| - k
  {
    if k == |e.listing.children| then 0
    else Total(o, e.listing.children[k].entry) + TotalFrom(o, e, k + 1)
  }

  /** Without de-duplication a sound tree's walk never fails; it yields at
      most the reference total, and exactly that total when no interrupt
      arrives. */
  lemma {:induction false} DuSizeTotal(o: Options, e: Entry, path: seq<string>, depth: nat, w: Walk)
    requires !o.unique && Sound(o, e)
    ensures var r := DuSize(o, e, path, depth, w);
            && r.0.Ok? && r.0.value <= Total(o, e)
            && (w.sig == Never ==> r.0.value == Total(o, e) && !r.2 && r.1.sig == Never)
    decreases e, 2
  {
    if e.Dir? {
      DirSizeTotal(o, e, path, depth, w);
    }
  }

  lemma {:induction false} DirSizeTotal(o: Options, e: Entry, path: seq<string>, depth: nat, w: Walk)
    requires !o.unique && e.Dir? && Sound(o, e)
    ensures var r := DirSize(o, e, path, depth, w);
            && r.0.Ok? && r.0.value <= Total(o, e)
            && (w.sig == Never ==> r.0.value == Total(o, e) && !r.2 && r.1.sig == Never)
    decreases e, 1
  {
    var n := OwnSize(o, e.meta.value).value;
    if e.listing.Listed? {
      DuChildrenTotal(o, e, 0, path, depth, n, w);
    }
  }

  lemma {:induction false} DuChildrenTotal(o: Options, e: Entry, k: nat, path: seq<string>, depth: nat, size: nat, w: Walk)
    requires !o.unique && e.Dir? && e.listing.Listed? && k <= |e.listing.children| && SoundFrom(o, e, k)
    ensures var r := DuChildren(o, e, k, path, depth, size, w);
            && r.0.Ok? && r.0.value <= size + TotalFrom(o, e, k)
            && (w.sig == Never ==> r.0.value == size + TotalFrom(o, e, k) && !r.2 && r.1.sig == Never)
    decreases e, 0, |e.listing.children| - k
  {
    var children := e.listing.children;
    if k < |children| {
      var (interrupted, sig) := Poll(w.sig);
      if !interrupted {
        var child := children[k].entry;
        var w0 := w.(sig := sig);
        DuSizeTotal(o, child, path + [child.name], depth + 1, w0);
        var r1 := DuSize(o, child, path + [child.name], depth + 1, w0);
        DuChildrenTotal(o, e, k + 1, path, depth, size + r1.0.value, r1.1);
      }
    }
  }

  /** With de-duplication on, an entry whose identifier was already counted
      contributes nothing of its own. */
  lemma SeenContributesNothing(o: Options, e: Entry, path: seq<string>, depth: nat, w: Walk)
    requires o.unique && e.File? && e.meta.Ok? && e.meta.value.id in w.ids
    ensures DuSize(o, e, path, depth, w).0 == Ok(0)
    ensures DuSize(o, e, path, depth, w).1.ids == w.ids
  {
  }

  // ---------------------------------------------------------------------------
  // The command

  /** The paths `du` works on: "." when none are given. */
  function Arguments(paths: seq<string>): (r: seq<string>)
    ensures |r| >= 1
    ensures paths != [] ==> r == paths
    ensures paths == [] ==> r == ["."]
  {
    if paths == [] then ["."] else paths
  }

  const UsizeLimit: nat := 0x1_0000_0000_0000_0000
  const InvalidDigit := "invalid digit found in string"
  const EmptyNumber := "cannot parse integer from empty string"
  const TooLarge := "number too large to fit in target type"

  predicate IsDigit(c: char) {
    '0' <= c <= '9'
  }

  predicate AllDigits(s: string) {
    forall k :: 0 <= k < |s| ==> IsDigit(s[k])
  }

  /** The number text without its optional leading '+'. */
  function Digits(s: string): string {
    if s != [] && s[0] == '+' then s[1..] else s
  }

  /** The value of a string of decimal digits. */
  function DigitsValue(s: string): nat
    requires AllDigits(s)
  {
    if s == [] then 0
    else
      assert IsDigit(s[|s| - 1]);
      DigitsValue(s[..|s| - 1]) * 10 + (s[|s| - 1] as int - '0' as int)
  }

  function DigitOf(c: char): nat
    requires IsDigit(c)
  {
    c as int - '0' as int
  }

  /** The digit loop of `from_str_radix`, from index `i` on, with `acc` the
      value of the digits before it: left to right, a character that is not a
      digit is an invalid digit, and a value that reaches 2^64 is an overflow,
      whichever comes first. */
  function ScanDigits(d: string, i: nat, acc: nat): (r: Result<nat>)
    requires i <= |d| && AllDigits(d[..i]) && acc == DigitsValue(d[..i]) && acc < UsizeLimit
    ensures r.Ok? <==> AllDigits(d) && DigitsValue(d) < UsizeLimit
    ensures r.Ok? ==> r.value == DigitsValue(d)
    ensures r.Err? ==> r.msg == InvalidDigit || r.msg == TooLarge
    decreases |d| - i
  {
    if i == |d| then
      assert d[..i] == d;
      Ok(acc)
    else if !IsDigit(d[i]) then Err(InvalidDigit)
    else
      DigitsValueStep(d, i);
      var v := acc * 10 + DigitOf(d[i]);
      if v >= UsizeLimit then
        (if AllDigits(d) then DigitsValuePrefix(d, i + 1); Err(TooLarge) else Err(TooLarge))
      else ScanDigits(d, i + 1, v)
  }

  /** `str::parse::<usize>` for the `--max-depth` value: an optional '+'
      followed by at least one digit, below 2^64. */
  function ParseDepth(s: string): (r: Result<nat>)
    ensures s == [] ==> r == Err(EmptyNumber)
    ensures r.Ok? ==> r.value < UsizeLimit
    ensures r.Ok? <==> Digits(s) != [] && AllDigits(Digits(s)) && DigitsValue(Digits(s)) < UsizeLimit
    ensures r.Ok? ==> r.value == DigitsValue(Digits(s))
  {
    if s == [] then Err(EmptyNumber)
    else if s == "+" then Err(InvalidDigit)
    else
      assert Digits(s)[..0] == [];
      ScanDigits(Digits(s), 0, 0)
  }

  /** The digits up to `i + 1`: those up to `i`, then one more. */
  lemma DigitsValueStep(d: string, i: nat)
    requires i < |d| && AllDigits(d[..i + 1])
    ensures AllDigits(d[..i]) && IsDigit(d[i])
    ensures DigitsValue(d[..i + 1]) == DigitsValue(d[..i]) * 10 + DigitOf(d[i])
  {
    assert d[..i + 1][..i] == d[..i];
    assert d[..i + 1][i] == d[i];
  }

  /** A longer run of digits is worth at least as much. */
  lemma {:induction false} DigitsValuePrefix(d: string, k: nat)
    requires AllDigits(d) && k <= |d|
    ensures AllDigits(d[..k]) && DigitsValue(d[..k]) <= DigitsValue(d)
    decreases |d|
  {
    if k < |d| {
      var init := d[..|d| - 1];
      assert AllDigits(init);
      DigitsValuePrefix(init, k);
      assert init[..k] == d[..k];
      DigitsValueStep(d, |d| - 1);
      assert d[..|d|] == d;
    } else {
      assert d[..k] == d;
    }
  }

  /** The error is decided at the first position `k` that fails: a
      character there that is not a digit gives an invalid digit, a digit
      that takes the value to 2^64 gives an overflow. */
  lemma {:induction false} ScanFirstError(d: string, i: nat, acc: nat, k: nat)
    requires i <= |d| && AllDigits(d[..i]) && acc == DigitsValue(d[..i]) && acc < UsizeLimit
    requires i <= k < |d| && AllDigits(d[..k]) && DigitsValue(d[..k]) < UsizeLimit
    ensures !IsDigit(d[k]) ==> ScanDigits(d, i, acc) == Err(InvalidDigit)
    ensures IsDigit(d[k]) && DigitsValue(d[..k] + [d[k]]) >= UsizeLimit ==> ScanDigits(d, i, acc) == Err(TooLarge)
    decreases k - i
  {
    assert d[..k + 1] == d[..k] + [d[k]];
    if i == k {
      assert d[..i] == d[..k];
      if IsDigit(d[k]) {
        DigitsValueStep(d, k);
      }
    } else {
      assert d[..k][..i + 1] == d[..i + 1];
      DigitsValuePrefix(d[..k], i + 1);
      DigitsValueStep(d, i);
      ScanFirstError(d, i + 1, acc * 10 + DigitOf(d[i]), k);
    }
  }

  /** Twenty nines overflow before the letter after them is read. */
  lemma OverflowBeforeInvalidDigit()
    ensures ParseDepth("99999999999999999999x") == Err(TooLarge)
  {
    NinesThenLetter("99999999999999999999x");
  }

  lemma NinesThenLetter(s: string)
    requires |s| == 21 && (forall k :: 0 <= k < 20 ==> s[k] == '9') && s[20] == 'x'
    ensures ParseDepth(s) == Err(TooLarge)
  {
    assert Digits(s) == s;
    NinesOverflow(s[..19]);
    assert s[..19] + [s[19]] == s[..19] + ['9'];
    ParseDepthFirstError(s, 19);
  }

  /** Nineteen nines fit below 2^64; one more nine does not. */
  lemma NinesOverflow(p: string)
    requires |p| == 19 && forall k :: 0 <= k < 19 ==> p[k] == '9'
    ensures AllDigits(p) && DigitsValue(p) < UsizeLimit
    ensures AllDigits(p + ['9']) && DigitsValue(p + ['9']) >= UsizeLimit
  {
    NinesValue(p, 19);
    NinesValue(p + ['9'], 20);
    Pow10Of19();
  }

  lemma Pow10Of19()
    ensures Pow10(19) == 10000000000000000000 && Pow10(20) == 100000000000000000000
  {
    assert Pow10(4) == 10000;
    assert Pow10(8) == 100000000;
    assert Pow10(12) == 1000000000000;
    assert Pow10(16) == 10000000000000000;
  }

  /** `n` nines are worth one less than 10^n. */
  lemma {:induction false} NinesValue(p: string, n: nat)
    requires |p| == n && forall k :: 0 <= k < n ==> p[k] == '9'
    ensures AllDigits(p) && DigitsValue(p) + 1 == Pow10(n)
  {
    if n > 0 {
      NinesValue(p[..n - 1], n - 1);
      DigitsValueStep(p, n - 1);
      assert p[..n] == p;
    }
  }

  function Pow10(k: nat): (r: nat)
    ensures r >= 1
  {
    if k == 0 then 1 else 10 * Pow10(k - 1)
  }

  /** `ParseDepth` fails with the error of the first failing position. */
  lemma ParseDepthFirstError(s: string, k: nat)
    requires s != [] && s != "+"
    requires k < |Digits(s)| && AllDigits(Digits(s)[..k]) && DigitsValue(Digits(s)[..k]) < UsizeLimit
    ensures !IsDigit(Digits(s)[k]) ==> ParseDepth(s) == Err(InvalidDigit)
    ensures IsDigit(Digits(s)[k]) && DigitsValue(Digits(s)[..k] + [Digits(s)[k]]) >= UsizeLimit
            ==> ParseDepth(s) == Err(TooLarge)
  {
    assert Digits(s)[..0] == [];
    ScanFirstError(Digits(s), 0, 0, k);
  }

  function CountSizes(lines: seq<Line>): (r: nat)
    ensures r <= |lines|
  {
    if lines == [] then 0
    else (if lines[0].Size? then 1 else 0) + CountSizes(lines[1..])
  }

  lemma {:induction false} CountSizesAppend(a: seq<Line>, b: seq<Line>)
    ensures CountSizes(a + b) == CountSizes(a) + CountSizes(b)
  {
    if a == [] {
      assert a + b == b;
    } else {
      assert (a + b)[1..] == a[1..] + b;
      CountSizesAppend(a[1..], b);
    }
  }

  lemma {:induction false} NoSizes(o: Options, path: seq<string>, depth: nat, lines: seq<Line>)
    requires o.summarize && ShownBelow(o, path, depth, lines)
    ensures CountSizes(lines) == 0
  {
    if lines != [] {
      assert !lines[0].Size?;
      assert ShownBelow(o, path, depth, lines[1..]) by {
        forall k | 0 <= k < |lines[1..]|
          ensures !lines[1..][k].Size?
        {
          assert lines[1..][k] == lines[k + 1];
        }
      }
      NoSizes(o, path, depth, lines[1..]);
    }
  }

  /** The loop over the arguments: each is resolved (`lookup` stands for
      `Path::resolve` and the file system, giving the entry whose name is the
      resolved path), walked with a fresh set of identifiers, and, when
      summarizing, printed once. The first error ends the command. */
  function ExecPaths(o: Options, lookup: string -> Result<Entry>, args: seq<string>, i: nat, sig: Signal,
                     out: seq<Line>): (r: Result<seq<Line>>)
    requires i <= |args|
    ensures r.Ok? ==> |out| <= |r.value| && r.value[..|out|] == out
    ensures r.Ok? && o.summarize ==> CountSizes(r.value) == CountSizes(out) + |args| - i
    decreases |args| - i
  {
    if i == |args| then Ok(out)
    else
      match lookup(args[i])
      case Err(msg) => Err(msg)
      case Ok(e) =>
        var (res, w, _) := DuSize(o, e, [e.name], 0, Walk({}, sig, out));
        match res
        case Err(msg) => Err(msg)
        case Ok(n) =>
          var out' := if o.summarize then w.out + [Size([e.name], n, e.Dir?)] else w.out;
          var r := ExecPaths(o, lookup, args, i + 1, w.sig, out');
          if r.Ok? then
            CountSummary(o, [e.name], n, e.Dir?, out, w.out);
            PrefixOfPrefix(out, out', r.value);
            r
          else r
  }

  /** When summarizing, an argument adds exactly its one summary line. */
  lemma CountSummary(o: Options, path: seq<string>, n: nat, dir: bool, out: seq<Line>, walked: seq<Line>)
    requires |out| <= |walked| && walked[..|out|] == out
    requires ShownBelow(o, path, 0, walked[|out|..])
    ensures o.summarize ==> CountSizes(walked + [Size(path, n, dir)]) == CountSizes(out) + 1
  {
    if o.summarize {
      assert walked == out + walked[|out|..];
      NoSizes(o, path, 0, walked[|out|..]);
      CountSizesAppend(out, walked[|out|..]);
      CountSizesAppend(walked, [Size(path, n, dir)]);
      assert CountSizes([Size(path, n, dir)]) == 1;
    }
  }

  lemma PrefixOfPrefix(a: seq<Line>, b: seq<Line>, c: seq<Line>)
    requires |a| <= |b| && b[..|a|] == a && |b| <= |c| && c[..|b|] == b
    ensures c[..|a|] == a
  {
    assert c[..|a|] == c[..|b|][..|a|];
  }

  /** `DiskUtilization::exec` after flag parsing: the depth limit is parsed,
      then every argument (by default ".") is processed. */
  function Exec(all: bool, apparent: bool, summarize: bool, maxDepth: Option<string>, unique: bool,
                platform: Platform, lookup: string -> Result<Entry>, paths: seq<string>, sig: Signal)
    : (r: Result<seq<Line>>)
    ensures maxDepth.Some? && ParseDepth(maxDepth.value).Err? ==> r == Err(ParseDepth(maxDepth.value).msg)
    ensures r.Ok? && summarize ==> CountSizes(r.value) == |Arguments(paths)|
  {
    var depth :- if maxDepth.None? then Ok(None) else
                 (match ParseDepth(maxDepth.value)
                  case Err(msg) => Err(msg)
                  case Ok(d) => Ok(Some(d)));
    var o := Options(all, apparent, summarize, depth, unique, platform);
    ExecPaths(o, lookup, Arguments(paths), 0, sig, [])
  }

  /** The identifier set is fresh for every argument: naming the same file
      twice with `--unique` counts it twice. */
  lemma FreshIdsPerArgument(m: Meta, sig: Signal, lookup: string -> Result<Entry>)
    requires forall p :: lookup(p) == Ok(File("f", Ok(m)))
    ensures Exec(false, true, true, None, true, Unix, lookup, ["f", "f"], sig)
            == Ok([Size(["f"], m.len, false), Size(["f"], m.len, false)])
  {
    var o := Options(false, true, true, None, true, Unix);
    assert OwnSize(o, m) == Ok(m.len);
    assert m.id !in {};
    assert !Shown(o, 0, false);
    var r1 := DuSize(o, File("f", Ok(m)), ["f"], 0, Walk({}, sig, []));
    assert r1.0 == Ok(m.len) && r1.1.out == [] && r1.1.sig == sig;
    var r2 := DuSize(o, File("f", Ok(m)), ["f"], 0, Walk({}, sig, [Size(["f"], m.len, false)]));
    assert r2.0 == Ok(m.len) && r2.1.out == [Size(["f"], m.len, false)] && r2.1.sig == sig;
    var args := ["f", "f"];
    assert [] + [Size(["f"], m.len, false)] == [Size(["f"], m.len, false)];
    assert [Size(["f"], m.len, false)] + [Size(["f"], m.len, false)] == [Size(["f"], m.len, false), Size(["f"], m.len, false)];
    assert lookup(args[0]) == Ok(File("f", Ok(m))) && lookup(args[1]) == Ok(File("f", Ok(m)));
    assert ExecPaths(o, lookup, args, 2, sig, [Size(["f"], m.len, false), Size(["f"], m.len, false)])
           == Ok([Size(["f"], m.len, false), Size(["f"], m.len, false)]);
    assert ExecPaths(o, lookup, args, 1, sig, [Size(["f"], m.len, false)]) == Ok([Size(["f"], m.len, false), Size(["f"], m.len, false)]);
    assert ExecPaths(o, lookup, args, 0, sig, []) == Ok([Size(["f"], m.len, false), Size(["f"], m.len, false)]);
  }

  /** A leading '+' is accepted, a leading '-' is not. */
  lemma DepthSigns()
    ensures ParseDepth("+2") == Ok(2)
    ensures ParseDepth("-2") == Err(InvalidDigit)
  {
    assert "+2"[1..] == "2";
    assert DigitsValue("2") == 2 by { assert "2"[..0] == ""; }
    assert "-2" != "" && "-2" != "+" && "-2"[0] == '-';
    assert Digits("-2") == "-2";
    assert !IsDigit("-2"[0]);
  }
}

=== FILE: flags.dfy ===
/** Command-line flag registration and parsing (`CommandFlags` in `flags.rs`).
    The parser's error location (`scope.set_err_arg`) becomes the index
    carried by the error. */
module Flags {
  import opened Wrappers
  import opened Text

  datatype Flag = Flag(short: Option<char>, long: string, takesValue: bool, default: Option<string>)

  /** The registered flags and the values parsed so far, keyed by long name. */
  datatype CommandFlags = CommandFlags(flags: seq<Flag>, values: map<string, string>)

  datatype ParseError = ParseError(index: nat, msg: string)

  /** No two flags share a long name or a short letter. */
  predicate Unique(flags: seq<Flag>) {
    forall i, j :: 0 <= i < j < |flags| ==>
      flags[i].long != flags[j].long && (flags[i].short.Some? ==> flags[i].short != flags[j].short)
  }

  predicate HasLong(flags: seq<Flag>, long: string) {
    exists i :: 0 <= i < |flags| && flags[i].long == long
  }

  predicate HasShort(flags: seq<Flag>, c: char) {
    exists i :: 0 <= i < |flags| && flags[i].short == Some(c)
  }

  /** The flag registered under a long name. */
  function FindLong(flags: seq<Flag>, long: string): (r: Option<Flag>)
    ensures r.Some? <==> HasLong(flags, long)
    ensures r.Some? ==> r.value in flags && r.value.long == long
  {
    if flags == [] then None
    else if flags[0].long == long then Some(flags[0])
    else
      var r := FindLong(flags[1..], long);
      assert HasLong(flags[1..], long) <==> HasLong(flags, long) by {
        if HasLong(flags, long) {
          var i :| 0 <= i < |flags| && flags[i].long == long;
          assert flags[1..][i - 1] == flags[i];
        }
      }
      r
  }

  /** The flag with a given short letter. */
  function FindShort(flags: seq<Flag>, c: char): (r: Option<Flag>)
    ensures r.Some? <==> HasShort(flags, c)
    ensures r.Some? ==> r.value in flags && r.value.short == Some(c)
  {
    if flags == [] then None
    else if flags[0].short == Some(c) then Some(flags[0])
    else
      var r := FindShort(flags[1..], c);
      assert HasShort(flags[1..], c) <==> HasShort(flags, c) by {
        if HasShort(flags, c) {
          var i :| 0 <= i < |flags| && flags[i].short == Some(c);
          assert flags[1..][i - 1] == flags[i];
        }
      }
      r
  }

  /** `add_with_default`: a flag whose long name or short letter is taken panics. */
  function AddWithDefault(cf: CommandFlags, short: Option<char>, long: string, takesValue: bool,
                          default: Option<string>): (r: Result<CommandFlags>)
    requires Unique(cf.flags)
    ensures r.Err? <==> (short.Some? && HasShort(cf.flags, short.value)) || HasLong(cf.flags, long)
    ensures r.Err? ==> r.msg == "panic: flag " + long + " (or its short form) already exists"
    ensures r.Ok? ==> Unique(r.value.flags) && r.value.values == cf.values
    ensures r.Ok? ==> r.value.flags == cf.flags + [Flag(short, long, takesValue, default)]
  {
    if (short.Some? && FindShort(cf.flags, short.value).Some?) || FindLong(cf.flags, long).Some? then
      Err("panic: flag " + long + " (or its short form) already exists")
    else
      Ok(cf.(flags := cf.flags + [Flag(short, long, takesValue, default)]))
  }

  /** The result of one flag argument: the values (partly updated when a
      cluster fails half-way), where parsing continues, and the error if any. */
  datatype Step = Step(values: map<string, string>, next: nat, err: Option<ParseError>)

  /** `handle_long_flag` on `args[i]`, which starts with "--". */
  function LongFlag(flags: seq<Flag>, values: map<string, string>, args: seq<string>, i: nat): (r: Step)
    requires i < |args| && StartsWith(args[i], "--")
    ensures r.err.None? ==> i < r.next <= i + 2 && r.next <= |args|
    ensures r.err.Some? ==> r.next == i + 1 && r.values == values && r.err.value.index == i
    ensures !HasLong(flags, LongTarget(args[i])) ==> r.err == Some(ParseError(i, "Unknown flag: " + args[i]))
    ensures r.values != values ==> !StartsWith(args[i][2..], "no-") && r.values.Keys == values.Keys + {args[i][2..]}
  {
    var name := args[i][2..];
    var negation := StartsWith(name, "no-");
    var actual := LongTarget(args[i]);
    match FindLong(flags, actual)
    case None => Step(values, i + 1, Some(ParseError(i, "Unknown flag: " + args[i])))
    case Some(f) =>
      if f.takesValue then
        if negation then
          Step(values, i + 1, Some(ParseError(i, "Flag --no-" + actual + " is not valid for option that takes a value")))
        else if i + 1 < |args| then Step(values[f.long := args[i + 1]], i + 2, None)
        else Step(values, i + 1, Some(ParseError(i, "Flag --" + name + " requires a value")))
      else if !negation then Step(values[f.long := "true"], i + 1, None)
      else Step(values, i + 1, None)
  }

  /** The registered long name that `--NAME` or `--no-NAME` looks up. */
  function LongTarget(arg: string): string
    requires StartsWith(arg, "--")
  {
    var name := arg[2..];
    if StartsWith(name, "no-") then name[3..] else name
  }

  /** `handle_short_flags` on the cluster `args[i]` (after its '-'), from
      letter `j` on. */
  function ShortFlags(flags: seq<Flag>, values: map<string, string>, args: seq<string>, i: nat, j: nat): (r: Step)
    requires i < |args| && 0 < |args[i]| && j <= |args[i]| - 1
    ensures r.err.None? ==> i < r.next <= |args|
    ensures r.err.Some? ==> r.next == i + 1 && r.err.value.index == i
    ensures j < |args[i]| - 1 && !HasShort(flags, args[i][j + 1]) ==> r.err == Some(ParseError(i, "Unknown flag: -" + [args[i][j + 1]]))
    decreases |args[i]| - j
  {
    var letters := args[i][1..];
    if j == |letters| then Step(values, i + 1, None)
    else
      var c := letters[j];
      match FindShort(flags, c)
      case None => Step(values, i + 1, Some(ParseError(i, "Unknown flag: -" + [c])))
      case Some(f) =>
        if f.takesValue then
          if j + 1 < |letters| then
            Step(values[f.long := FinalValue(c, letters[j + 1..], args, i + 1)], if c == '-' then |args| else i + 1, None)
          else if i + 1 < |args| then
            Step(values[f.long := FinalValue(c, args[i + 1], args, i + 2)], if c == '-' then |args| else i + 2, None)
          else Step(values, i + 1, Some(ParseError(i, "Flag -" + [c] + " requires a value")))
        else ShortFlags(flags, values[f.long := "true"], args, i, j + 1)
  }

  /** The value a short flag stores: for the letter '-' the value and every
      remaining argument, joined by spaces. */
  function FinalValue(c: char, value: string, args: seq<string>, rest: nat): string
    requires rest <= |args|
  {
    if c == '-' then Join([value] + args[rest..], " ") else value
  }

  /** The handler `parse` and `parse_all` call for `args[i]`, if any. */
  function HandleArg(flags: seq<Flag>, values: map<string, string>, args: seq<string>, i: nat): (r: Option<Step>)
    requires i < |args|
    ensures r.None? <==> !StartsWith(args[i], "-") || args[i] == "-"
    ensures r.Some? && r.value.err.None? ==> i < r.value.next <= |args|
    ensures r.Some? && r.value.err.Some? ==> r.value.next == i + 1 && r.value.err.value.index == i
  {
    var arg := args[i];
    if StartsWith(arg, "--") && arg != "--" then Some(LongFlag(flags, values, args, i))
    else if StartsWith(arg, "-") && arg != "-" then Some(ShortFlags(flags, values, args, i, 0))
    else None
  }

  datatype Outcome = Parsed(values: map<string, string>, positionals: seq<string>) | Failed(err: ParseError)

  /** `parse`: the values set and the positional arguments (those not
      consumed as flag values), or the first error. */
  function Parse(flags: seq<Flag>, values: map<string, string>, args: seq<string>, i: nat, pos: seq<string>)
    : (r: Outcome)
    requires i <= |args|
    ensures r.Parsed? ==> |pos| <= |r.positionals| && r.positionals[..|pos|] == pos
    ensures r.Parsed? ==> forall k :: |pos| <= k < |r.positionals| ==> !StartsWith(r.positionals[k], "-")
    ensures r.Failed? ==> i <= r.err.index < |args|
    decreases |args| - i
  {
    if i == |args| then Parsed(values, pos)
    else
      match HandleArg(flags, values, args, i)
      case None =>
        if args[i] == "-" then Parse(flags, values, args, i + 1, pos)
        else
          var r := Parse(flags, values, args, i + 1, pos + [args[i]]);
          if r.Parsed? then assert r.positionals[..|pos|] == (pos + [args[i]])[..|pos|]; r else r
      case Some(step) =>
        if step.err.Some? then Failed(step.err.value)
        else Parse(flags, step.values, args, step.next, pos)
  }

  /** `parse_all`: never fails; an argument whose flag handling fails is kept
      as a positional argument (with any values set before the failure). */
  function ParseAll(flags: seq<Flag>, values: map<string, string>, args: seq<string>, i: nat, pos: seq<string>)
    : (r: (map<string, string>, seq<string>))
    requires i <= |args|
    ensures |pos| <= |r.1| && r.1[..|pos|] == pos
    decreases |args| - i
  {
    if i == |args| then (values, pos)
    else
      var r :=
        match HandleArg(flags, values, args, i)
        case None =>
          if args[i] == "-" then ParseAll(flags, values, args, i + 1, pos)
          else ParseAll(flags, values, args, i + 1, pos + [args[i]])
        case Some(step) =>
          if step.err.Some? then ParseAll(flags, step.values, args, step.next, pos + [args[i]])
          else ParseAll(flags, step.values, args, step.next, pos);
      assert r.1[..|pos|] == (pos + [args[i]])[..|pos|] || r.1[..|pos|] == pos;
      r
  }

  /** Where `parse` succeeds, `parse_all` sets the same values and returns
      the same positionals. */
  lemma {:induction false} ParseAllAgrees(flags: seq<Flag>, values: map<string, string>, args: seq<string>, i: nat,
                                          pos: seq<string>)
    requires i <= |args| && Parse(flags, values, args, i, pos).Parsed?
    ensures var p := Parse(flags, values, args, i, pos);
            ParseAll(flags, values, args, i, pos) == (p.values, p.positionals)
    decreases |args| - i
  {
    if i < |args| {
      match HandleArg(flags, values, args, i)
      case None =>
        if args[i] == "-" {
          ParseAllAgrees(flags, values, args, i + 1, pos);
        } else {
          ParseAllAgrees(flags, values, args, i + 1, pos + [args[i]]);
        }
      case Some(step) =>
        ParseAllAgrees(flags, step.values, args, step.next, pos);
    }
  }

  /** `is_present`: a value was parsed for the flag. */
  predicate IsPresent(cf: CommandFlags, name: string) {
    name in cf.values
  }

  /** `option`: the parsed value, else the default of the flag with that long name. */
  function OptionOf(cf: CommandFlags, name: string): (r: Option<string>)
    ensures name in cf.values ==> r == Some(cf.values[name])
    ensures name !in cf.values && FindLong(cf.flags, name).Some? ==> r == FindLong(cf.flags, name).value.default
    ensures name !in cf.values && !HasLong(cf.flags, name) ==> r.None?
  {
    if name in cf.values then Some(cf.values[name])
    else match FindLong(cf.flags, name)
      case Some(f) => f.default
      case None => None
  }

  // ---------------------------------------------------------------------------
  // Properties

  /** With unique registrations the lookup by long name finds the flag registered under it. */
  lemma {:induction false} FindLongAt(flags: seq<Flag>, k: nat)
    requires Unique(flags) && k < |flags|
    ensures FindLong(flags, flags[k].long) == Some(flags[k])
  {
    if k > 0 {
      assert flags[1..][k - 1] == flags[k];
      FindLongAt(flags[1..], k - 1);
    }
  }

  /** With unique registrations the lookup by letter finds the flag registered under it. */
  lemma {:induction false} FindShortAt(flags: seq<Flag>, k: nat)
    requires Unique(flags) && k < |flags| && flags[k].short.Some?
    ensures FindShort(flags, flags[k].short.value) == Some(flags[k])
  {
    if k > 0 {
      assert flags[1..][k - 1] == flags[k];
      FindShortAt(flags[1..], k - 1);
    }
  }

  /** `--X` on a boolean flag stores "true". */
  lemma LongBoolean(flags: seq<Flag>, values: map<string, string>, args: seq<string>, i: nat, f: Flag)
    requires i < |args| && args[i] == "--" + f.long && !StartsWith(f.long, "no-")
    requires FindLong(flags, f.long) == Some(f) && !f.takesValue
    ensures LongFlag(flags, values, args, i) == Step(values[f.long := "true"], i + 1, None)
  {
    assert args[i][2..] == f.long;
  }

  /** `--X` on a value flag takes the next argument, or fails when there is none. */
  lemma LongValue(flags: seq<Flag>, values: map<string, string>, args: seq<string>, i: nat, f: Flag)
    requires i < |args| && args[i] == "--" + f.long && !StartsWith(f.long, "no-")
    requires FindLong(flags, f.long) == Some(f) && f.takesValue
    ensures i + 1 < |args| ==> LongFlag(flags, values, args, i) == Step(values[f.long := args[i + 1]], i + 2, None)
    ensures i + 1 == |args| ==>
              LongFlag(flags, values, args, i) == Step(values, i + 1, Some(ParseError(i, "Flag --" + f.long + " requires a value")))
  {
    assert args[i][2..] == f.long;
  }

  /** `--no-X` sets nothing for a boolean flag and is refused for a value flag. */
  lemma LongNegation(flags: seq<Flag>, values: map<string, string>, args: seq<string>, i: nat, f: Flag)
    requires i < |args| && args[i] == "--no-" + f.long && FindLong(flags, f.long) == Some(f)
    ensures !f.takesValue ==> LongFlag(flags, values, args, i) == Step(values, i + 1, None)
    ensures f.takesValue ==>
              LongFlag(flags, values, args, i)
              == Step(values, i + 1, Some(ParseError(i, "Flag --no-" + f.long + " is not valid for option that takes a value")))
  {
    var name := args[i][2..];
    assert name == "no-" + f.long;
    assert name[..3] == "no-" && name[3..] == f.long;
    assert "Flag --no-" + name[3..] == "Flag --no-" + f.long;
  }

  /** A flag registered under a long name starting with "no-" cannot be set
      through a long argument: `--no-X` always reads as the negation of `X`,
      so no long argument changes the value stored under "no-X" (its short
      letter, if it has one, still sets it); and with `X` unregistered,
      `--no-X` is an unknown flag. */
  lemma NoPrefixedLongUnreachable(flags: seq<Flag>, values: map<string, string>, args: seq<string>, i: nat, x: string)
    requires i < |args| && StartsWith(args[i], "--")
    ensures var r := LongFlag(flags, values, args, i);
            && ("no-" + x in r.values <==> "no-" + x in values)
            && ("no-" + x in values ==> r.values["no-" + x] == values["no-" + x])
    ensures args[i] == "--no-" + x && !HasLong(flags, x) ==>
              LongFlag(flags, values, args, i) == Step(values, i + 1, Some(ParseError(i, "Unknown flag: --no-" + x)))
  {
    assert ("no-" + x)[..3] == "no-";
    if args[i] == "--no-" + x {
      assert args[i][2..] == "no-" + x;
      assert args[i][2..][..3] == "no-";
      assert LongTarget(args[i]) == x;
      assert "Unknown flag: " + args[i] == "Unknown flag: --no-" + x;
    }
  }

  /** A cluster of boolean letters sets each of their flags to "true" and
      nothing else. */
  lemma {:induction false} BooleanCluster(flags: seq<Flag>, values: map<string, string>, args: seq<string>, i: nat, j: nat)
    requires i < |args| && 0 < |args[i]| && j <= |args[i]| - 1
    requires BooleanLetters(flags, args[i][1..], j)
    ensures var r := ShortFlags(flags, values, args, i, j);
            && r.err.None? && r.next == i + 1
            && ClusterNames(flags, args[i][1..], j) <= r.values.Keys
            && (forall name :: name in ClusterNames(flags, args[i][1..], j) ==> r.values[name] == "true")
            && r.values - ClusterNames(flags, args[i][1..], j) == values - ClusterNames(flags, args[i][1..], j)
    decreases |args[i]| - j
  {
    var letters := args[i][1..];
    if j < |letters| {
      var f := FindShort(flags, letters[j]).value;
      var rest := ClusterNames(flags, letters, j + 1);
      BooleanCluster(flags, values[f.long := "true"], args, i, j + 1);
      ClusterStep(flags, values, args, i, j);
      var r := ShortFlags(flags, values, args, i, j);
      if f.long !in rest {
        assert f.long in (values[f.long := "true"] - rest);
        assert f.long in (r.values - rest);
      }
      var all := {f.long} + rest;
      assert r.values - all == values - all by {
        assert r.values - all == (r.values - rest) - {f.long};
        assert values - all == (values[f.long := "true"] - rest) - {f.long};
      }
    } else {
      assert ClusterNames(flags, letters, j) == {};
    }
  }

  /** One boolean letter of a cluster: its flag is set and the cluster goes on. */
  lemma ClusterStep(flags: seq<Flag>, values: map<string, string>, args: seq<string>, i: nat, j: nat)
    requires i < |args| && 0 < |args[i]| && j < |args[i]| - 1
    requires BooleanLetters(flags, args[i][1..], j)
    ensures var f := FindShort(flags, args[i][1..][j]).value;
            && ClusterNames(flags, args[i][1..], j) == {f.long} + ClusterNames(flags, args[i][1..], j + 1)
            && ShortFlags(flags, values, args, i, j) == ShortFlags(flags, values[f.long := "true"], args, i, j + 1)
  {
  }

  /** Every letter of the cluster from `j` on is a registered boolean flag. */
  ghost predicate BooleanLetters(flags: seq<Flag>, letters: string, j: nat) {
    forall k :: j <= k < |letters| ==> FindShort(flags, letters[k]).Some? && !FindShort(flags, letters[k]).value.takesValue
  }

  /** The long names of the registered letters of a cluster from `j` on. */
  ghost function ClusterNames(flags: seq<Flag>, letters: string, j: nat): set<string> {
    set k | j <= k < |letters| && FindShort(flags, letters[k]).Some? :: FindShort(flags, letters[k]).value.long
  }

  /** A value letter followed by more letters takes them as its value. */
  lemma ShortValueInCluster(flags: seq<Flag>, values: map<string, string>, args: seq<string>, i: nat, j: nat, f: Flag)
    requires i < |args| && 0 < |args[i]| && j + 1 < |args[i]| - 1
    requires FindShort(flags, args[i][1..][j]) == Some(f) && f.takesValue && args[i][1..][j] != '-'
    ensures ShortFlags(flags, values, args, i, j) == Step(values[f.long := args[i][j + 2..]], i + 1, None)
  {
    assert args[i][1..][j + 1..] == args[i][j + 2..];
  }

  /** A value letter ending the cluster takes the next argument; the letter
      '-' takes every remaining argument, joined by spaces. */
  lemma ShortValueNextArg(flags: seq<Flag>, values: map<string, string>, args: seq<string>, i: nat, f: Flag)
    requires i + 1 < |args| && |args[i]| >= 2
    requires FindShort(flags, args[i][|args[i]| - 1]) == Some(f) && f.takesValue
    requires forall k :: 1 <= k < |args[i]| - 1 ==>
               FindShort(flags, args[i][k]).Some? && !FindShort(flags, args[i][k]).value.takesValue
    ensures var r := ShortFlags(flags, values, args, i, 0);
            && r.err.None?
            && f.long in r.values
            && (args[i][|args[i]| - 1] != '-' ==> r.values[f.long] == args[i + 1] && r.next == i + 2)
            && (args[i][|args[i]| - 1] == '-' ==> r.values[f.long] == Join(args[i + 1..], " ") && r.next == |args|)
  {
    var letters := args[i][1..];
    ShortPrefix(flags, values, args, i, 0, f);
    assert [args[i + 1]] + args[i + 2..] == args[i + 1..];
  }

  /** Walking the boolean letters in front of the last one. */
  lemma {:induction false} ShortPrefix(flags: seq<Flag>, values: map<string, string>, args: seq<string>, i: nat, j: nat, f: Flag)
    requires i + 1 < |args| && |args[i]| >= 2 && j <= |args[i]| - 2
    requires FindShort(flags, args[i][|args[i]| - 1]) == Some(f) && f.takesValue
    requires forall k :: 1 <= k < |args[i]| - 1 ==>
               FindShort(flags, args[i][k]).Some? && !FindShort(flags, args[i][k]).value.takesValue
    ensures var r := ShortFlags(flags, values, args, i, j);
            && r.err.None?
            && r.next == (if args[i][|args[i]| - 1] == '-' then |args| else i + 2)
            && f.long in r.values
            && r.values[f.long] == FinalValue(args[i][|args[i]| - 1], args[i + 1], args, i + 2)
    decreases |args[i]| - j
  {
    var letters := args[i][1..];
    if j == |letters| - 1 {
      assert letters[j] == args[i][|args[i]| - 1];
    } else {
      assert letters[j] == args[i][j + 1];
      var g := FindShort(flags, letters[j]).value;
      ShortPrefix(flags, values[g.long := "true"], args, i, j + 1, f);
    }
  }

  /** The arguments that are neither flags nor "-". */
  function Plain(args: seq<string>): seq<string> {
    if args == [] then []
    else if StartsWith(args[0], "-") then Plain(args[1..])
    else [args[0]] + Plain(args[1..])
  }

  /** With boolean flags only, `parse` returns exactly the arguments not
      starting with '-', in order. */
  lemma {:induction false} BooleanParsePositionals(flags: seq<Flag>, values: map<string, string>, args: seq<string>,
                                                   i: nat, pos: seq<string>)
    requires i <= |args| && forall k :: 0 <= k < |flags| ==> !flags[k].takesValue
    ensures Parse(flags, values, args, i, pos).Parsed? ==> Parse(flags, values, args, i, pos).positionals == pos + Plain(args[i..])
    decreases |args| - i
  {
    if i == |args| {
      assert args[i..] == [];
    } else {
      assert args[i..][1..] == args[i + 1..];
      match HandleArg(flags, values, args, i)
      case None =>
        if args[i] == "-" {
          BooleanParsePositionals(flags, values, args, i + 1, pos);
        } else {
          BooleanParsePositionals(flags, values, args, i + 1, pos + [args[i]]);
        }
      case Some(step) =>
        if step.err.None? {
          BooleanStepNext(flags, values, args, i);
          BooleanParsePositionals(flags, step.values, args, step.next, pos);
        }
    }
  }

  /** A flag argument naming a flag that is not registered: a long one whose
      name (after any "no-") is unknown, or a short cluster with an unknown
      letter. */
  predicate Unrecognised(flags: seq<Flag>, arg: string)
    requires StartsWith(arg, "-") && arg != "-"
  {
    if StartsWith(arg, "--") && arg != "--" then !HasLong(flags, LongTarget(arg))
    else exists k :: 1 <= k < |arg| && !HasShort(flags, arg[k])
  }

  /** The arguments `parse_all` keeps when every flag is boolean: plain
      arguments and unrecognised flag arguments, in order, without "-". */
  function Lenient(flags: seq<Flag>, args: seq<string>): seq<string> {
    if args == [] then []
    else if args[0] == "-" || (StartsWith(args[0], "-") && !Unrecognised(flags, args[0])) then Lenient(flags, args[1..])
    else [args[0]] + Lenient(flags, args[1..])
  }

  /** With boolean flags only, `parse_all` returns exactly the plain and the
      unrecognised flag arguments, in order. */
  lemma {:induction false} BooleanParseAllPositionals(flags: seq<Flag>, values: map<string, string>, args: seq<string>,
                                                      i: nat, pos: seq<string>)
    requires i <= |args| && forall k :: 0 <= k < |flags| ==> !flags[k].takesValue
    ensures ParseAll(flags, values, args, i, pos).1 == pos + Lenient(flags, args[i..])
    decreases |args| - i
  {
    if i == |args| {
      assert args[i..] == [];
    } else {
      assert args[i..][1..] == args[i + 1..];
      match HandleArg(flags, values, args, i)
      case None =>
        if args[i] == "-" {
          BooleanParseAllPositionals(flags, values, args, i + 1, pos);
        } else {
          BooleanParseAllPositionals(flags, values, args, i + 1, pos + [args[i]]);
        }
      case Some(step) =>
        BooleanStepNext(flags, values, args, i);
        BooleanStepErr(flags, values, args, i);
        if step.err.Some? {
          BooleanParseAllPositionals(flags, step.values, args, step.next, pos + [args[i]]);
        } else {
          BooleanParseAllPositionals(flags, step.values, args, step.next, pos);
        }
    }
  }

  /** Without value flags a flag argument fails exactly when it is unrecognised. */
  lemma BooleanStepErr(flags: seq<Flag>, values: map<string, string>, args: seq<string>, i: nat)
    requires i < |args| && forall k :: 0 <= k < |flags| ==> !flags[k].takesValue
    requires HandleArg(flags, values, args, i).Some?
    ensures HandleArg(flags, values, args, i).value.err.Some? <==> Unrecognised(flags, args[i])
  {
    if !(StartsWith(args[i], "--") && args[i] != "--") {
      BooleanShortErr(flags, values, args, i, 0);
    }
  }

  lemma {:induction false} BooleanShortErr(flags: seq<Flag>, values: map<string, string>, args: seq<string>, i: nat, j: nat)
    requires i < |args| && 0 < |args[i]| && j <= |args[i]| - 1
    requires forall k :: 0 <= k < |flags| ==> !flags[k].takesValue
    ensures ShortFlags(flags, values, args, i, j).err.Some? <==> exists k :: j + 1 <= k < |args[i]| && !HasShort(flags, args[i][k])
    decreases |args[i]| - j
  {
    var letters := args[i][1..];
    if j < |letters| {
      assert letters[j] == args[i][j + 1];
      match FindShort(flags, letters[j])
      case None =>
      case Some(f) =>
        var k :| 0 <= k < |flags| && flags[k] == f;
        BooleanShortErr(flags, values[f.long := "true"], args, i, j + 1);
    }
  }

  /** Without value flags every flag argument consumes only itself. */
  lemma BooleanStepNext(flags: seq<Flag>, values: map<string, string>, args: seq<string>, i: nat)
    requires i < |args| && forall k :: 0 <= k < |flags| ==> !flags[k].takesValue
    requires HandleArg(flags, values, args, i).Some?
    ensures HandleArg(flags, values, args, i).value.next == i + 1
  {
    if !(StartsWith(args[i], "--") && args[i] != "--") {
      BooleanShortNext(flags, values, args, i, 0);
    }
  }

  lemma {:induction false} BooleanShortNext(flags: seq<Flag>, values: map<string, string>, args: seq<string>, i: nat, j: nat)
    requires i < |args| && 0 < |args[i]| && j <= |args[i]| - 1
    requires forall k :: 0 <= k < |flags| ==> !flags[k].takesValue
    ensures ShortFlags(flags, values, args, i, j).next == i + 1
    decreases |args[i]| - j
  {
    var letters := args[i][1..];
    if j < |letters| {
      match FindShort(flags, letters[j])
      case None =>
      case Some(f) =>
        var k :| 0 <= k < |flags| && flags[k] == f;
        BooleanShortNext(flags, values[f.long := "true"], args, i, j + 1);
    }
  }

  // ---------------------------------------------------------------------------
  // The flags the unit tests register

  const Verbose: Flag := Flag(Some('v'), "verbose", false, None)
  const Output: Flag := Flag(Some('o'), "output", true, None)
  const Debug: Flag := Flag(Some('d'), "debug", true, Some("0"))

  /** Registering the third test flag after the first two succeeds. */
  lemma TestFlagsRegister()
    ensures AddWithDefault(CommandFlags([Verbose, Output], map[]), Some('d'), "debug", true, Some("0"))
            == Ok(CommandFlags([Verbose, Output, Debug], map[]))
  {
    assert !HasShort([Verbose, Output], 'd');
    assert !HasLong([Verbose, Output], "debug") by {
      assert "verbose"[0] != "debug"[0];
      assert "output"[0] != "debug"[0];
    }
    assert [Verbose, Output] + [Debug] == [Verbose, Output, Debug];
  }

  lemma TestFlagsUnique()
    ensures Unique([Verbose, Output, Debug])
  {
    assert "verbose"[0] != "output"[0] && "verbose"[0] != "debug"[0] && "output"[0] != "debug"[0];
  }

  /** Re-registering a short letter panics. */
  lemma DuplicateShortPanics()
    ensures AddWithDefault(CommandFlags([Verbose], map[]), Some('v'), "version", false, None).Err?
  {
    assert [Verbose][0].short == Some('v');
  }

  /** Defaults: none for "verbose" and "output", "0" for "debug". */
  lemma TestDefaultValues()
    ensures var cf := CommandFlags([Verbose, Output, Debug], map[]);
            OptionOf(cf, "verbose") == None && OptionOf(cf, "debug") == Some("0") && OptionOf(cf, "output") == None
  {
    var flags := [Verbose, Output, Debug];
    TestFlagsUnique();
    FindLongAt(flags, 0);
    FindLongAt(flags, 1);
    FindLongAt(flags, 2);
  }

  /** `--verbose` sets "verbose" to "true". */
  lemma VerboseArg(values: map<string, string>, args: seq<string>, i: nat)
    requires i < |args| && args[i] == "--verbose"
    ensures HandleArg([Verbose, Output, Debug], values, args, i) == Some(Step(values["verbose" := "true"], i + 1, None))
  {
    TestFlagsUnique();
    FindLongAt([Verbose, Output, Debug], 0);
    assert !StartsWith("verbose", "no-") by { assert "verbose"[..3][0] == 'v'; }
    LongBoolean([Verbose, Output, Debug], values, args, i, Verbose);
  }

  /** `--output X` sets "output" to X. */
  lemma OutputArg(values: map<string, string>, args: seq<string>, i: nat)
    requires i + 1 < |args| && args[i] == "--output"
    ensures HandleArg([Verbose, Output, Debug], values, args, i) == Some(Step(values["output" := args[i + 1]], i + 2, None))
  {
    TestFlagsUnique();
    FindLongAt([Verbose, Output, Debug], 1);
    assert !StartsWith("output", "no-") by { assert "output"[..3][0] == 'o'; }
    LongValue([Verbose, Output, Debug], values, args, i, Output);
  }

  /** `--unknown` is an unknown flag. */
  lemma UnknownArg(values: map<string, string>, args: seq<string>, i: nat)
    requires i < |args| && args[i] == "--unknown"
    ensures HandleArg([Verbose, Output, Debug], values, args, i)
            == Some(Step(values, i + 1, Some(ParseError(i, "Unknown flag: --unknown"))))
  {
    assert args[i][..2] == "--" && args[i][2..] == "unknown";
    assert !StartsWith("unknown", "no-") by { assert "unknown"[..3][1] == 'n'; assert "no-"[1] == 'o'; }
    assert !HasLong([Verbose, Output, Debug], "unknown") by {
      assert "verbose"[0] != "unknown"[0] && "output"[0] != "unknown"[0] && "debug"[0] != "unknown"[0];
    }
    assert "Unknown flag: " + args[i] == "Unknown flag: --unknown";
  }

  /** `--verbose --output file.txt`. */
  lemma TestParseLongFlags()
    ensures var r := Parse([Verbose, Output, Debug], map[], ["--verbose", "--output", "file.txt"], 0, []);
            r.Parsed? && r.values == map["verbose" := "true", "output" := "file.txt"] && r.positionals == []
  {
    var flags := [Verbose, Output, Debug];
    var args := ["--verbose", "--output", "file.txt"];
    var m1 := map["verbose" := "true"];
    VerboseArg(map[], args, 0);
    OutputArg(m1, args, 1);
    assert Parse(flags, map[], args, 0, []) == Parse(flags, m1, args, 1, []);
    assert Parse(flags, m1, args, 1, []) == Parse(flags, m1["output" := "file.txt"], args, 3, []);
  }

  /** `--verbose --unknown --output file.txt` with `parse_all`. */
  lemma TestParseAll()
    ensures var r := ParseAll([Verbose, Output, Debug], map[], ["--verbose", "--unknown", "--output", "file.txt"], 0, []);
            r.0 == map["verbose" := "true", "output" := "file.txt"] && r.1 == ["--unknown"]
  {
    var flags := [Verbose, Output, Debug];
    var args := ["--verbose", "--unknown", "--output", "file.txt"];
    var m1 := map["verbose" := "true"];
    var m2 := m1["output" := "file.txt"];
    VerboseArg(map[], args, 0);
    UnknownArg(m1, args, 1);
    OutputArg(m1, args, 2);
    assert ParseAll(flags, map[], args, 0, []) == ParseAll(flags, m1, args, 1, []);
    assert ParseAll(flags, m1, args, 1, []) == ParseAll(flags, m1, args, 2, [] + ["--unknown"]);
    assert [] + ["--unknown"] == ["--unknown"];
    assert ParseAll(flags, m1, args, 2, ["--unknown"]) == ParseAll(flags, m2, args, 4, ["--unknown"]);
  }
}

=== FILE: fs.dfy ===
/** The file system the copy command works on: a map from paths to nodes.
    Lookups use the exact path and never follow links. Sources are resolved
    before planning starts, but a link that already stands at a destination
    is looked at as a link, where the program would follow it. */
module FileSystem {
  import opened Wrappers
  import opened Paths

  newtype byte = x: int | 0 <= x < 256

  /** A directory keeps its listing in `read_dir` order; `None` when it
      cannot be read. `Special` stands for FIFOs, sockets and devices. */
  datatype Node =
    | File(data: seq<byte>)
    | Dir(entries: Option<seq<string>>)
    | Symlink(target: Path)
    | Special

  type FS = map<Path, Node>

  const NotFound: string := "No such file or directory (os error 2)"
  const AlreadyExists: string := "File exists (os error 17)"
  const NotADirectory: string := "Not a directory (os error 20)"

  predicate Exists(fs: FS, p: Path) {
    p in fs
  }

  predicate IsDir(fs: FS, p: Path) {
    p in fs && fs[p].Dir?
  }

  predicate IsSymlink(fs: FS, p: Path) {
    p in fs && fs[p].Symlink?
  }

  /** `metadata(p).len()`: the byte count of a file, zero for other nodes. */
  function Size(n: Node): nat {
    if n.File? then |n.data| else 0
  }

  /** The paths at or below `p`: the measure that bounds a directory walk. */
  function Under(fs: FS, p: Path): set<Path> {
    set q | q in fs.Keys && IsPrefix(p, q)
  }

  /** A listed child has fewer paths below it than its directory. */
  lemma UnderChild(fs: FS, p: Path, name: string)
    requires p in fs
    ensures |Under(fs, p + [Normal(name)])| < |Under(fs, p)|
  {
    var c := p + [Normal(name)];
    assert Under(fs, c) <= Under(fs, p) by {
      forall q | q in Under(fs, c) ensures q in Under(fs, p) {
        assert q[..|p|] == c[..|p|];
      }
    }
    assert p in Under(fs, p) && p !in Under(fs, c);
    SubsetSize(Under(fs, c), Under(fs, p) - {p});
  }

  lemma {:induction false} SubsetSize<T>(a: set<T>, b: set<T>)
    requires a <= b
    ensures |a| <= |b|
    decreases |b|
  {
    if a != {} {
      var x :| x in a;
      SubsetSize(a - {x}, b - {x});
    }
  }

  /** Adds `name` to the listing of the directory `dir`, if it is not there yet. */
  function AddChild(fs: FS, dir: Path, name: string): (r: FS)
    ensures r.Keys == fs.Keys
    ensures forall q :: q in fs && q != dir ==> r[q] == fs[q]
    ensures IsDir(fs, dir) ==> IsDir(r, dir)
  {
    if dir in fs && fs[dir].Dir? && fs[dir].entries.Some? && name !in fs[dir].entries.value then
      fs[dir := Dir(Some(fs[dir].entries.value + [name]))]
    else fs
  }

  /** Places `node` at `p` (which must have a directory as parent) and lists
      it in that directory. */
  function Create(fs: FS, p: Path, node: Node): (r: Result<FS>)
    ensures r.Ok? <==> Parent(p).Some? && IsDir(fs, Parent(p).value) && FileName(p).Some?
    ensures r.Ok? ==> p in r.value && r.value[p] == node
    ensures r.Ok? ==> r.value.Keys == fs.Keys + {p}
    ensures r.Ok? ==> forall q :: q in fs && q != p && q != Parent(p).value ==> r.value[q] == fs[q]
  {
    match Parent(p)
    case None => Err(NotFound)
    case Some(dir) =>
      if !IsDir(fs, dir) then Err(if dir in fs then NotADirectory else NotFound)
      else if FileName(p).None? then Err(AlreadyExists)
      else
        assert p != dir;
        Ok(AddChild(fs, dir, FileName(p).value)[p := node])
  }
}

=== FILE: interrupt.dfy ===
/** The shell's Ctrl+C flag as the copy and disk-usage commands see it: an
    atomic boolean that a signal handler sets and that stays set until the next
    command line is evaluated. The model fixes in advance after how many polls
    it becomes set. */
module Interrupt {

  datatype Signal = Never | After(polls: nat)

  /** One poll of the flag: whether it is set, and the signal for later polls. */
  function Poll(s: Signal): (r: (bool, Signal))
    ensures s == Never ==> r == (false, Never)
    ensures s.After? && s.polls == 0 ==> r == (true, s)
    ensures s.After? && s.polls > 0 ==> !r.0 && r.1 == After(s.polls - 1)
  {
    match s
    case Never => (false, Never)
    case After(k) => if k == 0 then (true, s) else (false, After(k - 1))
  }

  /** Once observed set, the flag stays set. */
  lemma Sticky(s: Signal)
    requires Poll(s).0
    ensures Poll(Poll(s).1).0
  {
  }
}

=== FILE: less.dfy ===
/** The pager (`less.rs`): a viewer over a buffer of lines with a top-line
    cursor, a horizontal scroll, and a forward/backward search cursor. The
    terminal itself (raw mode, key events, the alternate screen) is replaced
    by the `Key` values the viewer reacts to and the strings it would print. */
module Pager {
  import opened Wrappers
  import opened Text

  datatype Viewer = Viewer(
    lines: seq<string>,
    cur: nat,                    // index of the top line on the screen
    hscroll: nat,                // characters hidden on the left
    width: nat,
    height: nat,                 // text rows (the terminal's rows minus the status row)
    lastSearch: Option<string>,
    forward: bool,               // direction of the last search
    start: nat,                  // where the next search begins
    numbers: bool,
    status: Option<string>,
    color: bool)

  /** `usize::saturating_sub`. */
  function Sat(a: nat, b: nat): (r: nat)
    ensures a >= b ==> r == a - b
    ensures a < b ==> r == 0
  {
    if a >= b then a - b else 0
  }

  /** `LessViewer::new` on a terminal of `cols` x `rows`. */
  function New(lines: seq<string>, cols: nat, rows: nat): (r: Viewer)
    ensures r.cur == 0 && r.hscroll == 0 && r.start == 0 && r.lastSearch.None? && r.forward
    ensures r.height + 1 == rows || (rows == 0 && r.height == 0)
    ensures Valid(r)
    ensures r.lines == lines && r.width == cols
  {
    Viewer(lines, 0, 0, cols, Sat(rows, 1), None, true, 0, false, None, true)
  }

  /** The highest top line: the one that puts the last line at the bottom. */
  function MaxTop(v: Viewer): nat {
    Sat(|v.lines|, v.height)
  }

  /** The cursor is never past the last full page, the search cursor never
      past the end of the buffer, and a recorded search is never empty. */
  ghost predicate Valid(v: Viewer) {
    && v.cur <= MaxTop(v)
    && v.start <= |v.lines|
    && (v.lastSearch.Some? ==> v.lastSearch.value != [])
  }

  /** The clamp most movements end with: a top line whose page would run
      past the end becomes the last page's top line. */
  function Clamp(v: Viewer): (r: Viewer)
    ensures r == v.(cur := r.cur)
    ensures r.cur + v.height <= |v.lines| || r.cur == MaxTop(v)
    ensures r.cur <= v.cur
    ensures v.cur + v.height <= |v.lines| ==> r == v
    ensures v.cur + v.height > |v.lines| ==> r.cur == MaxTop(v)
  {
    if v.cur + v.height > |v.lines| then v.(cur := MaxTop(v)) else v
  }

  // ---------------------------------------------------------------------------
  // Movement

  /** `last_page`: the last line at the bottom of the screen, or the top
      when everything fits. */
  function LastPage(v: Viewer): (r: Viewer)
    ensures r == v.(cur := r.cur)
    ensures |v.lines| <= v.height ==> r.cur == 0
    ensures |v.lines| > v.height ==> r.cur + v.height == |v.lines|
  {
    if v.lines == [] then v.(cur := 0) else v.(cur := Sat(|v.lines|, v.height))
  }

  const SubtractOverflow := "panic: attempt to subtract with overflow"

  /** `next_line` as written: `len - 1` underflows on an empty buffer. */
  function NextLineAsWritten(v: Viewer): (r: Result<Viewer>)
    ensures v.lines == [] <==> r == Err(SubtractOverflow)
    ensures r.Ok? ==> r.value == NextLine(v)
  {
    if v.lines == [] then Err(SubtractOverflow)
    else Ok(NextLine(v))
  }

  /** `next_line` with the empty buffer handled (no movement): one line down
      unless the last line is already the top one, never past the last page. */
  function NextLine(v: Viewer): (r: Viewer)
    ensures r == v.(cur := r.cur)
    ensures v.cur + 1 < |v.lines| && v.cur + 1 + v.height <= |v.lines| ==> r.cur == v.cur + 1
    ensures v.cur + 1 < |v.lines| && v.cur + 1 + v.height > |v.lines| ==> r.cur == MaxTop(v)
    ensures v.cur + 1 >= |v.lines| ==> r == v
  {
    if v.lines != [] && v.cur < |v.lines| - 1 then Clamp(v.(cur := v.cur + 1)) else v
  }

  /** `next_page`: one screen down, to at most the last line, then clamped;
      nothing happens when that is no move forward. */
  function NextPage(v: Viewer): (r: Viewer)
    ensures r == v.(cur := r.cur)
    ensures r.cur <= v.cur + v.height
    ensures v.cur <= MaxTop(v) ==> v.cur <= r.cur && r.cur <= MaxTop(v)
    ensures v.cur < MaxTop(v) && v.height > 0 ==> r.cur > v.cur
    // the target is a page down, but never below the last line; the clamp then keeps a full page
    ensures var t := Min(v.cur + v.height, Sat(|v.lines|, 1));
            && (t > v.cur ==> r.cur == Min(t, MaxTop(v)))
            && (t <= v.cur ==> r == v)
  {
    var target := Min(v.cur + v.height, Sat(|v.lines|, 1));
    if target > v.cur then Clamp(v.(cur := target)) else v
  }

  function Min(a: nat, b: nat): nat {
    if a <= b then a else b
  }

  /** `prev_page`: one screen up, stopping at the top. */
  function PrevPage(v: Viewer): (r: Viewer)
    ensures r == v.(cur := r.cur)
    ensures v.cur >= v.height ==> r.cur + v.height == v.cur
    ensures v.cur < v.height ==> r.cur == 0
  {
    v.(cur := Sat(v.cur, v.height))
  }

  /** `prev_line`: one line up unless at the top. */
  function PrevLine(v: Viewer): (r: Viewer)
    ensures r == v.(cur := r.cur)
    ensures v.cur > 0 ==> r.cur + 1 == v.cur
    ensures v.cur == 0 ==> r == v
  {
    if v.cur > 0 then v.(cur := v.cur - 1) else v
  }

  /** `prev_line` applies no clamp: a top line below the last page's only
      moves up by one. */
  lemma PrevLineNoClamp(v: Viewer)
    requires v.cur > MaxTop(v) + 1
    ensures PrevLine(v).cur == v.cur - 1 && PrevLine(v).cur > MaxTop(v)
  {
  }

  /** `scroll_right`. */
  function ScrollRight(v: Viewer): (r: Viewer)
    ensures r == v.(hscroll := r.hscroll) && r.hscroll > v.hscroll
    ensures ScrollLeft(r) == v
  {
    v.(hscroll := v.hscroll + 1)
  }

  /** `scroll_left`: one column left, stopping at the first. */
  function ScrollLeft(v: Viewer): (r: Viewer)
    ensures r == v.(hscroll := r.hscroll)
    ensures v.hscroll > 0 ==> r.hscroll + 1 == v.hscroll
    ensures v.hscroll == 0 ==> r == v
  {
    v.(hscroll := Sat(v.hscroll, 1))
  }

  // ---------------------------------------------------------------------------
  // Search

  /** The first line at or after `from` that contains `q`. */
  function FindForward(lines: seq<string>, q: string, from: nat): (r: Option<nat>)
    requires from <= |lines|
    ensures r.Some? ==> from <= r.value < |lines| && Contains(lines[r.value], q)
    ensures r.Some? ==> forall j :: from <= j < r.value ==> !Contains(lines[j], q)
    ensures r.None? ==> forall j :: from <= j < |lines| ==> !Contains(lines[j], q)
    decreases |lines| - from
  {
    if from == |lines| then None
    else if Find(lines[from], q).Some? then Some(from)
    else FindForward(lines, q, from + 1)
  }

  /** The last line before `upto` that contains `q`. */
  function FindBackward(lines: seq<string>, q: string, upto: nat): (r: Option<nat>)
    requires upto <= |lines|
    ensures r.Some? ==> r.value < upto && Contains(lines[r.value], q)
    ensures r.Some? ==> forall j :: r.value < j < upto ==> !Contains(lines[j], q)
    ensures r.None? ==> forall j :: 0 <= j < upto ==> !Contains(lines[j], q)
  {
    if upto == 0 then None
    else if Find(lines[upto - 1], q).Some? then Some(upto - 1)
    else FindBackward(lines, q, upto - 1)
  }

  /** The panics `lines[start..]` and `lines[..start]` raise. */
  function SliceStartPanic(start: nat, len: nat): string {
    "panic: range start index " + NatToString(start) + " out of range for slice of length " + NatToString(len)
  }

  function SliceEndPanic(end: nat, len: nat): string {
    "panic: range end index " + NatToString(end) + " out of range for slice of length " + NatToString(len)
  }

  function NatToString(n: nat): string
    decreases n
  {
    if n < 10 then [Digit(n)] else NatToString(n / 10) + [Digit(n % 10)]
  }

  function Digit(d: nat): char
    requires d < 10
  {
    (d + '0' as int) as char
  }

  /** The search proper, once the search cursor is known to be in range;
      `notFoundStart` is where the search cursor goes when nothing matches. */
  function SearchWith(v: Viewer, q: string, forward: bool, notFoundStart: nat): (r: Viewer)
    requires v.start <= |v.lines|
  {
    var v1 := v.(lastSearch := Some(q), forward := forward);
    var hit := if forward then FindForward(v.lines, q, v.start) else FindBackward(v.lines, q, v.start);
    var v2 :=
      match hit
      case Some(j) => v1.(cur := j, start := if forward then j + 1 else j)
      case None => v1.(status := Some("Pattern not found: " + q), start := notFoundStart);
    Clamp(v2)
  }

  /** `search` as written: the search cursor after a failed forward search is
      the line after the top line, which is past the end of an empty buffer,
      and the next search then slices out of range. */
  function SearchAsWritten(v: Viewer, q: string, forward: bool): (r: Result<Viewer>)
    ensures v.start > |v.lines| <==> r.Err?
    ensures r.Err? && forward ==> r.msg == SliceStartPanic(v.start, |v.lines|)
    ensures r.Err? && !forward ==> r.msg == SliceEndPanic(v.start, |v.lines|)
  {
    if v.start > |v.lines| then
      Err(if forward then SliceStartPanic(v.start, |v.lines|) else SliceEndPanic(v.start, |v.lines|))
    else Ok(SearchWith(v, q, forward, if forward then v.cur + 1 else v.cur))
  }

  /** `search` with the search cursor kept inside the buffer. */
  function Search(v: Viewer, q: string, forward: bool): (r: Viewer)
    requires Valid(v) && q != []
    ensures Valid(r) && r.lastSearch == Some(q) && r.forward == forward
    ensures r.lines == v.lines && r.hscroll == v.hscroll && r.height == v.height
  {
    SearchWith(v, q, forward, if forward then Min(v.cur + 1, |v.lines|) else v.cur)
  }

  /** A forward search lands on the first matching line at or after the search
      cursor, which is then on the screen, and continues after it. */
  lemma SearchForwardFinds(v: Viewer, q: string, j: nat)
    requires Valid(v) && q != [] && FindForward(v.lines, q, v.start) == Some(j)
    ensures var r := Search(v, q, true);
            && r.start == j + 1 && r.status == v.status
            && r.cur == Min(j, MaxTop(v))
            && r.cur <= j && (v.height > 0 ==> j < r.cur + v.height)
  {
  }

  /** A backward search lands on the last matching line before the search
      cursor, and the next backward search continues before it. */
  lemma SearchBackwardFinds(v: Viewer, q: string, j: nat)
    requires Valid(v) && q != [] && FindBackward(v.lines, q, v.start) == Some(j)
    ensures var r := Search(v, q, false);
            && r.start == j && r.status == v.status
            && r.cur == Min(j, MaxTop(v))
            && r.cur <= j && (v.height > 0 ==> j < r.cur + v.height)
  {
  }

  /** A failed search reports the pattern and leaves the top line (up to the
      clamp) where it was. */
  lemma SearchNotFound(v: Viewer, q: string, forward: bool)
    requires Valid(v) && q != []
    requires if forward then FindForward(v.lines, q, v.start).None? else FindBackward(v.lines, q, v.start).None?
    ensures var r := Search(v, q, forward);
            && r.status == Some("Pattern not found: " + q)
            && r.cur == v.cur
            && r.start == (if forward then Min(v.cur + 1, |v.lines|) else v.cur)
  {
  }

  /** When the top line is inside the buffer the corrected search agrees with
      the source. */
  lemma SearchAgrees(v: Viewer, q: string, forward: bool)
    requires Valid(v) && q != [] && v.cur < |v.lines|
    ensures SearchAsWritten(v, q, forward) == Ok(Search(v, q, forward))
  {
  }

  /** On an empty buffer two searches in a row panic. */
  lemma EmptyBufferSecondSearchPanics()
    ensures var v := New([], 80, 24);
            && SearchAsWritten(v, "x", true).Ok?
            && SearchAsWritten(SearchAsWritten(v, "x", true).value, "x", true) == Err(SliceStartPanic(1, 0))
  {
    var v := New([], 80, 24);
    assert FindForward([], "x", 0).None?;
  }

  /** `repeat_search`: the last search again, in its direction. */
  function RepeatSearch(v: Viewer): (r: Viewer)
    requires Valid(v)
    ensures v.lastSearch.None? ==> r == v
    ensures v.lastSearch.Some? ==> r == Search(v, v.lastSearch.value, v.forward)
    ensures Valid(r)
  {
    match v.lastSearch
    case None => v
    case Some(q) => Search(v, q, v.forward)
  }

  // ---------------------------------------------------------------------------
  // Drawing one line

  /** The visible part of a line: what is left after the horizontal scroll,
      cut to the screen width. */
  function Visible(v: Viewer, line: string): (r: string)
    ensures |r| <= v.width
    ensures |line| > v.hscroll ==> |r| == Min(|line| - v.hscroll, v.width) && r == line[v.hscroll..][..|r|]
    ensures |line| <= v.hscroll ==> r == []
  {
    var shown := if |line| > v.hscroll then line[v.hscroll..] else [];
    shown[..Min(|shown|, v.width)]
  }

  datatype Piece = Plain(text: string) | Mark(text: string)

  /** The search loop of `display_line`: the text between matches and the
      matches themselves, from `start` on. */
  function Marks(d: string, q: string, start: nat): (r: seq<Piece>)
    requires q != [] && start <= |d|
    ensures Texts(r) == d[start..]
    ensures forall k :: 0 <= k < |r| && r[k].Mark? ==> r[k].text == q
    decreases |d| - start
  {
    match Find(d[start..], q)
    case None => [Plain(d[start..])]
    case Some(i) =>
      var e := start + i + |q|;
      var rest := Marks(d, q, e);
      var head := [Plain(d[start..start + i]), Mark(d[start + i..e])];
      SliceAround(d, start, i, e);
      PrependMatch(d[start..start + i], d[start + i..e], q, rest);
      head + rest
  }

  /** Every occurrence of the query is highlighted: no plain run contains it. */
  lemma {:induction false} MarksComplete(d: string, q: string, start: nat)
    requires q != [] && start <= |d|
    ensures NoPlainMatch(Marks(d, q, start), q)
    decreases |d| - start
  {
    match Find(d[start..], q)
    case None =>
      assert Marks(d, q, start) == [Plain(d[start..])];
    case Some(i) =>
      var e := start + i + |q|;
      MarksComplete(d, q, e);
      assert Marks(d, q, start) == [Plain(d[start..start + i]), Mark(d[start + i..e])] + Marks(d, q, e);
      assert d[start..start + i] == d[start..][..i];
      BeforeFirst(d[start..], q, i);
      PrependPlain(d[start..start + i], d[start + i..e], Marks(d, q, e), q);
  }

  /** No plain run of `ps` contains `q`. */
  predicate NoPlainMatch(ps: seq<Piece>, q: string) {
    forall k :: 0 <= k < |ps| && ps[k].Plain? ==> !Contains(ps[k].text, q)
  }

  /** Nothing before the first occurrence contains the query. */
  lemma BeforeFirst(s: string, q: string, i: nat)
    requires q != [] && Find(s, q) == Some(i)
    ensures !Contains(s[..i], q)
  {
    if Contains(s[..i], q) {
      var j: nat :| j <= i && OccursAt(s[..i], q, j);
      assert s[j..j + |q|] == s[..i][j..j + |q|];
      assert OccursAt(s, q, j);
    }
  }

  lemma PrependPlain(before: string, m: string, rest: seq<Piece>, q: string)
    requires !Contains(before, q) && NoPlainMatch(rest, q)
    ensures NoPlainMatch([Plain(before), Mark(m)] + rest, q)
  {
    var r := [Plain(before), Mark(m)] + rest;
    forall k | 0 <= k < |r| && r[k].Plain? ensures !Contains(r[k].text, q) {
      if k >= 2 {
        assert r[k] == rest[k - 2];
      }
    }
  }

  /** Matching is leftmost: a first match comes right after the first plain
      run, at the first place the query occurs; with no occurrence at all
      the text stays one plain run. */
  lemma MarksLeftmost(d: string, q: string, start: nat)
    requires q != [] && start <= |d|
    ensures var r := Marks(d, q, start);
            && (|r| >= 2 && r[1].Mark? ==> Find(d[start..], q) == Some(|r[0].text|))
            && (!Contains(d[start..], q) ==> r == [Plain(d[start..])])
  {
  }

  lemma SliceAround(d: string, start: nat, i: nat, e: nat)
    requires start + i <= e <= |d|
    ensures d[start + i..e] == d[start..][i..e - start]
    ensures d[start..] == d[start..start + i] + d[start + i..e] + d[e..]
  {
  }

  /** The text before a match and the match itself, put in front of the
      pieces after it. */
  lemma PrependMatch(before: string, m: string, q: string, rest: seq<Piece>)
    requires m == q
    requires forall k :: 0 <= k < |rest| && rest[k].Mark? ==> rest[k].text == q
    ensures Texts([Plain(before), Mark(m)] + rest) == before + m + Texts(rest)
    ensures forall k :: 0 <= k < |[Plain(before), Mark(m)] + rest| && ([Plain(before), Mark(m)] + rest)[k].Mark? ==>
              ([Plain(before), Mark(m)] + rest)[k].text == q
  {
    var head := [Plain(before), Mark(m)];
    assert Texts(head) == before + m by {
      assert Texts(head[1..]) == m + Texts([]);
    }
    TextsAppend(head, rest);
  }

  function Texts(ps: seq<Piece>): string {
    if ps == [] then [] else ps[0].text + Texts(ps[1..])
  }

  lemma {:induction false} TextsAppend(a: seq<Piece>, b: seq<Piece>)
    ensures Texts(a + b) == Texts(a) + Texts(b)
  {
    if a == [] {
      assert a + b == b;
    } else {
      assert (a + b)[1..] == a[1..] + b;
      TextsAppend(a[1..], b);
    }
  }

  const HighlightOn := "\U{1B}[43m\U{1B}[30m"
  const HighlightOff := "\U{1B}[0m"

  /** The pieces as printed: matches wrapped in the highlight codes when
      colour is on. */
  function Render(ps: seq<Piece>, color: bool): string {
    if ps == [] then []
    else
      (if ps[0].Mark? && color then HighlightOn + ps[0].text + HighlightOff else ps[0].text)
      + Render(ps[1..], color)
  }

  /** `display_line`: an optional two-space indent, the visible text with
      matches of the last search highlighted, and a newline. */
  function DisplayLine(v: Viewer, line: string): (r: string)
    requires Valid(v)
    ensures |r| > 0 && r[|r| - 1] == '\n'
    ensures !v.color || v.lastSearch.None? ==> r == (if v.numbers then "  " else "") + Visible(v, line) + "\n"
  {
    var d := Visible(v, line);
    var body :=
      match v.lastSearch
      case None => d
      case Some(q) => Render(Marks(d, q, 0), v.color);
    assert !v.color && v.lastSearch.Some? ==> body == d by {
      if !v.color && v.lastSearch.Some? {
        RenderPlain(Marks(d, v.lastSearch.value, 0));
      }
    }
    (if v.numbers then "  " else "") + body + "\n"
  }

  lemma {:induction false} RenderPlain(ps: seq<Piece>)
    ensures Render(ps, false) == Texts(ps)
  {
    if ps != [] {
      RenderPlain(ps[1..]);
    }
  }

  /** Drops every escape sequence: ESC up to and including the next 'm'. */
  function StripEscapes(s: string): (r: string)
    ensures |r| <= |s|
    decreases |s|
  {
    if s == [] then []
    else if s[0] == '\U{1B}' then StripEscapes(SkipEscape(s[1..]))
    else [s[0]] + StripEscapes(s[1..])
  }

  function SkipEscape(s: string): (r: string)
    ensures |r| <= |s|
  {
    if s == [] then [] else if s[0] == 'm' then s[1..] else SkipEscape(s[1..])
  }

  predicate NoEscape(s: string) {
    forall k :: 0 <= k < |s| ==> s[k] != '\U{1B}'
  }

  lemma {:induction false} StripPlain(t: string, rest: string)
    requires NoEscape(t)
    ensures StripEscapes(t + rest) == t + StripEscapes(rest)
  {
    if t != [] {
      assert (t + rest)[1..] == t[1..] + rest;
      StripPlain(t[1..], rest);
    } else {
      assert t + rest == rest;
    }
  }

  /** Skipping an escape sequence stops right after its first 'm'. */
  lemma {:induction false} SkipTo(body: string, rest: string)
    requires forall k :: 0 <= k < |body| ==> body[k] != 'm'
    ensures SkipEscape(body + "m" + rest) == rest
  {
    if body == [] {
      assert body + "m" + rest == "m" + rest;
    } else {
      assert (body + "m" + rest)[1..] == body[1..] + "m" + rest;
      SkipTo(body[1..], rest);
    }
  }

  /** One escape sequence, ESC `body` 'm', disappears when stripped. */
  lemma StripCode(body: string, rest: string)
    requires forall k :: 0 <= k < |body| ==> body[k] != 'm'
    ensures StripEscapes("\U{1B}" + body + "m" + rest) == StripEscapes(rest)
  {
    var s := "\U{1B}" + body + "m" + rest;
    assert s[0] == '\U{1B}' && s[1..] == body + "m" + rest;
    SkipTo(body, rest);
  }

  lemma StripCodes(rest: string)
    ensures StripEscapes(HighlightOn + rest) == StripEscapes(rest)
    ensures StripEscapes(HighlightOff + rest) == StripEscapes(rest)
  {
    var second := "\U{1B}" + "[30" + "m" + rest;
    assert HighlightOn + rest == "\U{1B}" + "[43" + "m" + second;
    StripCode("[43", second);
    StripCode("[30", rest);
    assert HighlightOff + rest == "\U{1B}" + "[0" + "m" + rest;
    StripCode("[0", rest);
  }

  /** Removing the colour codes from a highlighted line gives back the
      visible text. */
  lemma {:induction false} StripRender(ps: seq<Piece>)
    requires forall k :: 0 <= k < |ps| ==> NoEscape(ps[k].text)
    ensures StripEscapes(Render(ps, true)) == Texts(ps)
  {
    if ps != [] {
      var t := ps[0].text;
      var tail := Render(ps[1..], true);
      StripRender(ps[1..]);
      if ps[0].Mark? {
        assert Render(ps, true) == HighlightOn + (t + (HighlightOff + tail));
        StripCodes(t + (HighlightOff + tail));
        StripPlain(t, HighlightOff + tail);
        StripCodes(tail);
      } else {
        StripPlain(t, tail);
      }
    }
  }

  /** The highlighted body of a line, stripped of its colour codes, is the
      visible text of the line. */
  lemma HighlightKeepsText(v: Viewer, line: string)
    requires Valid(v) && v.lastSearch.Some? && NoEscape(line)
    ensures StripEscapes(Render(Marks(Visible(v, line), v.lastSearch.value, 0), true)) == Visible(v, line)
  {
    var d := Visible(v, line);
    var ps := Marks(d, v.lastSearch.value, 0);
    assert NoEscape(d) by {
      if |line| > v.hscroll {
        forall k | 0 <= k < |d|
          ensures d[k] != '\U{1B}'
        {
          assert d[k] == line[v.hscroll + k];
        }
      }
    }
    assert Texts(ps) == d;
    PiecesNoEscape(ps);
    StripRender(ps);
  }

  lemma {:induction false} PiecesNoEscape(ps: seq<Piece>)
    requires NoEscape(Texts(ps))
    ensures forall k :: 0 <= k < |ps| ==> NoEscape(ps[k].text)
  {
    if ps != [] {
      var t := Texts(ps);
      assert NoEscape(ps[0].text) by {
        forall c | 0 <= c < |ps[0].text|
          ensures ps[0].text[c] != '\U{1B}'
        {
          assert ps[0].text[c] == t[c];
        }
      }
      assert NoEscape(Texts(ps[1..])) by {
        forall c | 0 <= c < |Texts(ps[1..])|
          ensures Texts(ps[1..])[c] != '\U{1B}'
        {
          assert Texts(ps[1..])[c] == t[|ps[0].text| + c];
        }
      }
      PiecesNoEscape(ps[1..]);
      forall k | 1 <= k < |ps|
        ensures NoEscape(ps[k].text)
      {
        assert ps[k] == ps[1..][k - 1];
      }
    }
  }

  // ---------------------------------------------------------------------------
  // Keys

  datatype Key = Char(c: char) | Enter | Up | Down | Left | Right | PageUp | PageDown | OtherKey

  /** One key press of `run`: the status is cleared, then the key acts; 'q'
      quits (`None`). For '/' and '?' `typed` is what the user types at the
      search prompt; it is trimmed, and an empty query searches nothing. */
  function React(v: Viewer, key: Key, typed: string): (r: Option<Viewer>)
    requires Valid(v)
    ensures r.None? <==> key == Char('q')
    ensures r.Some? ==> Valid(r.value) && r.value.lines == v.lines
    ensures key == Char('/') || key == Char('?') ==>
              (Trim(typed) == [] ==> r == Some(v.(status := None)))
              && (Trim(typed) != [] ==> r == Some(Search(v.(status := None), Trim(typed), key == Char('/'))))
  {
    var v0 := v.(status := None);
    match key
    case Char(c) => ReactChar(v0, c, typed)
    case _ => Some(Move(v0, key))
  }

  /** The keys other than characters only move the view. */
  function Move(v0: Viewer, key: Key): (r: Viewer)
    requires Valid(v0) && !key.Char?
    ensures Valid(r) && r.lines == v0.lines
    ensures key == Enter || key == Down ==> r == NextLine(v0)
    ensures key == Up ==> r == PrevLine(v0)
    ensures key == PageUp ==> r == PrevPage(v0)
    ensures key == PageDown ==> r == NextPage(v0)
    ensures key == Left ==> r == ScrollLeft(v0)
    ensures key == Right ==> r == ScrollRight(v0)
    ensures key == OtherKey ==> r == v0
  {
    match key
    case Enter => NextLine(v0)
    case Down => NextLine(v0)
    case Up => PrevLine(v0)
    case Left => ScrollLeft(v0)
    case Right => ScrollRight(v0)
    case PageUp => PrevPage(v0)
    case PageDown => NextPage(v0)
    case OtherKey => v0
  }

  /** A character key of `run`, on the viewer whose status is already cleared. */
  function ReactChar(v0: Viewer, c: char, typed: string): (r: Option<Viewer>)
    requires Valid(v0)
    ensures r.None? <==> c == 'q'
    ensures r.Some? ==> Valid(r.value) && r.value.lines == v0.lines
    ensures c == '/' || c == '?' ==>
              (Trim(typed) == [] ==> r == Some(v0))
              && (Trim(typed) != [] ==> r == Some(Search(v0, Trim(typed), c == '/')))
    ensures c == 'b' ==> r == Some(PrevPage(v0))
    ensures c == 'f' || c == ' ' ==> r == Some(NextPage(v0))
    ensures c == 'G' ==> r == Some(LastPage(v0))
    ensures c == 'n' ==> r == Some(RepeatSearch(v0))
    // 'l' toggles the line numbers and changes nothing else
    ensures c == 'l' ==> r.Some? && r.value.numbers != v0.numbers && r.value == v0.(numbers := r.value.numbers)
    // any other character is ignored
    ensures c !in "qbf Gnl/?" ==> r == Some(v0)
  {
    if c == 'q' then None
    else if c == 'b' then Some(PrevPage(v0))
    else if c == 'f' || c == ' ' then Some(NextPage(v0))
    else if c == 'G' then Some(LastPage(v0))
    else if c == '/' || c == '?' then
      var q := Trim(typed);
      if q == [] then Some(v0) else Some(Search(v0, q, c == '/'))
    else if c == 'n' then Some(RepeatSearch(v0))
    else if c == 'l' then Some(v0.(numbers := !v0.numbers))
    else Some(v0)
  }
}

=== FILE: lineedit.dfy ===
/** String helpers of the interactive line editor (`main.rs`): backslash
    escaping of completions, splitting a line at its last blank, history
    search for "!prefix", and the symbolic-link test used by completion. */
module LineEdit {
  import opened Wrappers
  import opened Text
  import opened Paths

  // ---------------------------------------------------------------------------
  // escape_backslashes

  /** `escape_backslashes`: a backslash followed by another is copied with it
      as a pair; a lone backslash is doubled. */
  function Escape(s: string): (r: string)
    ensures |r| >= |s|
    ensures Unescaped(r) == Unescaped(s)
  {
    if s == [] then []
    else if s[0] == '\\' then
      if |s| > 1 && s[1] == '\\' then "\\\\" + Escape(s[2..]) else "\\\\" + Escape(s[1..])
    else [s[0]] + Escape(s[1..])
  }

  /** The characters other than backslashes, in order. */
  function Unescaped(s: string): string {
    if s == [] then []
    else if s[0] == '\\' then Unescaped(s[1..])
    else [s[0]] + Unescaped(s[1..])
  }

  /** `k` backslashes. */
  function Backslashes(k: nat): (r: string)
    ensures |r| == k && forall i :: 0 <= i < k ==> r[i] == '\\'
  {
    if k == 0 then [] else "\\" + Backslashes(k - 1)
  }

  function RoundEven(k: nat): nat {
    if k % 2 == 0 then k else k + 1
  }

  /** A maximal run of `k` backslashes becomes `k` rounded up to even. */
  lemma {:induction false} EscapeRun(k: nat, rest: string)
    requires rest == [] || rest[0] != '\\'
    ensures Escape(Backslashes(k) + rest) == Backslashes(RoundEven(k)) + Escape(rest)
  {
    var s := Backslashes(k) + rest;
    if k == 0 {
      assert s == rest;
    } else if k == 1 {
      assert s[0] == '\\' && s[1..] == rest;
      TwoMore(0);
    } else {
      PairInFront(k - 2, rest);
      EscapePair(Backslashes(k - 2) + rest);
      EscapeRun(k - 2, rest);
      assert RoundEven(k) == RoundEven(k - 2) + 2;
      PairInFront(RoundEven(k - 2), Escape(rest));
    }
  }

  lemma PairInFront(n: nat, rest: string)
    ensures Backslashes(n + 2) + rest == "\\\\" + (Backslashes(n) + rest)
  {
    TwoMore(n);
  }

  lemma TwoMore(n: nat)
    ensures Backslashes(n + 2) == "\\\\" + Backslashes(n)
  {
    assert Backslashes(n + 2) == "\\" + ("\\" + Backslashes(n));
  }

  lemma EscapePair(t: string)
    ensures Escape("\\\\" + t) == "\\\\" + Escape(t)
  {
    assert ("\\\\" + t)[2..] == t;
  }

  /** Escaping an escaped string changes nothing. */
  lemma {:induction false} EscapeIdempotent(s: string)
    ensures Escape(Escape(s)) == Escape(s)
    decreases |s|
  {
    if s != [] {
      if s[0] == '\\' {
        var t := if |s| > 1 && s[1] == '\\' then s[2..] else s[1..];
        EscapeIdempotent(t);
        var e := "\\\\" + Escape(t);
        assert Escape(s) == e;
        assert e[2..] == Escape(t);
      } else {
        EscapeIdempotent(s[1..]);
        var e := [s[0]] + Escape(s[1..]);
        assert e[1..] == Escape(s[1..]);
      }
    }
  }

  // ---------------------------------------------------------------------------
  // split_delim

  predicate IsBlank(c: char) {
    c == ' ' || c == '\t'
  }

  /** The index of the last space or tab, if any. */
  function LastBlank(s: string): (r: Option<nat>)
    ensures r.Some? ==> r.value < |s| && IsBlank(s[r.value])
    ensures r.Some? ==> forall i :: r.value < i < |s| ==> !IsBlank(s[i])
    ensures r.None? ==> forall i :: 0 <= i < |s| ==> !IsBlank(s[i])
  {
    if s == [] then None
    else if IsBlank(s[|s| - 1]) then Some(|s| - 1)
    else LastBlank(s[..|s| - 1])
  }

  /** `split_delim`: the line up to and including its last blank, and the
      trimmed rest; a line without blanks is all tail. */
  function SplitDelim(line: string): (r: (string, string))
    ensures LastBlank(line).None? ==> r == ("", line)
    ensures LastBlank(line).Some? ==>
              && r.0 == line[..LastBlank(line).value + 1]
              && r.0 != [] && IsBlank(r.0[|r.0| - 1])
              && forall i :: 0 <= i < |r.1| ==> !IsBlank(r.1[i])
    ensures LastBlank(line).Some? ==> r.1 == Trim(line[LastBlank(line).value + 1..])
  {
    match LastBlank(line)
    case None => ("", line)
    case Some(pos) =>
      TrimAfterLastBlank(line[pos..]);
      TrimPastBlank(line[pos..]);
      assert line[pos..][1..] == line[pos + 1..];
      (line[..pos + 1], Trim(line[pos..]))
  }

  /** A leading blank makes no difference to `trim`. */
  lemma TrimPastBlank(t: string)
    requires t != [] && IsBlank(t[0])
    ensures Trim(t) == Trim(t[1..])
  {
    assert TrimStart(t) == TrimStart(t[1..]);
  }

  lemma TrimAfterLastBlank(t: string)
    requires t != [] && IsBlank(t[0]) && forall i :: 0 < i < |t| ==> !IsBlank(t[i])
    ensures forall i :: 0 <= i < |Trim(t)| ==> !IsBlank(Trim(t)[i])
  {
    var tail := Trim(t);
    var a, b :| 0 <= a <= b <= |t| && tail == t[a..b];
    forall i | 0 <= i < |tail|
      ensures !IsBlank(tail[i])
    {
      assert tail[i] == t[a + i];
    }
  }

  /** The head and the text after the last blank make up the line. */
  lemma SplitDelimTail(line: string)
    requires LastBlank(line).Some?
    ensures SplitDelim(line).0 + line[LastBlank(line).value + 1..] == line
  {
  }

  // ---------------------------------------------------------------------------
  // search_history

  const SliceOnEmpty := "panic: byte index 1 is out of bounds of ``"

  /** `search_history`: the most recent history entry (the last in `history`)
      that starts with the line without its first character. The line must
      not be empty (`&line[1..]` panics). */
  function SearchHistory(history: seq<string>, line: string): (r: Result<Option<string>>)
    ensures line == [] <==> r.Err?
    ensures r.Ok? && r.value.Some? ==> r.value.value in history && StartsWith(r.value.value, line[1..])
    ensures r.Ok? && r.value.None? ==> forall i :: 0 <= i < |history| ==> !StartsWith(history[i], line[1..])
    // the entry found is the most recent match: no later entry matches
    ensures r.Ok? && r.value.Some? ==>
              exists i :: 0 <= i < |history| && history[i] == r.value.value &&
                forall j :: i < j < |history| ==> !StartsWith(history[j], line[1..])
  {
    if line == [] then Err(SliceOnEmpty)
    else Ok(LatestWith(history, line[1..]))
  }

  function LatestWith(history: seq<string>, prefix: string): (r: Option<string>)
    ensures r.Some? ==> exists i :: 0 <= i < |history| && history[i] == r.value && StartsWith(r.value, prefix)
                                   && forall j :: i < j < |history| ==> !StartsWith(history[j], prefix)
    ensures r.None? ==> forall i :: 0 <= i < |history| ==> !StartsWith(history[i], prefix)
  {
    if history == [] then None
    else if StartsWith(history[|history| - 1], prefix) then Some(history[|history| - 1])
    else
      var r := LatestWith(history[..|history| - 1], prefix);
      assert forall i :: 0 <= i < |history| - 1 ==> history[..|history| - 1][i] == history[i];
      r
  }

  // ---------------------------------------------------------------------------
  // has_links

  /** The accumulated path `has_links` builds from the first `k` components:
      '.' is skipped, '..' pops, anything else is pushed. */
  function Accumulate(comps: Path, k: nat): Path
    requires k <= |comps|
  {
    if k == 0 then []
    else
      var buf := Accumulate(comps, k - 1);
      match comps[k - 1]
      case CurDir => buf
      case ParentDir => Pop(buf)
      case c => Push(buf, [c])
  }

  /** `has_links`: on Windows, whether some accumulated prefix (checked after
      every component but '.') is a symbolic link; elsewhere always false.
      `isLink` stands for `Path::is_symlink`. */
  function HasLinks(windows: bool, comps: Path, isLink: Path -> bool): (r: bool)
    ensures !windows ==> !r
    ensures windows ==>
              (r <==> exists k :: 0 <= k < |comps| && comps[k] != CurDir && isLink(Accumulate(comps, k + 1)))
  {
    windows && LinkFrom(comps, 0, [], isLink)
  }

  /** The loop of `has_links` from component `i` on, with `buf` built so far. */
  function LinkFrom(comps: Path, i: nat, buf: Path, isLink: Path -> bool): (r: bool)
    requires i <= |comps| && buf == Accumulate(comps, i)
    ensures r <==> exists k :: i <= k < |comps| && comps[k] != CurDir && isLink(Accumulate(comps, k + 1))
    decreases |comps| - i
  {
    if i == |comps| then false
    else
      match comps[i]
      case CurDir => LinkFrom(comps, i + 1, buf, isLink)
      case ParentDir =>
        var next := Pop(buf);
        isLink(next) || LinkFrom(comps, i + 1, next, isLink)
      case c =>
        var next := Push(buf, [c]);
        isLink(next) || LinkFrom(comps, i + 1, next, isLink)
  }
}

=== FILE: order.dfy ===
/** Lexicographic order on sequences, the order Rust derives for `str` and for
    the component iterators of `Path`. */
module Order {

  ghost predicate StrictTotal<T(!new)>(less: (T, T) -> bool) {
    && (forall x :: !less(x, x))
    && (forall x, y, z :: less(x, y) && less(y, z) ==> less(x, z))
    && (forall x, y :: x != y ==> less(x, y) || less(y, x))
  }

  /** A proper prefix is smaller; otherwise the first differing element decides. */
  function LexLess<T(==)>(p: seq<T>, q: seq<T>, less: (T, T) -> bool): bool {
    if |p| == 0 then |q| > 0
    else if |q| == 0 then false
    else if p[0] == q[0] then LexLess(p[1..], q[1..], less)
    else less(p[0], q[0])
  }

  lemma {:induction false} LexIrreflexive<T(!new)>(p: seq<T>, less: (T, T) -> bool)
    requires StrictTotal(less)
    ensures !LexLess(p, p, less)
  {
    if |p| > 0 {
      LexIrreflexive(p[1..], less);
    }
  }

  lemma {:induction false} LexTransitive<T(!new)>(p: seq<T>, q: seq<T>, r: seq<T>, less: (T, T) -> bool)
    requires StrictTotal(less)
    requires LexLess(p, q, less) && LexLess(q, r, less)
    ensures LexLess(p, r, less)
  {
    if |p| > 0 && |q| > 0 && |r| > 0 && p[0] == q[0] && q[0] == r[0] {
      LexTransitive(p[1..], q[1..], r[1..], less);
    }
  }

  lemma {:induction false} LexConnected<T(!new)>(p: seq<T>, q: seq<T>, less: (T, T) -> bool)
    requires StrictTotal(less)
    requires p != q
    ensures LexLess(p, q, less) || LexLess(q, p, less)
  {
    if |p| > 0 && |q| > 0 && p[0] == q[0] {
      assert p == [p[0]] + p[1..] && q == [q[0]] + q[1..];
      LexConnected(p[1..], q[1..], less);
    }
  }

  lemma {:induction false} LexAsymmetric<T(!new)>(p: seq<T>, q: seq<T>, less: (T, T) -> bool)
    requires StrictTotal(less)
    requires LexLess(p, q, less)
    ensures !LexLess(q, p, less)
  {
    if LexLess(q, p, less) {
      LexTransitive(p, q, p, less);
      LexIrreflexive(p, less);
    }
  }

  /** A proper prefix comes first: a directory key precedes every key inside it. */
  lemma {:induction false} PrefixIsLess<T(!new)>(p: seq<T>, q: seq<T>, less: (T, T) -> bool)
    requires |p| < |q| && q[..|p|] == p
    ensures LexLess(p, q, less)
  {
    if |p| > 0 {
      assert q[1..][..|p| - 1] == p[1..];
      PrefixIsLess(p[1..], q[1..], less);
    }
  }

  predicate CharLess(a: char, b: char) {
    a < b
  }

  lemma CharLessStrictTotal()
    ensures StrictTotal(CharLess)
  {
  }

  /** Rust's `Ord for str` (byte order of UTF-8 is code point order). */
  predicate StrLess(a: string, b: string) {
    LexLess(a, b, CharLess)
  }

  lemma StrLessStrictTotal()
    ensures StrictTotal(StrLess)
  {
    CharLessStrictTotal();
    forall x: string ensures !StrLess(x, x) {
      LexIrreflexive(x, CharLess);
    }
    forall x: string, y: string, z: string | StrLess(x, y) && StrLess(y, z) ensures StrLess(x, z) {
      LexTransitive(x, y, z, CharLess);
    }
    forall x: string, y: string | x != y ensures StrLess(x, y) || StrLess(y, x) {
      LexConnected(x, y, CharLess);
    }
  }
}

=== FILE: paths.dfy ===
/** Unix paths as Rust's `std::path` sees them: a sequence of components.
    `PathBuf` equality and ordering are component-wise, so a path is modelled
    by its component list; `Parse` and `Render` convert from and to strings. */
module Paths {
  import opened Wrappers
  import opened Text
  import Order

  datatype Comp = RootDir | CurDir | ParentDir | Normal(name: string)

  type Path = seq<Comp>

  predicate IsAbsolute(p: Path) {
    |p| > 0 && p[0] == RootDir
  }

  /** `PathBuf::push`: an absolute argument replaces the path, a relative one is appended. */
  function Push(p: Path, q: Path): (r: Path)
    ensures IsAbsolute(q) ==> r == q
    ensures !IsAbsolute(q) ==> |r| == |p| + |q| && r[..|p|] == p && r[|p|..] == q
  {
    if IsAbsolute(q) then q else p + q
  }

  /** `Path::parent`: defined unless the path is empty or ends in the root. */
  function Parent(p: Path): (r: Option<Path>)
    ensures r.Some? <==> |p| > 0 && p[|p| - 1] != RootDir
    ensures r.Some? ==> r.value + [p[|p| - 1]] == p
  {
    if |p| > 0 && p[|p| - 1] != RootDir then Some(p[..|p| - 1]) else None
  }

  /** `PathBuf::pop`: drops the last component, but never the root. */
  function Pop(p: Path): (r: Path)
    ensures Parent(p).Some? ==> r == Parent(p).value
    ensures Parent(p).None? ==> r == p
  {
    Parent(p).GetOr(p)
  }

  /** `Path::file_name`: the last component when it is a normal name. */
  function FileName(p: Path): (r: Option<string>)
    ensures r.Some? <==> |p| > 0 && p[|p| - 1].Normal?
    ensures r.Some? ==> p[|p| - 1] == Normal(r.value)
  {
    if |p| > 0 && p[|p| - 1].Normal? then Some(p[|p| - 1].name) else None
  }

  predicate IsPrefix(base: Path, p: Path) {
    |base| <= |p| && p[..|base|] == base
  }

  /** `Path::strip_prefix`: the rest of `p` after the components of `base`. */
  function StripPrefix(p: Path, base: Path): (r: Option<Path>)
    ensures r.Some? <==> IsPrefix(base, p)
    ensures r.Some? ==> base + r.value == p
  {
    if IsPrefix(base, p) then
      assert p == p[..|base|] + p[|base|..];
      Some(p[|base|..])
    else None
  }

  function Rank(c: Comp): nat {
    match c
    case RootDir => 1
    case CurDir => 2
    case ParentDir => 3
    case Normal(_) => 4
  }

  /** The order Rust derives for `Component`: variant order, then the name. */
  predicate CompLess(a: Comp, b: Comp) {
    Rank(a) < Rank(b) || (a.Normal? && b.Normal? && Order.StrLess(a.name, b.name))
  }

  /** `Ord for Path`: component-wise lexicographic order. */
  predicate PathLess(p: Path, q: Path) {
    Order.LexLess(p, q, CompLess)
  }

  lemma CompLessStrictTotal()
    ensures Order.StrictTotal(CompLess)
  {
    Order.StrLessStrictTotal();
  }

  lemma PathLessStrictTotal()
    ensures Order.StrictTotal(PathLess)
  {
    CompLessStrictTotal();
    forall x: Path ensures !PathLess(x, x) {
      Order.LexIrreflexive(x, CompLess);
    }
    forall x: Path, y: Path, z: Path | PathLess(x, y) && PathLess(y, z) ensures PathLess(x, z) {
      Order.LexTransitive(x, y, z, CompLess);
    }
    forall x: Path, y: Path | x != y ensures PathLess(x, y) || PathLess(y, x) {
      Order.LexConnected(x, y, CompLess);
    }
  }

  /** A directory sorts before everything below it. */
  lemma PrefixPathLess(p: Path, q: Path)
    requires IsPrefix(p, q) && |p| < |q|
    ensures PathLess(p, q)
  {
    Order.PrefixIsLess(p, q, CompLess);
  }

  // ---------------------------------------------------------------------------
  // Strings

  /** Splits on every '/': `Split("a//b") == ["a", "", "b"]`. */
  function Split(s: string): (r: seq<string>)
    ensures |r| > 0
    ensures forall i :: 0 <= i < |r| ==> '/' !in r[i]
    decreases |s|
  {
    if '/' !in s then [s]
    else
      var k := FirstSlash(s);
      [s[..k]] + Split(s[k + 1..])
  }

  function FirstSlash(s: string): (k: nat)
    requires '/' in s
    ensures k < |s| && s[k] == '/' && '/' !in s[..k]
  {
    if s[0] == '/' then 0 else
      assert s == [s[0]] + s[1..];
      1 + FirstSlash(s[1..])
  }

  /** The components Rust yields for the pieces between slashes: empty pieces
      vanish, `.` is kept only as the first piece of a relative path, `..` is
      the parent. */
  function Components(segs: seq<string>, first: bool): Path
    decreases |segs|
  {
    if |segs| == 0 then []
    else
      var s := segs[0];
      var head :=
        if s == "" then []
        else if s == "." then (if first then [CurDir] else [])
        else if s == ".." then [ParentDir]
        else [Normal(s)];
      head + Components(segs[1..], false)
  }

  /** `Path::new(s).components()`. */
  function Parse(s: string): Path {
    if |s| > 0 && s[0] == '/' then [RootDir] + Components(Split(s[1..]), false)
    else Components(Split(s), true)
  }

  function Segment(c: Comp): string {
    match c
    case RootDir => ""
    case CurDir => "."
    case ParentDir => ".."
    case Normal(n) => n
  }

  function Segments(p: Path): (r: seq<string>)
    ensures |r| == |p|
    ensures forall i :: 0 <= i < |p| ==> r[i] == Segment(p[i])
  {
    if p == [] then [] else [Segment(p[0])] + Segments(p[1..])
  }

  /** `Path::display`, for paths whose components are written with '/'. */
  function Render(p: Path): string {
    if IsAbsolute(p) then "/" + Join(Segments(p[1..]), "/")
    else Join(Segments(p), "/")
  }

  predicate ValidName(n: string) {
    n != "" && n != "." && n != ".." && '/' !in n
  }

  predicate NameOk(c: Comp) {
    c.Normal? ==> ValidName(c.name)
  }

  /** The paths `Parse` can produce: the root and `.` only in front, and names
      that are proper path pieces. */
  predicate WellFormed(p: Path) {
    && (forall i :: 0 < i < |p| ==> p[i] != RootDir && p[i] != CurDir)
    && (forall i :: 0 <= i < |p| ==> NameOk(p[i]))
  }

  /** A well-formed path after its root: `.` allowed only in front when `first`. */
  predicate Relative(p: Path, first: bool) {
    forall i :: 0 <= i < |p| ==> p[i] != RootDir && NameOk(p[i]) && (p[i] == CurDir ==> i == 0 && first)
  }

  lemma {:induction false} SplitJoin(xs: seq<string>)
    requires |xs| > 0
    requires forall i :: 0 <= i < |xs| ==> '/' !in xs[i]
    ensures Split(Join(xs, "/")) == xs
  {
    if |xs| == 1 {
    } else {
      var s := Join(xs, "/");
      assert s == xs[0] + "/" + Join(xs[1..], "/");
      assert s[|xs[0]|] == '/';
      assert s[..|xs[0]|] == xs[0];
      assert '/' in s;
      var k := FirstSlash(s);
      assert k == |xs[0]|;
      assert s[k + 1..] == Join(xs[1..], "/");
      SplitJoin(xs[1..]);
    }
  }

  lemma {:induction false} ComponentsOfSegments(p: Path, first: bool)
    requires Relative(p, first)
    ensures Components(Segments(p), first) == p
  {
    if p != [] {
      assert Segments(p)[1..] == Segments(p[1..]);
      assert Relative(p[1..], false) by {
        forall i | 0 <= i < |p[1..]| ensures p[1..][i] == p[i + 1] {}
      }
      ComponentsOfSegments(p[1..], false);
    }
  }

  /** Parsing what `Render` prints gives the path back. */
  lemma ParseRender(p: Path)
    requires WellFormed(p)
    ensures Parse(Render(p)) == p
  {
    if IsAbsolute(p) {
      ParseRenderAbsolute(p);
    } else {
      ParseRenderRelative(p);
    }
  }

  lemma ParseRenderAbsolute(p: Path)
    requires WellFormed(p) && IsAbsolute(p)
    ensures Parse(Render(p)) == p
  {
    var q := p[1..];
    assert Relative(q, false) by {
      forall i | 0 <= i < |q| ensures q[i] == p[i + 1] {}
    }
    var r := Render(p);
    assert r[0] == '/' && r[1..] == Join(Segments(q), "/");
    assert Parse(r) == [RootDir] + Components(Split(r[1..]), false);
    assert Components(Split(r[1..]), false) == q by {
      ParseTail(q);
    }
    assert p == [RootDir] + q;
  }

  /** The part of an absolute path after its root survives printing and
      parsing. */
  lemma ParseTail(q: Path)
    requires Relative(q, false)
    ensures Components(Split(Join(Segments(q), "/")), false) == q
  {
    ComponentsOfSegments(q, false);
    if q == [] {
      assert Join(Segments(q), "/") == "";
      assert Split("") == [""];
      assert Components([""], false) == [] + Components([""][1..], false);
    } else {
      SegmentsHaveNoSlash(q);
      SplitJoin(Segments(q));
    }
  }

  lemma ParseRenderRelative(p: Path)
    requires WellFormed(p) && !IsAbsolute(p)
    ensures Parse(Render(p)) == p
  {
    ComponentsOfSegments(p, true);
    if p == [] {
      assert Split("") == [""];
    } else {
      SegmentsHaveNoSlash(p);
      SplitJoin(Segments(p));
      if |Render(p)| > 0 && Render(p)[0] == '/' {
        assert Segment(p[0]) == Segments(p)[0];
        JoinHead(Segments(p));
        assert false;
      }
    }
  }

  lemma SegmentsHaveNoSlash(p: Path)
    requires WellFormed(p)
    ensures forall i :: 0 <= i < |Segments(p)| ==> '/' !in Segments(p)[i]
  {
    forall i | 0 <= i < |Segments(p)| ensures '/' !in Segments(p)[i] {
      assert Segments(p)[i] == Segment(p[i]);
    }
  }

  lemma JoinHead(xs: seq<string>)
    requires |xs| > 0 && xs[0] != ""
    ensures |Join(xs, "/")| > 0 && Join(xs, "/")[0] == xs[0][0]
  {
  }
}

=== FILE: plan.dfy ===
/** The copy plan: `BTreeMap<PathBuf, WorkItem>` from destination path to work
    item, kept as an association list sorted by `Ord for Path`. */
module WorkPlan {
  import opened Wrappers
  import opened Paths
  import Order

  datatype Action = Copy | CreateDir | Link

  /** `top` is the source argument the item descends from (for error
      locations); `src` is the path to read, or the link target to point at. */
  datatype WorkItem = WorkItem(top: string, act: Action, src: Path)

  datatype Entry = Entry(dest: Path, item: WorkItem)

  type Plan = seq<Entry>

  /** Keys strictly increase: the iteration order of the map. */
  ghost predicate Sorted(plan: Plan) {
    forall i, j :: 0 <= i < j < |plan| ==> PathLess(plan[i].dest, plan[j].dest)
  }

  function Keys(plan: Plan): set<Path> {
    set e | e in plan :: e.dest
  }

  /** `BTreeMap::get`. */
  function Get(plan: Plan, k: Path): (r: Option<WorkItem>)
    ensures r.Some? ==> Entry(k, r.value) in plan
    ensures r.None? <==> k !in Keys(plan)
  {
    if plan == [] then None
    else if plan[0].dest == k then Some(plan[0].item)
    else Get(plan[1..], k)
  }

  lemma SortedTail(plan: Plan)
    requires Sorted(plan) && |plan| > 0
    ensures Sorted(plan[1..])
  {
  }

  /** `BTreeMap::insert`: a new key is added in order, an existing key has its
      item replaced. */
  function Insert(plan: Plan, k: Path, item: WorkItem): (r: Plan)
    requires Sorted(plan)
    ensures Sorted(r)
    ensures Entry(k, item) in r
    ensures Keys(r) == Keys(plan) + {k}
    ensures forall e :: e in r ==> e in plan || e == Entry(k, item)
    ensures |r| == if k in Keys(plan) then |plan| else |plan| + 1
    decreases |plan|
  {
    if plan == [] then [Entry(k, item)]
    else if plan[0].dest == k then
      InsertHere(plan, k, item);
      [Entry(k, item)] + plan[1..]
    else if PathLess(k, plan[0].dest) then
      InsertFront(plan, k, item);
      [Entry(k, item)] + plan
    else
      SortedTail(plan);
      var rest := Insert(plan[1..], k, item);
      InsertLater(plan, k, item, rest);
      [plan[0]] + rest
  }

  /** What `Insert` promises of its result `r`. */
  ghost predicate Inserted(plan: Plan, k: Path, item: WorkItem, r: Plan) {
    && Sorted(r)
    && Entry(k, item) in r
    && Keys(r) == Keys(plan) + {k}
    && (forall e :: e in r ==> e in plan || e == Entry(k, item))
    && |r| == if k in Keys(plan) then |plan| else |plan| + 1
  }

  /** Every key after the first of a sorted plan lies above it. */
  lemma HeadBelowRest(plan: Plan)
    requires Sorted(plan) && |plan| > 0
    ensures forall x :: x in Keys(plan[1..]) ==> PathLess(plan[0].dest, x)
  {
    forall x | x in Keys(plan[1..]) ensures PathLess(plan[0].dest, x) {
      var e :| e in plan[1..] && e.dest == x;
      var j :| 0 <= j < |plan[1..]| && plan[1..][j] == e;
      assert plan[j + 1] == e;
    }
  }

  /** An entry below every key of a sorted plan can go in front of it. */
  lemma SortedCons(e: Entry, rest: Plan)
    requires Sorted(rest) && forall x :: x in Keys(rest) ==> PathLess(e.dest, x)
    ensures Sorted([e] + rest)
  {
    var r := [e] + rest;
    forall i, j | 0 <= i < j < |r| ensures PathLess(r[i].dest, r[j].dest) {
      if i == 0 {
        assert r[j] == rest[j - 1];
        assert r[j].dest in Keys(rest);
      } else {
        assert r[i] == rest[i - 1] && r[j] == rest[j - 1];
      }
    }
  }

  lemma KeysCons(plan: Plan)
    requires |plan| > 0
    ensures Keys(plan) == {plan[0].dest} + Keys(plan[1..])
  {
    assert plan == [plan[0]] + plan[1..];
  }

  lemma InsertHere(plan: Plan, k: Path, item: WorkItem)
    requires Sorted(plan) && |plan| > 0 && plan[0].dest == k
    ensures Inserted(plan, k, item, [Entry(k, item)] + plan[1..])
  {
    KeysCons(plan);
    HeadBelowRest(plan);
    SortedTail(plan);
    SortedCons(Entry(k, item), plan[1..]);
    var r := [Entry(k, item)] + plan[1..];
    KeysCons(r);
    assert r[1..] == plan[1..];
  }

  lemma InsertFront(plan: Plan, k: Path, item: WorkItem)
    requires Sorted(plan) && |plan| > 0 && PathLess(k, plan[0].dest)
    ensures Inserted(plan, k, item, [Entry(k, item)] + plan)
  {
    PathLessStrictTotal();
    KeysCons(plan);
    HeadBelowRest(plan);
    SortedCons(Entry(k, item), plan);
    var r := [Entry(k, item)] + plan;
    KeysCons(r);
    assert r[1..] == plan;
  }

  lemma InsertLater(plan: Plan, k: Path, item: WorkItem, rest: Plan)
    requires Sorted(plan) && |plan| > 0 && plan[0].dest != k && !PathLess(k, plan[0].dest)
    requires Inserted(plan[1..], k, item, rest)
    ensures Inserted(plan, k, item, [plan[0]] + rest)
  {
    PathLessStrictTotal();
    assert PathLess(plan[0].dest, k);
    KeysCons(plan);
    HeadBelowRest(plan);
    SortedCons(plan[0], rest);
    var r := [plan[0]] + rest;
    KeysCons(r);
    assert r[1..] == rest;
  }

  /** The inserted item is found under its key. */
  lemma GetInserted(plan: Plan, k: Path, item: WorkItem)
    requires Sorted(plan)
    ensures Get(Insert(plan, k, item), k) == Some(item)
  {
    UniqueKeys(Insert(plan, k, item), k);
  }

  /** Every other key keeps its item. */
  lemma GetOther(plan: Plan, k: Path, item: WorkItem, k': Path)
    requires Sorted(plan) && k' != k
    ensures Get(Insert(plan, k, item), k') == Get(plan, k')
  {
    var r := Insert(plan, k, item);
    if Get(r, k').Some? {
      UniqueKeys(plan, k');
    }
    if Get(plan, k').Some? {
      UniqueKeys(r, k');
    }
  }

  /** In a sorted plan a key has one entry, so `Get` finds every entry. */
  lemma UniqueKeys(plan: Plan, k: Path)
    requires Sorted(plan)
    ensures forall it :: Entry(k, it) in plan ==> Get(plan, k) == Some(it)
  {
    PathLessStrictTotal();
    if plan != [] {
      SortedTail(plan);
      UniqueKeys(plan[1..], k);
    }
  }
}

=== FILE: prompt.dfy ===
/** Confirmation answers and the prompt builder (`prompt.rs`). The shell's
    variable scope is a map from names to values; the elevation check and the
    current directory are inputs. */
module Prompt {
  import opened Wrappers
  import opened Text

  datatype Answer = No | Yes | All | Quit

  /** The first character of the trimmed input, lower-cased (ASCII only). */
  function FirstLetter(input: string): Option<char> {
    var t := Trim(input);
    if |t| == 0 then None else Some(AsciiLower(t[0]))
  }

  /** `process_answer`: 'y' and 'n' always count, 'a' and 'q' only when the
      question is one of many; anything else, empty input included, is No. */
  function ProcessAnswer(input: string, many: bool): (r: Answer)
    ensures r == Yes <==> FirstLetter(input) == Some('y')
    ensures r == All <==> many && FirstLetter(input) == Some('a')
    ensures r == Quit <==> many && FirstLetter(input) == Some('q')
    ensures !many ==> r == Yes || r == No
  {
    match FirstLetter(input)
    case Some('y') => Yes
    case Some('n') => No
    case Some('a') => if many then All else No
    case Some('q') => if many then Quit else No
    case _ => No
  }

  /** The options offered by `confirm` (without colours). */
  function Options(oneOfMany: bool): string {
    if oneOfMany then "[Y]es/[N]o/[A]ll/[Q]uit" else "[Y]es/[N]o"
  }

  /** `confirm`: the question asked (none when NO_CONFIRM is set) and the
      answer read from `input`. */
  function Confirm(vars: map<string, string>, prompt: string, input: string, oneOfMany: bool)
    : (r: (Option<string>, Answer))
    ensures "NO_CONFIRM" in vars ==> r == (None, Yes)
    ensures "NO_CONFIRM" !in vars ==> r.0 == Some(prompt + "? (" + Options(oneOfMany) + ") ")
    ensures "NO_CONFIRM" !in vars ==> r.1 == ProcessAnswer(input, oneOfMany)
  {
    if "NO_CONFIRM" in vars then (None, Yes)
    else (Some(prompt + "? (" + Options(oneOfMany) + ") "), ProcessAnswer(input, oneOfMany))
  }

  // ---------------------------------------------------------------------------
  // PromptBuilder

  /** What the builder reads besides the spec: the variables, whether the
      process is elevated, and `env::current_dir` (None when it fails). */
  datatype Env = Env(vars: map<string, string>, elevated: bool, cwd: Option<string>)

  const DefaultSpec: string := "\\u@\\h|\\w\\$ "

  /** `prompt_spec`: the `__prompt` variable, installed with the default spec when unset. */
  function PromptSpec(vars: map<string, string>): (r: (string, map<string, string>))
    ensures "__prompt" in vars ==> r == (vars["__prompt"], vars)
    ensures "__prompt" !in vars ==> r.0 == DefaultSpec && r.1 == vars["__prompt" := DefaultSpec]
  {
    if "__prompt" in vars then (vars["__prompt"], vars)
    else (DefaultSpec, vars["__prompt" := DefaultSpec])
  }

  /** `username`: USER, else USERNAME, else empty. */
  function Username(vars: map<string, string>): (r: string)
    ensures "USER" in vars ==> r == vars["USER"]
    ensures "USER" !in vars && "USERNAME" in vars ==> r == vars["USERNAME"]
    ensures "USER" !in vars && "USERNAME" !in vars ==> r == ""
  {
    if "USER" in vars then vars["USER"]
    else if "USERNAME" in vars then vars["USERNAME"]
    else ""
  }

  const HostVars: seq<string> := ["HOSTNAME", "USERDOMAIN", "COMPUTERNAME", "NAME"]

  /** The first of `names` that is set. */
  function FirstSet(vars: map<string, string>, names: seq<string>): (r: Option<string>)
    ensures r.None? <==> forall i :: 0 <= i < |names| ==> names[i] !in vars
    ensures r.Some? ==> exists i :: 0 <= i < |names| && names[i] in vars && r.value == vars[names[i]]
                          && forall j :: 0 <= j < i ==> names[j] !in vars
  {
    if names == [] then None
    else if names[0] in vars then Some(vars[names[0]])
    else
      var r := FirstSet(vars, names[1..]);
      if r.Some? then
        var i :| 0 <= i < |names[1..]| && names[1..][i] in vars && r.value == vars[names[1..][i]]
                 && forall j :: 0 <= j < i ==> names[1..][j] !in vars;
        assert names[i + 1] in vars && forall j :: 0 <= j < i + 1 ==> names[j] !in vars;
        r
      else r
  }

  /** `push_hostname`: HOSTNAME, USERDOMAIN, COMPUTERNAME, NAME, else nothing. */
  function Hostname(vars: map<string, string>): (r: string)
    ensures "HOSTNAME" in vars ==> r == vars["HOSTNAME"]
    ensures "HOSTNAME" !in vars && "USERDOMAIN" in vars ==> r == vars["USERDOMAIN"]
    ensures "HOSTNAME" !in vars && "USERDOMAIN" !in vars && "COMPUTERNAME" in vars ==> r == vars["COMPUTERNAME"]
    ensures "HOSTNAME" !in vars && "USERDOMAIN" !in vars && "COMPUTERNAME" !in vars && "NAME" in vars
            ==> r == vars["NAME"]
    ensures "HOSTNAME" !in vars && "USERDOMAIN" !in vars && "COMPUTERNAME" !in vars && "NAME" !in vars
            ==> r == ""
  {
    assert HostVars[0] == "HOSTNAME" && HostVars[1] == "USERDOMAIN";
    assert HostVars[2] == "COMPUTERNAME" && HostVars[3] == "NAME";
    FirstSet(vars, HostVars).GetOr("")
  }

  /** `is_root`. */
  function IsRoot(env: Env): (r: bool)
    ensures r <==> || env.elevated
                   || ("USER" in env.vars && env.vars["USER"] == "root")
                   || ("USER" !in env.vars && "USERNAME" in env.vars && env.vars["USERNAME"] == "root")
  {
    env.elevated || Username(env.vars) == "root"
  }

  /** `push_current_dir`: a leading HOME is shown as "~" (case-sensitive, as on Unix). */
  function CurrentDir(env: Env): (r: string)
    ensures "HOME" in env.vars && StartsWith(env.cwd.GetOr(""), env.vars["HOME"]) ==>
              r == "~" + env.cwd.GetOr("")[|env.vars["HOME"]|..]
    ensures !("HOME" in env.vars && StartsWith(env.cwd.GetOr(""), env.vars["HOME"])) ==>
              r == env.cwd.GetOr("")
  {
    var wd := env.cwd.GetOr("");
    if "HOME" in env.vars && StartsWith(wd, env.vars["HOME"]) then "~" + wd[|env.vars["HOME"]|..]
    else wd
  }

  /** What one escape sequence `\c` contributes. */
  function Expand(c: char, env: Env): (r: string)
    ensures c !in {'u', 'h', 'w', '$'} ==> r == [c]
    ensures c == '$' ==> |r| == 1 && (r == "#" <==> IsRoot(env)) && (r == "$" <==> !IsRoot(env))
    ensures c == 'u' ==> r == Username(env.vars)
    ensures c == 'h' ==> r == Hostname(env.vars)
    ensures c == 'w' ==> r == CurrentDir(env)
  {
    match c
    case 'u' => Username(env.vars)
    case 'h' => Hostname(env.vars)
    case 'w' => CurrentDir(env)
    case '$' => if IsRoot(env) then "#" else "$"
    case _ => [c]
  }

  /** `PromptBuilder::build`: the previous prompt is discarded and the spec
      expanded from scratch. */
  function Build(spec: string, env: Env): (r: string)
    ensures '\\' !in spec ==> r == spec
    decreases |spec|
  {
    if spec == [] then ""
    else if spec[0] == '\\' then
      if |spec| == 1 then "" else Expand(spec[1], env) + Build(spec[2..], env)
    else [spec[0]] + Build(spec[1..], env)
  }

  /** A spec that does not end in the middle of an escape sequence. */
  predicate Closed(s: string)
    decreases |s|
  {
    s == [] || (s[0] != '\\' && Closed(s[1..])) || (|s| >= 2 && s[0] == '\\' && Closed(s[2..]))
  }

  /** An escape of any other character stands for that character. */
  lemma EscapeOther(c: char, rest: string, env: Env)
    requires c !in {'u', 'h', 'w', '$'}
    ensures Build(['\\', c] + rest, env) == [c] + Build(rest, env)
  {
    assert (['\\', c] + rest)[2..] == rest;
  }

  /** Expansion is piecewise: a closed prefix expands on its own. */
  lemma {:induction false} BuildAppend(a: string, b: string, env: Env)
    requires Closed(a)
    ensures Build(a + b, env) == Build(a, env) + Build(b, env)
    decreases |a|
  {
    if a == [] {
      assert a + b == b;
    } else {
      assert (a + b)[0] == a[0];
      if a[0] != '\\' {
        assert (a + b)[1..] == a[1..] + b;
        BuildAppend(a[1..], b, env);
      } else {
        assert (a + b)[1] == a[1];
        assert (a + b)[2..] == a[2..] + b;
        BuildAppend(a[2..], b, env);
      }
    }
  }

  /** A trailing lone backslash expands to nothing. */
  lemma TrailingBackslash(a: string, env: Env)
    requires Closed(a)
    ensures Build(a + "\\", env) == Build(a, env)
  {
    BuildAppend(a, "\\", env);
  }

  /** `\$` is '#' exactly for an elevated process or the user "root". */
  lemma DollarSign(env: Env)
    ensures Build("\\$", env) == (if env.elevated || Username(env.vars) == "root" then "#" else "$")
  {
    assert "\\$"[2..] == "";
  }

  /** The default prompt reads "user@host|dir$ ". */
  lemma DefaultPrompt(env: Env)
    ensures Build(DefaultSpec, env)
         == Username(env.vars) + ("@" + (Hostname(env.vars) + ("|" + (CurrentDir(env)
            + ((if IsRoot(env) then "#" else "$") + " ")))))
  {
    DefaultShape(DefaultSpec, env);
  }

  /** Any spec spelling `\u@\h|\w\$ `, one character at a time. */
  lemma DefaultShape(s: string, env: Env)
    requires |s| == 11 && s[0] == '\\' && s[1] == 'u' && s[2] == '@' && s[3] == '\\' && s[4] == 'h'
             && s[5] == '|' && s[6] == '\\' && s[7] == 'w' && s[8] == '\\' && s[9] == '$' && s[10] == ' '
    ensures Build(s, env)
         == Username(env.vars) + ("@" + (Hostname(env.vars) + ("|" + (CurrentDir(env)
            + ((if IsRoot(env) then "#" else "$") + " ")))))
  {
    EscapeAt(s, 0, env);
    CharAt(s, 2, env);
    EscapeAt(s, 3, env);
    CharAt(s, 5, env);
    EscapeAt(s, 6, env);
    EscapeAt(s, 8, env);
    CharAt(s, 10, env);
    assert s[0..] == s;
  }

  /** The suffix from `i` starts with an escape sequence. */
  lemma EscapeAt(s: string, i: nat, env: Env)
    requires i + 2 <= |s| && s[i] == '\\'
    ensures Build(s[i..], env) == Expand(s[i + 1], env) + Build(s[i + 2..], env)
  {
    assert s[i..][2..] == s[i + 2..];
  }

  /** The suffix from `i` starts with a literal character. */
  lemma CharAt(s: string, i: nat, env: Env)
    requires i + 1 <= |s| && s[i] != '\\'
    ensures Build(s[i..], env) == [s[i]] + Build(s[i + 1..], env)
  {
    assert s[i..][1..] == s[i + 1..];
  }
}

=== FILE: symlinks.dfy ===
/** The link resolver: `resolve_path`, `SymLink::dereference` and
    `SymLink::resolve`. It walks a path component by component, asks a link
    oracle (the shell's `resolve_links`, which is not part of this model) what
    each accumulated prefix resolves to, memoises the answers, and re-resolves
    a substituted prefix that it has not seen yet. */
module Symlinks {
  import opened Wrappers
  import opened Paths

  /** Answers of the link oracle and of `env::current_dir`. */
  type LinkOracle = Path -> Result<Path>

  /** `calls` logs, in order, every prefix the oracle was asked about. */
  datatype Outcome =
    | Done(path: Path, cache: map<Path, Path>, calls: seq<Path>)
    | Failed(msg: string)
    | Exhausted   // the fuel bound was reached: the source would recurse further

  /** No path occurs twice: each is new when it is appended. */
  predicate Distinct(s: seq<Path>) {
    s == [] || (s[|s| - 1] !in s[..|s| - 1] && Distinct(s[..|s| - 1]))
  }

  /** `Distinct` means pairwise different. */
  lemma {:induction false} DistinctPairwise(s: seq<Path>)
    ensures Distinct(s) <==> forall i, j :: 0 <= i < j < |s| ==> s[i] != s[j]
  {
    if s != [] {
      var init := s[..|s| - 1];
      DistinctPairwise(init);
      if Distinct(s) {
        forall i, j | 0 <= i < j < |s| ensures s[i] != s[j] {
          if j == |s| - 1 {
            assert s[i] == init[i];
          } else {
            assert s[i] == init[i] && s[j] == init[j];
          }
        }
      }
      if forall i, j :: 0 <= i < j < |s| ==> s[i] != s[j] {
        forall i, j | 0 <= i < j < |init| ensures init[i] != init[j] {
          assert init[i] == s[i] && init[j] == s[j];
        }
      }
    }
  }

  /** The cache holds exactly the prefixes the oracle was asked about, each once. */
  ghost predicate CacheMatches(cache: map<Path, Path>, calls: seq<Path>) {
    Distinct(calls) && forall p :: p in cache <==> p in calls
  }

  /** The cache only grows: every earlier entry is kept with its value. */
  predicate Extends(cache: map<Path, Path>, cache': map<Path, Path>) {
    forall p :: p in cache ==> p in cache' && cache'[p] == cache[p]
  }

  /** Every entry added to the cache is the oracle's answer for its key. */
  predicate Answered(links: LinkOracle, cache: map<Path, Path>, cache': map<Path, Path>) {
    forall p :: p in cache' && p !in cache ==> links(p) == Ok(cache'[p])
  }

  /** What one resolution step may do to the cache and the call log. */
  ghost predicate Grows(links: LinkOracle, cache: map<Path, Path>, calls: seq<Path>,
                        cache': map<Path, Path>, calls': seq<Path>) {
    && CacheMatches(cache', calls')
    && Extends(cache, cache')
    && Answered(links, cache, cache')
    && |calls| <= |calls'| && calls'[..|calls|] == calls
  }

  lemma GrowsAfter(links: LinkOracle, cache: map<Path, Path>, calls: seq<Path>,
                   cache1: map<Path, Path>, calls1: seq<Path>, r: Outcome)
    requires Grows(links, cache, calls, cache1, calls1)
    requires r.Done? ==> Grows(links, cache1, calls1, r.cache, r.calls)
    ensures r.Done? ==> Grows(links, cache, calls, r.cache, r.calls)
  {
    if r.Done? {
      assert r.calls[..|calls1|][..|calls|] == r.calls[..|calls|];
    }
  }

  /** The memoised oracle: a cache hit costs no call. */
  function Lookup(links: LinkOracle, p: Path, cache: map<Path, Path>, calls: seq<Path>)
    : (r: Result<(Path, map<Path, Path>, seq<Path>)>)
    requires CacheMatches(cache, calls)
    ensures p in cache ==> r == Ok((cache[p], cache, calls))
    ensures p !in cache && links(p).Err? ==> r == Err(links(p).msg)
    ensures p !in cache && links(p).Ok? ==>
      r == Ok((links(p).value, cache[p := links(p).value], calls + [p]))
    ensures r.Ok? ==> Grows(links, cache, calls, r.value.1, r.value.2) && p in r.value.1
  {
    if p in cache then Ok((cache[p], cache, calls))
    else
      match links(p)
      case Err(m) => Err(m)
      case Ok(q) => Ok((q, cache[p := q], calls + [p]))
  }

  predicate NoCurDir(p: Path) {
    forall k :: 0 <= k < |p| ==> p[k] != CurDir
  }

  /** The path without its `.` components. */
  function DropCurDirs(p: Path): (r: Path)
    ensures |r| <= |p|
    ensures forall k :: 0 <= k < |r| ==> r[k] != CurDir && r[k] in p
    ensures (forall k :: 0 <= k < |p| ==> p[k] != CurDir) ==> r == p
  {
    if p == [] then []
    else if p[0] == CurDir then DropCurDirs(p[1..])
    else [p[0]] + DropCurDirs(p[1..])
  }

  lemma {:induction false} DropCurDirsAppend(a: Path, b: Path)
    ensures DropCurDirs(a + b) == DropCurDirs(a) + DropCurDirs(b)
  {
    if a != [] {
      assert (a + b)[1..] == a[1..] + b;
      DropCurDirsAppend(a[1..], b);
    } else {
      assert a + b == b;
    }
  }

  /** The components `Path::components` yields: a `.` is kept only at the start. */
  function Clean(p: Path): (r: Path)
    ensures p != [] ==> r != [] && r[0] == p[0]
    ensures forall k :: 0 < k < |r| ==> r[k] != CurDir
    ensures DropCurDirs(r) == DropCurDirs(p)
    ensures (forall k :: 0 < k < |p| ==> p[k] != CurDir) ==> r == p
  {
    if p == [] then []
    else
      DropCurDirsAppend([p[0]], p[1..]);
      DropCurDirsAppend([p[0]], DropCurDirs(p[1..]));
      assert [p[0]] + p[1..] == p;
      [p[0]] + DropCurDirs(p[1..])
  }

  /** An absolute answer replaces the accumulated path; a relative one replaces
      its last component (`pop`, then `push`). The path is then read by its
      components, which skip a `.` that is not at the start. */
  function Substitute(path: Path, resolved: Path): Path {
    Clean(Push(Pop(path), resolved))
  }

  /** What `Substitute` yields, stated apart so that unfolding the walk does
      not bring these facts along. */
  lemma SubstituteSpec(path: Path, resolved: Path)
    ensures var r := Substitute(path, resolved);
      && (forall k :: 0 < k < |r| ==> r[k] != CurDir)
      && (IsAbsolute(resolved) ==> IsAbsolute(r) && DropCurDirs(r) == DropCurDirs(resolved))
      && (!IsAbsolute(resolved) ==> DropCurDirs(r) == DropCurDirs(Pop(path)) + DropCurDirs(resolved))
      && (!IsAbsolute(resolved) && IsAbsolute(Pop(path)) ==> IsAbsolute(r))
      && (IsAbsolute(resolved) && NoCurDir(resolved) ==> r == resolved)
      && (NoCurDir(Pop(path)) && NoCurDir(resolved) ==> r == Push(Pop(path), resolved))
  {
    DropCurDirsAppend(Pop(path), resolved);
  }

  /** The accumulated path after one component, before the lookup: `.` never
      reaches this point, `..` pops without any oracle call. */
  function Advance(path: Path, c: Comp): Path
    requires c != CurDir
  {
    if c == ParentDir then Pop(path) else Push(path, [c])
  }

  lemma AdvanceNoCurDir(path: Path, c: Comp)
    requires c != CurDir && NoCurDir(path)
    ensures NoCurDir(Advance(path, c))
  {
    if c == ParentDir && Parent(path).Some? {
      assert forall k :: 0 <= k < |Pop(path)| ==> Pop(path)[k] == path[k];
    }
  }

  /** `resolve_path(sym, visited)`, bounded by `fuel` nested calls. */
  function ResolvePath(links: LinkOracle, cwd: Result<Path>, sym: Path,
                       cache: map<Path, Path>, calls: seq<Path>, fuel: nat): (r: Outcome)
    requires CacheMatches(cache, calls)
    ensures r.Done? ==> Grows(links, cache, calls, r.cache, r.calls)
    decreases fuel, 0, 0, 0
  {
    if fuel == 0 then Exhausted
    else
      var start := if IsAbsolute(sym) then Ok([]) else cwd;
      match start
      case Err(m) => Failed(m)
      case Ok(p) => Walk(links, cwd, sym, 0, p, cache, calls, fuel - 1)
  }

  /** The loop over the components of `sym`, from index `i` on. */
  function Walk(links: LinkOracle, cwd: Result<Path>, sym: Path, i: nat, path: Path,
                cache: map<Path, Path>, calls: seq<Path>, fuel: nat): (r: Outcome)
    requires i <= |sym|
    requires CacheMatches(cache, calls)
    ensures r.Done? ==> Grows(links, cache, calls, r.cache, r.calls)
    decreases fuel, 1, |sym| - i, 1
  {
    if i == |sym| then
      assert calls[..|calls|] == calls;
      Done(path, cache, calls)
    else if sym[i] == CurDir then Walk(links, cwd, sym, i + 1, path, cache, calls, fuel)
    else
      var p1 := Advance(path, sym[i]);
      match Lookup(links, p1, cache, calls)
      case Err(m) => Failed(m)
      case Ok((resolved, cache1, calls1)) =>
        var r := Follow(links, cwd, sym, i, Substitute(p1, resolved), cache1, calls1, fuel);
        GrowsAfter(links, cache, calls, cache1, calls1, r);
        r
  }

  /** The rest of one turn of the loop, once component `i` has been looked up
      and substituted into `p2`: a prefix already in the cache continues the
      walk, a new one is resolved first. */
  function Follow(links: LinkOracle, cwd: Result<Path>, sym: Path, i: nat, p2: Path,
                  cache1: map<Path, Path>, calls1: seq<Path>, fuel: nat): (r: Outcome)
    requires i < |sym|
    requires CacheMatches(cache1, calls1)
    ensures r.Done? ==> Grows(links, cache1, calls1, r.cache, r.calls)
    decreases fuel, 1, |sym| - i, 0
  {
    if p2 in cache1 then Walk(links, cwd, sym, i + 1, p2, cache1, calls1, fuel)
    else
      match ResolvePath(links, cwd, p2, cache1, calls1, fuel)
      case Done(p3, cache2, calls2) =>
        var r := Walk(links, cwd, sym, i + 1, p3, cache2, calls2, fuel);
        GrowsAfter(links, cache1, calls1, cache2, calls2, r);
        r
      case Failed(m) => Failed(m)
      case Exhausted => Exhausted
  }

  /** `SymLink::dereference`: a fresh cache per call; the result is not canonicalised. */
  function Dereference(links: LinkOracle, cwd: Result<Path>, sym: Path, fuel: nat): (r: Outcome)
    ensures r.Done? ==> Distinct(r.calls) && r.cache.Keys == set p | p in r.calls
    ensures r.Done? ==> forall p :: p in r.cache ==> links(p) == Ok(r.cache[p])
  {
    ResolvePath(links, cwd, sym, map[], [], fuel)
  }

  /** `SymLink::resolve`: the path itself unless links are followed. */
  function Resolve(links: LinkOracle, cwd: Result<Path>, sym: Path, follow: bool, fuel: nat): (r: Outcome)
    ensures !follow ==> r == Done(sym, map[], [])
    ensures follow ==> r == Dereference(links, cwd, sym, fuel)
  {
    if follow then Dereference(links, cwd, sym, fuel) else Done(sym, map[], [])
  }

  // ---------------------------------------------------------------------------
  // Properties

  /** Lexical normalisation: `.` is dropped, `..` pops, anything else is pushed. */
  function Normalize(sym: Path, acc: Path): Path
    decreases |sym|
  {
    if sym == [] then acc
    else Normalize(sym[1..], if sym[0] == CurDir then acc else Advance(acc, sym[0]))
  }

  /** The oracle of a file system without links. */
  function NoLinks(p: Path): Result<Path> {
    Ok(p)
  }

  ghost predicate IdentityCache(cache: map<Path, Path>) {
    forall p :: p in cache ==> cache[p] == p
  }

  lemma {:induction false} WalkNoLinks(cwd: Result<Path>, sym: Path, i: nat, path: Path,
                                      cache: map<Path, Path>, calls: seq<Path>, fuel: nat)
    requires i <= |sym| && CacheMatches(cache, calls) && IdentityCache(cache)
    requires IsAbsolute(path) || (path == [] && i < |sym| && sym[i] == RootDir)
    requires NoCurDir(path)
    ensures Walk(NoLinks, cwd, sym, i, path, cache, calls, fuel).Done?
    ensures Walk(NoLinks, cwd, sym, i, path, cache, calls, fuel).path == Normalize(sym[i..], path)
    decreases |sym| - i
  {
    if i < |sym| {
      assert sym[i..][1..] == sym[i + 1..];
      if sym[i] != CurDir {
        var p1 := Advance(path, sym[i]);
        AdvanceNoCurDir(path, sym[i]);
        NoLinksStep(cwd, sym, i, path, cache, calls, fuel);
        WalkNoLinks(cwd, sym, i + 1, p1, if p1 in cache then cache else cache[p1 := p1],
                    if p1 in cache then calls else calls + [p1], fuel);
      } else {
        WalkNoLinks(cwd, sym, i + 1, path, cache, calls, fuel);
      }
    }
  }

  /** Without links, one component is a lookup that answers the prefix itself. */
  lemma NoLinksStep(cwd: Result<Path>, sym: Path, i: nat, path: Path,
                    cache: map<Path, Path>, calls: seq<Path>, fuel: nat)
    requires i < |sym| && sym[i] != CurDir && CacheMatches(cache, calls) && IdentityCache(cache)
    requires IsAbsolute(Advance(path, sym[i])) && NoCurDir(Advance(path, sym[i]))
    ensures var p1 := Advance(path, sym[i]);
            Walk(NoLinks, cwd, sym, i, path, cache, calls, fuel)
            == Walk(NoLinks, cwd, sym, i + 1, p1, if p1 in cache then cache else cache[p1 := p1],
                    if p1 in cache then calls else calls + [p1], fuel)
  {
    var p1 := Advance(path, sym[i]);
    SubstituteSpec(p1, p1);
    var cache1 := if p1 in cache then cache else cache[p1 := p1];
    var calls1 := if p1 in cache then calls else calls + [p1];
    assert Lookup(NoLinks, p1, cache, calls) == Ok((p1, cache1, calls1));
  }

  /** Without links, dereferencing an absolute path is its lexical normalisation. */
  lemma NoLinksNormalizes(cwd: Result<Path>, sym: Path, fuel: nat)
    requires IsAbsolute(sym) && fuel >= 1
    ensures Dereference(NoLinks, cwd, sym, fuel).Done?
    ensures Dereference(NoLinks, cwd, sym, fuel).path == Normalize(sym, [])
  {
    assert sym[0..] == sym;
    WalkNoLinks(cwd, sym, 0, [], map[], [], fuel - 1);
  }

  /** A relative path starts from the current directory: with nothing but `.`
      components it dereferences to the current directory itself. */
  lemma RelativeStartsAtCwd(links: LinkOracle, dir: Path, sym: Path, fuel: nat)
    requires fuel >= 1 && |sym| > 0 && forall i :: 0 <= i < |sym| ==> sym[i] == CurDir
    ensures Dereference(links, Ok(dir), sym, fuel) == Done(dir, map[], [])
  {
    var k := |sym|;
    while k > 0
      invariant 0 <= k <= |sym|
      invariant Walk(links, Ok(dir), sym, k, dir, map[], [], fuel - 1) == Done(dir, map[], [])
    {
      k := k - 1;
    }
  }

  /** Without links, a relative path is normalised onto the current directory. */
  lemma RelativeNormalizesOntoCwd(dir: Path, sym: Path, fuel: nat)
    requires IsAbsolute(dir) && NoCurDir(dir) && !IsAbsolute(sym) && fuel >= 1
    ensures Dereference(NoLinks, Ok(dir), sym, fuel).Done?
    ensures Dereference(NoLinks, Ok(dir), sym, fuel).path == Normalize(sym, dir)
  {
    assert sym[0..] == sym;
    WalkNoLinks(Ok(dir), sym, 0, dir, map[], [], fuel - 1);
  }

  /** An oracle for which `/d` is a link it cannot read. */
  function UnreadableD(p: Path): Result<Path> {
    if p == [RootDir, Normal("d")] then Err("unreadable") else Ok(p)
  }

  /** The current directory itself is taken as it is and never resolved, so a
      relative path need not resolve like the current directory joined with it. */
  lemma CwdNotResolved()
    ensures Dereference(UnreadableD, Ok([RootDir, Normal("d")]), [Normal("f")], 1).Done?
    ensures Dereference(UnreadableD, Ok([RootDir, Normal("d")]), [RootDir, Normal("d"), Normal("f")], 1)
            == Failed("unreadable")
  {
    CwdSkipped();
    CwdPrefixFails();
  }

  lemma CwdSkipped()
    ensures Dereference(UnreadableD, Ok([RootDir, Normal("d")]), [Normal("f")], 1).Done?
  {
    var f: Path := [RootDir, Normal("d"), Normal("f")];
    assert Advance([RootDir, Normal("d")], Normal("f")) == f;
    SubstituteSpec(f, f);
    assert Walk(UnreadableD, Ok([RootDir, Normal("d")]), [Normal("f")], 1, f, map[f := f], [f], 0).Done?;
    assert Walk(UnreadableD, Ok([RootDir, Normal("d")]), [Normal("f")], 0, [RootDir, Normal("d")], map[], [], 0).Done?;
  }

  lemma CwdPrefixFails()
    ensures Dereference(UnreadableD, Ok([RootDir, Normal("d")]), [RootDir, Normal("d"), Normal("f")], 1)
            == Failed("unreadable")
  {
    var f: Path := [RootDir, Normal("d"), Normal("f")];
    assert Advance([], RootDir) == [RootDir];
    SubstituteSpec([RootDir], [RootDir]);
    assert Advance([RootDir], Normal("d")) == [RootDir, Normal("d")];
    assert Walk(UnreadableD, Ok([RootDir, Normal("d")]), f, 1, [RootDir], map[[RootDir] := [RootDir]], [[RootDir]], 0)
        == Failed("unreadable");
  }

  /** A failing `current_dir` is reported unchanged for a relative path. */
  lemma CwdErrorPropagates(links: LinkOracle, m: string, sym: Path, fuel: nat)
    requires fuel >= 1 && !IsAbsolute(sym)
    ensures Dereference(links, Err(m), sym, fuel) == Failed(m)
  {
  }

  /** A failing oracle is reported unchanged: the root is the first prefix asked about. */
  lemma OracleErrorPropagates(links: LinkOracle, cwd: Result<Path>, m: string, sym: Path, fuel: nat)
    requires fuel >= 1 && IsAbsolute(sym) && links([RootDir]) == Err(m)
    ensures Dereference(links, cwd, sym, fuel) == Failed(m)
  {
    assert Advance([], sym[0]) == [RootDir];
    assert Lookup(links, [RootDir], map[], []) == Err(m);
    assert Walk(links, cwd, sym, 0, [], map[], [], fuel - 1) == Failed(m);
    assert ResolvePath(links, cwd, sym, map[], [], fuel) == Failed(m);
  }

  /** A failure reports the error of `current_dir` or of the oracle for some path. */
  ghost predicate FailureFrom(links: LinkOracle, cwd: Result<Path>, r: Outcome) {
    r.Failed? ==> cwd == Err(r.msg) || exists p :: links(p) == Err(r.msg)
  }

  /** Every failure of a dereference is an error of `current_dir` or of the
      oracle, passed on unchanged: the resolver makes up no error of its own. */
  lemma FailureHasSource(links: LinkOracle, cwd: Result<Path>, sym: Path, fuel: nat)
    ensures FailureFrom(links, cwd, Dereference(links, cwd, sym, fuel))
  {
    ResolveFailureFrom(links, cwd, sym, map[], [], fuel);
  }

  lemma {:induction false} ResolveFailureFrom(links: LinkOracle, cwd: Result<Path>, sym: Path,
                                              cache: map<Path, Path>, calls: seq<Path>, fuel: nat)
    requires CacheMatches(cache, calls)
    ensures FailureFrom(links, cwd, ResolvePath(links, cwd, sym, cache, calls, fuel))
    decreases fuel, 0, 0, 0
  {
    if fuel > 0 {
      var start := if IsAbsolute(sym) then Ok([]) else cwd;
      if start.Ok? {
        WalkFailureFrom(links, cwd, sym, 0, start.value, cache, calls, fuel - 1);
      }
    }
  }

  lemma {:induction false} WalkFailureFrom(links: LinkOracle, cwd: Result<Path>, sym: Path, i: nat, path: Path,
                                           cache: map<Path, Path>, calls: seq<Path>, fuel: nat)
    requires i <= |sym| && CacheMatches(cache, calls)
    ensures FailureFrom(links, cwd, Walk(links, cwd, sym, i, path, cache, calls, fuel))
    decreases fuel, 1, |sym| - i, 2
  {
    if i < |sym| {
      if sym[i] == CurDir {
        WalkFailureFrom(links, cwd, sym, i + 1, path, cache, calls, fuel);
      } else {
        LookupFailureFrom(links, cwd, sym, i, path, cache, calls, fuel);
      }
    }
  }

  lemma {:induction false} LookupFailureFrom(links: LinkOracle, cwd: Result<Path>, sym: Path, i: nat, path: Path,
                                             cache: map<Path, Path>, calls: seq<Path>, fuel: nat)
    requires i < |sym| && sym[i] != CurDir && CacheMatches(cache, calls)
    ensures FailureFrom(links, cwd, Walk(links, cwd, sym, i, path, cache, calls, fuel))
    decreases fuel, 1, |sym| - i, 1
  {
    var p1 := Advance(path, sym[i]);
    match Lookup(links, p1, cache, calls)
    case Err(m) =>
      assert links(p1) == Err(m);
    case Ok((resolved, cache1, calls1)) =>
      FollowFailureFrom(links, cwd, sym, i, Substitute(p1, resolved), cache1, calls1, fuel);
  }

  lemma {:induction false} FollowFailureFrom(links: LinkOracle, cwd: Result<Path>, sym: Path, i: nat, p2: Path,
                                             cache1: map<Path, Path>, calls1: seq<Path>, fuel: nat)
    requires i < |sym| && CacheMatches(cache1, calls1)
    ensures FailureFrom(links, cwd, Follow(links, cwd, sym, i, p2, cache1, calls1, fuel))
    decreases fuel, 1, |sym| - i, 0
  {
    if p2 in cache1 {
      WalkFailureFrom(links, cwd, sym, i + 1, p2, cache1, calls1, fuel);
    } else {
      ResolveFailureFrom(links, cwd, p2, cache1, calls1, fuel);
      match ResolvePath(links, cwd, p2, cache1, calls1, fuel)
      case Done(p3, cache2, calls2) =>
        WalkFailureFrom(links, cwd, sym, i + 1, p3, cache2, calls2, fuel);
      case Failed(_) =>
      case Exhausted =>
    }
  }

  /** A resolved path, if any, is absolute. */
  predicate AbsoluteOutcome(r: Outcome) {
    r.Done? ==> IsAbsolute(r.path)
  }

  /** An absolute path never consults the current directory, also in the
      nested re-resolutions. */
  lemma {:induction false} ResolveAbsoluteIgnoresCwd(links: LinkOracle, c1: Result<Path>, c2: Result<Path>,
                                                     sym: Path, cache: map<Path, Path>, calls: seq<Path>, fuel: nat)
    requires CacheMatches(cache, calls) && IsAbsolute(sym)
    ensures ResolvePath(links, c1, sym, cache, calls, fuel) == ResolvePath(links, c2, sym, cache, calls, fuel)
    ensures AbsoluteOutcome(ResolvePath(links, c1, sym, cache, calls, fuel))
    decreases fuel, 0, 0, 1
  {
    if fuel > 0 {
      ResolveWithFuelIgnoresCwd(links, c1, c2, sym, cache, calls, fuel);
    }
  }

  lemma {:induction false} ResolveWithFuelIgnoresCwd(links: LinkOracle, c1: Result<Path>, c2: Result<Path>,
                                                     sym: Path, cache: map<Path, Path>, calls: seq<Path>, fuel: nat)
    requires CacheMatches(cache, calls) && IsAbsolute(sym) && fuel > 0
    ensures ResolvePath(links, c1, sym, cache, calls, fuel) == ResolvePath(links, c2, sym, cache, calls, fuel)
    ensures AbsoluteOutcome(ResolvePath(links, c1, sym, cache, calls, fuel))
    decreases fuel, 0, 0, 0
  {
    WalkAbsoluteIgnoresCwd(links, c1, c2, sym, 0, [], cache, calls, fuel - 1);
    ResolveAbsolute(links, c1, sym, cache, calls, fuel);
    ResolveAbsolute(links, c2, sym, cache, calls, fuel);
  }

  /** An absolute path starts from the empty path, whatever the current directory. */
  lemma ResolveAbsolute(links: LinkOracle, cwd: Result<Path>, sym: Path, cache: map<Path, Path>, calls: seq<Path>, fuel: nat)
    requires CacheMatches(cache, calls) && IsAbsolute(sym) && fuel > 0
    ensures ResolvePath(links, cwd, sym, cache, calls, fuel) == Walk(links, cwd, sym, 0, [], cache, calls, fuel - 1)
  {
    assert (if IsAbsolute(sym) then Ok([]) else cwd) == Ok([]);
  }

  lemma {:induction false} WalkAbsoluteIgnoresCwd(links: LinkOracle, c1: Result<Path>, c2: Result<Path>,
                                                  sym: Path, i: nat, path: Path,
                                                  cache: map<Path, Path>, calls: seq<Path>, fuel: nat)
    requires i <= |sym| && CacheMatches(cache, calls)
    requires IsAbsolute(path) || (path == [] && i < |sym| && sym[i] == RootDir)
    ensures Walk(links, c1, sym, i, path, cache, calls, fuel) == Walk(links, c2, sym, i, path, cache, calls, fuel)
    ensures AbsoluteOutcome(Walk(links, c1, sym, i, path, cache, calls, fuel))
    decreases fuel, 1, |sym| - i, 2
  {
    if i < |sym| {
      if sym[i] == CurDir {
        WalkAbsoluteIgnoresCwd(links, c1, c2, sym, i + 1, path, cache, calls, fuel);
      } else {
        LookupIgnoresCwd(links, c1, c2, sym, i, path, cache, calls, fuel);
      }
    }
  }

  /** The lookup of component `i`, which is not `.`, keeps the path absolute. */
  lemma {:induction false} LookupIgnoresCwd(links: LinkOracle, c1: Result<Path>, c2: Result<Path>,
                                            sym: Path, i: nat, path: Path,
                                            cache: map<Path, Path>, calls: seq<Path>, fuel: nat)
    requires i < |sym| && sym[i] != CurDir && CacheMatches(cache, calls)
    requires IsAbsolute(path) || (path == [] && sym[i] == RootDir)
    ensures Walk(links, c1, sym, i, path, cache, calls, fuel) == Walk(links, c2, sym, i, path, cache, calls, fuel)
    ensures AbsoluteOutcome(Walk(links, c1, sym, i, path, cache, calls, fuel))
    decreases fuel, 1, |sym| - i, 1
  {
    var p1 := Advance(path, sym[i]);
    assert IsAbsolute(p1);
    assert IsAbsolute(Pop(p1));
    match Lookup(links, p1, cache, calls)
    case Err(_) =>
    case Ok((resolved, cache1, calls1)) =>
      SubstituteSpec(p1, resolved);
      FollowAbsoluteIgnoresCwd(links, c1, c2, sym, i, Substitute(p1, resolved), cache1, calls1, fuel);
  }

  lemma {:induction false} FollowAbsoluteIgnoresCwd(links: LinkOracle, c1: Result<Path>, c2: Result<Path>,
                                                    sym: Path, i: nat, p2: Path,
                                                    cache1: map<Path, Path>, calls1: seq<Path>, fuel: nat)
    requires i < |sym| && CacheMatches(cache1, calls1) && IsAbsolute(p2)
    ensures Follow(links, c1, sym, i, p2, cache1, calls1, fuel) == Follow(links, c2, sym, i, p2, cache1, calls1, fuel)
    ensures AbsoluteOutcome(Follow(links, c1, sym, i, p2, cache1, calls1, fuel))
    decreases fuel, 1, |sym| - i, 0
  {
    if p2 in cache1 {
      WalkAbsoluteIgnoresCwd(links, c1, c2, sym, i + 1, p2, cache1, calls1, fuel);
    } else {
      ResolveAbsoluteIgnoresCwd(links, c1, c2, p2, cache1, calls1, fuel);
      match ResolvePath(links, c1, p2, cache1, calls1, fuel)
      case Done(p3, cache2, calls2) =>
        WalkAbsoluteIgnoresCwd(links, c1, c2, sym, i + 1, p3, cache2, calls2, fuel);
      case Failed(_) =>
      case Exhausted =>
    }
  }
}

=== FILE: text.dfy ===
/** String helpers with the meaning Rust's `str` gives them. */
module Text {
  import opened Wrappers

  predicate StartsWith(s: string, prefix: string) {
    |prefix| <= |s| && s[..|prefix|] == prefix
  }

  /** `p` occurs in `s` at index `i`. */
  predicate OccursAt(s: string, p: string, i: nat) {
    i + |p| <= |s| && s[i..i + |p|] == p
  }

  predicate Contains(s: string, p: string) {
    exists i: nat | i <= |s| :: OccursAt(s, p, i)
  }

  /** Rust's `str::find`: the first index at which `p` occurs in `s`. */
  function Find(s: string, p: string): (r: Option<nat>)
    ensures r.Some? ==> OccursAt(s, p, r.value)
    ensures r.Some? ==> forall j: nat :: j < r.value ==> !OccursAt(s, p, j)
    ensures r.None? <==> !Contains(s, p)
  {
    FindFrom(s, p, 0)
  }

  function FindFrom(s: string, p: string, from: nat): (r: Option<nat>)
    requires forall j: nat :: j < from ==> !OccursAt(s, p, j)
    ensures r.Some? ==> from <= r.value && OccursAt(s, p, r.value)
    ensures r.Some? ==> forall j: nat :: j < r.value ==> !OccursAt(s, p, j)
    ensures r.None? ==> forall j: nat :: !OccursAt(s, p, j)
    decreases |s| - from
  {
    if from + |p| > |s| then None
    else if s[from..from + |p|] == p then Some(from)
    else FindFrom(s, p, from + 1)
  }

  /** Rust's `char::is_whitespace`: the Unicode White_Space property. */
  predicate IsWhitespace(c: char) {
    || c == ' ' || ('\t' <= c <= '\r')
    || c == '\U{85}' || c == '\U{A0}' || c == '\U{1680}'
    || ('\U{2000}' <= c <= '\U{200A}')
    || c == '\U{2028}' || c == '\U{2029}' || c == '\U{202F}' || c == '\U{205F}' || c == '\U{3000}'
  }

  /** Rust's `str::trim_start`. */
  function TrimStart(s: string): (r: string)
    ensures |r| <= |s| && r == s[|s| - |r|..]
    ensures forall i :: 0 <= i < |s| - |r| ==> IsWhitespace(s[i])
    ensures |r| > 0 ==> !IsWhitespace(r[0])
  {
    if |s| > 0 && IsWhitespace(s[0]) then TrimStart(s[1..]) else s
  }

  /** Rust's `str::trim_end`. */
  function TrimEnd(s: string): (r: string)
    ensures |r| <= |s| && r == s[..|r|]
    ensures forall i :: |r| <= i < |s| ==> IsWhitespace(s[i])
    ensures |r| > 0 ==> !IsWhitespace(r[|r| - 1])
  {
    if |s| > 0 && IsWhitespace(s[|s| - 1]) then TrimEnd(s[..|s| - 1]) else s
  }

  /** Rust's `str::trim`: a contiguous piece of `s` with no white space at either end. */
  function Trim(s: string): (r: string)
    ensures exists i, j :: 0 <= i <= j <= |s| && r == s[i..j]
    ensures |r| > 0 ==> !IsWhitespace(r[0]) && !IsWhitespace(r[|r| - 1])
  {
    var t := TrimStart(s);
    var r := TrimEnd(t);
    assert r == s[|s| - |t|..|s| - |t| + |r|];
    r
  }

  /** Rust's `char::to_ascii_lowercase`. */
  function AsciiLower(c: char): (r: char)
    ensures 'A' <= c <= 'Z' ==> 'a' <= r <= 'z' && r as int - c as int == 32
    ensures !('A' <= c <= 'Z') ==> r == c
  {
    if 'A' <= c <= 'Z' then (c as int + 32) as char else c
  }

  /** Rust's `char::to_uppercase`, for the ASCII letters only. */
  function AsciiUpper(c: char): (r: char)
    ensures 'a' <= c <= 'z' ==> 'A' <= r <= 'Z' && c as int - r as int == 32
    ensures !('a' <= c <= 'z') ==> r == c
  {
    if 'a' <= c <= 'z' then (c as int - 32) as char else c
  }

  function UpperCase(s: string): (r: string)
    ensures |r| == |s|
    ensures forall i :: 0 <= i < |s| ==> r[i] == AsciiUpper(s[i])
  {
    if s == [] then [] else [AsciiUpper(s[0])] + UpperCase(s[1..])
  }

  /** Rust's `[String]::join(sep)`. */
  function Join(parts: seq<string>, sep: string): string {
    if |parts| == 0 then ""
    else if |parts| == 1 then parts[0]
    else parts[0] + sep + Join(parts[1..], sep)
  }

  lemma {:induction false} JoinAppend(a: seq<string>, b: seq<string>, sep: string)
    requires |a| > 0 && |b| > 0
    ensures Join(a + b, sep) == Join(a, sep) + sep + Join(b, sep)
  {
    if |a| == 1 {
      assert (a + b)[1..] == b;
    } else {
      assert (a + b)[1..] == a[1..] + b;
      JoinAppend(a[1..], b, sep);
    }
  }
}

=== FILE: wrappers.dfy ===
/** Failure-compatible result types shared by every component of the model.
    A Rust `panic!` (an `unwrap` on `None`, an out-of-range slice, a division by
    zero) is modelled as an `Err` whose message starts with "panic: ". */
module Wrappers {

  datatype Option<+T> = None | Some(value: T) {
    function GetOr(default: T): T {
      match this
      case Some(v) => v
      case None => default
    }
  }

  datatype Result<+T> = Ok(value: T) | Err(msg: string) {
    predicate IsFailure() {
      Err?
    }

    function PropagateFailure<U>(): Result<U>
      requires Err?
    {
      Err(msg)
    }

    function Extract(): T
      requires Ok?
    {
      value
    }
  }
}
